=== FILE: README.md ===
# track-course in Dafny

A model of the core of *track-course*. This is a golf-course catalog web
application that:

- mirrors courses from the Trackman course feed into its own database;
- lets signed-in golfers log rounds (plays) with per-hole scores;
- lets them favorite and bookmark courses;
- shows scorecards, hole images, a searchable course list and account pages.

The model covers the logic behind those features:

- the feed sync (`POST /api/sync`): authorisation, the course upsert keyed by
  the upstream `trackmanId`, and the delete-and-rebuild of a course's tees,
  holes and per-hole-per-tee rows;
- the orphan-course script: string normalisation, name+location keys and the
  orphan filter;
- the server actions that log a round, and those that add or remove
  favorites and bookmarks;
- the two play dialogs: the client-side check of overall score against
  per-hole scores, and the payload each dialog sends;
- the scorecard arithmetic (front/back/full holes, out/in totals, to-par text,
  score marks), the tee-scorecard grouping and totals, and the hole-image
  viewer (labels, farthest tee, navigation);
- the course search page (query parsing, filter construction, paging, links)
  and the filter form (URL parameter updates);
- the played-courses and favorites account pages (grouping and card flags).

The database is an in-memory value: maps keyed by abstract `nat` ids that
come from a counter. Each action is a function or method from a state to a new
state and an answer.

Modules, one per source file, plus shared helpers:

| module | file | models |
|---|---|---|
| `Wrappers`, `Seqs`, `Text` | wrappers.dfy, seqs.dfy, text.dfy | `Option`; `filter`, `reduce`, `new Map(pairs)`; ECMAScript whitespace, `trim`, ASCII `toLowerCase`, `String(n)`, `parseInt(s, 10)` |
| `Catalog` | catalog.dfy | feed records, stored rows, the store and its constraints, id-free views of a course |
| `Sync` | sync.dfy | src/app/api/sync/route.ts |
| `Orphans` | orphans.dfy | scripts/find-orphan-courses.ts |
| `Holes` | holes.dfy | the `holesPlayed` values and the hole filtering and hole-tee lookup shared by several components |
| `Activity`, `CoursePlay`, `Favorites`, `Bookmarks` | activity.dfy, course_play.dfy, favorites.dfy, bookmarks.dfy | the user data and the server actions in src/app/actions |
| `ScoreForm`, `MarkAsPlayed`, `EditPlay` | score_form.dfy, mark_as_played.dfy, edit_play.dfy | the two play dialogs |
| `PlayScorecard`, `TeeScorecard`, `HoleImages` | play_scorecard.dfy, tee_scorecard.dfy, hole_images.dfy | the three scorecard/image dialogs |
| `QueryParams`, `CourseSearch`, `CourseFilters` | query_params.dfy, course_search.dfy, course_filters.dfy | `URLSearchParams`, src/app/courses/page.tsx, src/components/course-filters.tsx |
| `PlayedPage`, `FavoritesPage` | played_page.dfy, favorites_page.dfy | the two account pages |

Three things about how the sync works:

- An existing course is found only by its `trackmanId`. There is no
  fingerprint or name/location matching.
- A course's tees and holes are deleted and recreated on every sync, rather
  than upserted by index.
- The endpoint syncs synchronously and answers 200 with `{ ok, synced }`, not
  202 with a background job.

Two behaviours of the code are worth knowing. Both are stated as lemmas.

- `Orphans.StaleLocationReported`: the sync's update leaves a stored
  `courseLocation` in place when the feed drops it. The orphan script then
  keys the feed record with an empty location. So a course that the feed
  still lists is reported as an orphan.
- `Orphans.KeyAmbiguous`: a `|` inside a name makes two different
  name/location pairs share one key.

The filter form keeps whatever `page` the URL had when it is submitted
(`CourseFilters.SubmitResult`). A narrower search can therefore open on a page
past its end.

## Model

| member | source | states |
|---|---|---|
| Sync.CronSecret | src/app/api/sync/route.ts:5-9 | A header starting with "Bearer " yields exactly the text after it. Otherwise the credential is the `secret` query parameter, or none. |
| Sync.BearerTokenWins | src/app/api/sync/route.ts:6-7 | A bearer header wins over the query parameter and yields its token unchanged. |
| Sync.AuthorizedHasCredential | src/app/api/sync/route.ts:91-96 | A request passes the check only with a non-empty credential. |
| Sync.MapCourseCreate | src/app/api/sync/route.ts:119-138 | The created row carries the feed id as `trackmanId`, the display name and the sync time. Missing tags become `[]`. |
| Sync.ApplyUpdate | src/app/api/sync/route.ts:140-157 | An update never changes `trackmanId` or `createdAt`. |
| Sync.UpdateKeepsMissingFields | src/app/api/sync/route.ts:143-155 | Each optional field the record omits keeps its stored value. Fields it gives are taken. Tags are always replaced, by `[]` when absent. |
| Sync.UpdateMatchesCreate | src/app/api/sync/route.ts:119-157 | For a record that gives every field, the update path writes what the create path would, except `trackmanId` and `createdAt`. |
| Sync.UpsertIdempotent | src/app/api/sync/route.ts:12-16 | Upserting the same record twice gives the row that one upsert gave. |
| Sync.CreateThenUpdate | src/app/api/sync/route.ts:12-16 | Updating a just-created row with the same record changes nothing. |
| Sync.NewTees | src/app/api/sync/route.ts:21-36 | Tee j of the record becomes exactly one new row with `teeIndex` j and the record's values. There are no other rows. |
| Sync.NewHoles | src/app/api/sync/route.ts:45-59 | Hole i of the record becomes exactly one new row with `holeIndex` i and the record's name. |
| Sync.CollectHoleTees | src/app/api/sync/route.ts:61-82 | The nested loop produces exactly the set of (hole i, tee j, entry j of hole i) rows for j below both list lengths. |
| Sync.PairedRowIff | src/app/api/sync/route.ts:68-82 | A row for (hole i, tee j) exists iff j is below the hole's entry count and the tee count. Each row carries entry j. |
| Sync.UpsertCourse | src/app/api/sync/route.ts:12-16 | It updates the course holding the `trackmanId` if there is one, else creates one under a fresh id. Other courses and all child rows are unchanged. |
| Sync.DeleteChildren | src/app/api/sync/route.ts:18-19 | Afterwards the course has no tees, holes or per-hole-per-tee rows. Other courses keep all of theirs. |
| Sync.RebuildValid | src/app/api/sync/route.ts:21-87 | Rebuilding a childless course keeps the store's constraints. |
| Sync.RebuildReflects | src/app/api/sync/route.ts:18-87 | After the rebuild, the course's tees, holes and per-hole-per-tee rows are exactly what the record describes, ids aside. |
| Sync.RebuildFrame | src/app/api/sync/route.ts:18-87 | A rebuild leaves every other course's rows as they were. |
| Sync.SyncOneCourse | src/app/api/sync/route.ts:11-88 | After one course's sync, the course is created or updated as the mappers say and holds exactly what the record describes, with nothing stale. Every other course is untouched. |
| Sync.SyncTwice | src/app/api/sync/route.ts:11-88 | Syncing the same record twice ends with the same course row and the same tees, holes and per-hole-per-tee rows, ids aside. |
| Sync.SyncAll | src/app/api/sync/route.ts:104-107 | After the feed loop, each upstream id's last record decides its course. Courses the feed does not mention are untouched. No course is removed. |
| Sync.HandleSync | src/app/api/sync/route.ts:90-117 | Answers 401 iff the secret is unset, empty or differs, and then changes nothing. A failed fetch answers with its message or "Sync failed" and changes nothing. Otherwise it syncs every record and reports the count. |
| Orphans.Normalize | scripts/find-orphan-courses.ts:12-15 | The result is trimmed, lower-case, and uses single plain spaces. It is empty iff the input is absent or all whitespace. |
| Orphans.CollapseShape | scripts/find-orphan-courses.ts:14 | Replacing each whitespace run by one space never lengthens the text, keeps the first and last characters, and leaves no double space. |
| Orphans.NormalFormFixed | scripts/find-orphan-courses.ts:14 | A string is its own normalisation iff it is already in normal form. |
| Orphans.NormalizeIdempotent | scripts/find-orphan-courses.ts:14 | Normalising twice gives what normalising once gives. |
| Orphans.NormalizeIgnoresLeadingSpace | scripts/find-orphan-courses.ts:14 | Leading whitespace does not change the normal form. |
| Orphans.NormalizeIgnoresTrailingSpace | scripts/find-orphan-courses.ts:14 | Trailing whitespace does not change the normal form. |
| Orphans.NormalizeIgnoresCase | scripts/find-orphan-courses.ts:14 | Lower-casing first does not change the normal form. |
| Orphans.NormalizeIgnoresRunLength | scripts/find-orphan-courses.ts:14 | Inner whitespace runs of any length normalise alike. |
| Orphans.PineValley | scripts/find-orphan-courses.ts:14 | "  Pine   Valley  " and "pine valley" normalise equal. |
| Orphans.KeySplits | scripts/find-orphan-courses.ts:17-19 | When neither name contains a bar, equal keys mean equal normalised names and equal normalised locations. |
| Orphans.NormalKey | scripts/find-orphan-courses.ts:17-19 | The key of normalised parts is the name, a bar, and the location. |
| Orphans.KeyAmbiguous | scripts/find-orphan-courses.ts:17-19 | The names "a\|b" and "a" with different locations get the same key. |
| Orphans.ApiKeys | scripts/find-orphan-courses.ts:26-28 | The key set holds exactly the keys of the feed records. |
| Orphans.FindOrphans | scripts/find-orphan-courses.ts:35-37 | A stored course is an orphan iff no feed record has its key. The orphans keep the stored order. |
| Orphans.CreatedCourseNotOrphan | scripts/find-orphan-courses.ts:35-37 | A course just created from a feed record is not reported, in any list of stored courses, while that record is in the feed. |
| Orphans.StaleLocationReported | scripts/find-orphan-courses.ts:35-37 | A course whose location the feed dropped keeps the old location on update and is then reported as an orphan. |
| Holes.ParseHalf | src/app/actions/course-play.ts:7 | Exactly "front", "back" and "full" are accepted, each as its own half. |
| Holes.HalfOf | src/components/edit-play-modal.tsx:56-62 | "front" and "back" read as themselves. Anything else reads as the full course. |
| Holes.HolesToShow | src/components/mark-as-played-modal.tsx:60-65 | Front shows the holes with index below 9, back those at 9 or above, full all of them, in the given order. |
| Holes.HalvesSplitCourse | src/components/play-scorecard-modal.tsx:72-73 | Every hole of the course is in exactly one of the front and back nine. |
| Holes.FindHoleTee | src/components/play-scorecard-modal.tsx:65-66 | Absent iff no row names the tee. Otherwise it is the first row that does. |
| Holes.FirstRowDecides | src/components/play-scorecard-modal.tsx:67-69 | Par, distance and stroke index come from the first row for the tee. Later rows are ignored. |
| Activity.UpsertFavorite | src/app/actions/favorites.ts:17-23 | The pair is added unless present. Duplicates never arise, and existing favorites keep their order. |
| CoursePlay.StoredNote | src/app/actions/course-play.ts:53 | The note is stored trimmed. A missing or blank note is stored as absent. |
| CoursePlay.ScoreRows | src/app/actions/course-play.ts:57-71 | A score row is written exactly for each entry whose hole belongs to the course and whose score is finite. |
| CoursePlay.CreateCoursePlay | src/app/actions/course-play.ts:21-92 | The errors fire in the source's order: unauthorized, invalid holes value, unknown course, tee not of the course, 9-hole course not played in full. Each is answered iff its condition is the first that fails, with nothing written. On success it writes one play, the qualifying scores, and the favorite when asked. |
| CoursePlay.CreateAddsOnePlay | src/app/actions/course-play.ts:46-55 | A successful call adds exactly one play under a fresh id, keeps the earlier ones, and keeps the store's constraints. |
| CoursePlay.CreateFavoriteOnce | src/app/actions/course-play.ts:73-81 | With "add to favorites" the pair is a favorite once. Repeating the call adds no second favorite. |
| CoursePlay.NoQualifyingScores | src/app/actions/course-play.ts:62-70 | When no entry qualifies, no score row is written. |
| Favorites.AddFavorite | src/app/actions/favorites.ts:7-31 | Unauthorized without a session. It refuses a course the user has not played. Otherwise the pair is a favorite, kept unique, and nothing else changes. |
| Favorites.AddFavoriteIdempotent | src/app/actions/favorites.ts:17-23 | Adding the same favorite twice equals adding it once. |
| Favorites.RemoveFavorite | src/app/actions/favorites.ts:33-47 | Unauthorized without a session. Otherwise the pair is no longer a favorite, even if it never was, and only that pair changes. |
| Favorites.AddThenRemove | src/app/actions/favorites.ts:37-39 | Adding and then removing a favorite leaves every other pair, the plays and the bookmarks as they were. |
| Bookmarks.AddBookmark | src/app/actions/bookmarks.ts:7-25 | Unauthorized without a session. Otherwise the bookmark exists afterwards, an existing note is kept, and only that entry changes. |
| Bookmarks.AddBookmarkIdempotent | src/app/actions/bookmarks.ts:11-17 | Adding a bookmark twice equals adding it once. |
| Bookmarks.RemoveBookmark | src/app/actions/bookmarks.ts:27-41 | Unauthorized without a session. Otherwise no bookmark remains for the pair, and only that entry changes. |
| Bookmarks.NoteValue | src/app/actions/bookmarks.ts:51-52 | An empty or missing note is stored as null. Any other note is stored as given. |
| Bookmarks.UpdateBookmarkNote | src/app/actions/bookmarks.ts:43-61 | Unauthorized without a session. Otherwise the bookmark exists, created if needed, with the given note. Only that entry changes. |
| Bookmarks.NoteSurvivesAdd | src/app/actions/bookmarks.ts:11-17 | A note set before a later add survives it. Removing afterwards restores the other bookmarks. |
| ScoreForm.OverallNumber | src/components/mark-as-played-modal.tsx:73 | A blank overall score is absent. Otherwise it is `parseInt` of the text, NaN included. |
| ScoreForm.ClientNote | src/components/mark-as-played-modal.tsx:105 | A blank note is sent as null. Otherwise it is sent trimmed. |
| ScoreForm.ParsedScores | src/components/mark-as-played-modal.tsx:74-78 | Exactly the entries whose text parses to a finite integer are kept, with that integer. |
| ScoreForm.CheckScores | src/components/mark-as-played-modal.tsx:80-96 | Rejects iff an overall score is given, every shown hole (at least one) is scored, and the per-hole sum differs from it. |
| ScoreForm.ConsistentScoresPass | src/components/mark-as-played-modal.tsx:88-96 | Per-hole scores together with their own total as the overall score always pass. |
| ScoreForm.UnparsableOverallRejected | src/components/mark-as-played-modal.tsx:88-96 | An overall score that is not blank but does not parse fails the check when every hole is scored. |
| MarkAsPlayed.SentScores | src/components/mark-as-played-modal.tsx:106 | The score map is sent absent iff no entry parses. Otherwise it holds exactly the parsed entries. |
| MarkAsPlayed.Submit | src/components/mark-as-played-modal.tsx:67-108 | No tee means no request. A mismatch means no request. Otherwise the request carries the course, tee, half, parsed overall score, trimmed note, parsed scores and favorite flag. |
| MarkAsPlayed.AfterSave | src/components/mark-as-played-modal.tsx:109-122 | Success closes the dialog and resets the form to its defaults. An error keeps the state. |
| MarkAsPlayed.SubmittedScoresStored | src/components/mark-as-played-modal.tsx:100-108 | Each stored score row comes from a typed entry that parses to that score, for a hole of the course. |
| MarkAsPlayed.ClientNoteStoredAsSent | src/app/actions/course-play.ts:53 | The server stores the note that the dialog sent, unchanged. |
| EditPlay.ScoreTexts | src/components/edit-play-modal.tsx:47-50 | Each score becomes its decimal text, keyed by its hole, and `parseInt` reads that text back as the score. |
| EditPlay.InitForm | src/components/edit-play-modal.tsx:43-52 | The overall text is `String(overallScore)`, which `parseInt` reads back as the score, and is empty iff the play has no score. The note defaults to "". The score texts cover exactly the play's holes, and the last entry per hole wins. |
| EditPlay.OnOpen | src/components/edit-play-modal.tsx:43-54 | Opening reloads the form from the play. Otherwise the form stays. |
| EditPlay.Submit | src/components/edit-play-modal.tsx:64-98 | Rejects exactly on a score mismatch. Otherwise a blank overall is sent as null, the note trimmed or null, and the map of parsed scores always. |
| EditPlay.AfterUpdate | src/components/edit-play-modal.tsx:99-105 | The dialog closes and the success callback fires only when the server reports no error. |
| EditPlay.UnchangedFormRoundTrip | src/components/edit-play-modal.tsx:43-98 | Saving an untouched form sends back the play's own overall score and per-hole scores. |
| EditPlay.ParsedTextsRoundTrip | src/components/edit-play-modal.tsx:67-71 | Parsing the texts the form was filled with gives back the scores. |
| PlayScorecard.ScoreFor | src/components/play-scorecard-modal.tsx:55 | A hole's score is absent iff the play has none for it. Otherwise it is the last one given. |
| PlayScorecard.TotalToPar | src/components/play-scorecard-modal.tsx:83 | Absent iff total par is not positive. Otherwise par plus the result is the total score. |
| PlayScorecard.CardTotals | src/components/play-scorecard-modal.tsx:72-83 | Each total is the sum, over the shown holes (all, out or in), of the par for the play's tee or of the score, with a missing value counted as 0. Total is out plus in, for par and score. The 18-hole layout shows iff both halves have shown holes. To-par is as above. |
| PlayScorecard.MissingValuesAddNothing | src/components/play-scorecard-modal.tsx:76-82 | Holes without a par for the tee leave a par sum unchanged, and holes without a score leave a score sum unchanged. |
| PlayScorecard.HalfRoundNotFull18 | src/components/play-scorecard-modal.tsx:57-74 | A front- or back-nine round never gets the 18-hole layout. |
| PlayScorecard.FormatToPar | src/components/play-scorecard-modal.tsx:85 | "E" iff zero. Otherwise the text starts with '+' or '-' by sign. |
| PlayScorecard.FormatToParReadsBack | src/components/play-scorecard-modal.tsx:85 | A non-zero to-par text reads back as its number. |
| PlayScorecard.GetScoreStyle | src/components/play-scorecard-modal.tsx:88-89 | No mark when par or score is missing. |
| PlayScorecard.ScoreStyleMarks | src/components/play-scorecard-modal.tsx:90-95 | The mark is the score minus par, clamped to -2..2: two or one circles below par, squares above. |
| PlayScorecard.ScoreStyleMonotone | src/components/play-scorecard-modal.tsx:88-96 | A higher score never gets a better mark. |
| TeeScorecard.GroupTees | src/components/tee-scorecard-modal.tsx:91-95 | Men's tees are those marked MALE, women's FEMALE, and the rest are other. |
| TeeScorecard.GroupsPartition | src/components/tee-scorecard-modal.tsx:91-95 | The three groups split the tees with nothing lost or repeated, each keeping the course's order. |
| TeeScorecard.OpenScorecard | src/components/tee-scorecard-modal.tsx:97 | Opening a tee's scorecard opens the dialog on that tee. |
| TeeScorecard.OnOpenChange | src/components/tee-scorecard-modal.tsx:98 | Closing clears the selection, so the dialog is shut. An open event changes nothing. |
| TeeScorecard.TeeRow | src/components/tee-scorecard-modal.tsx:185-201 | A hole without a row for the tee shows dashes. Otherwise it shows the first matching row's values. |
| TeeScorecard.TotalCell | src/components/tee-scorecard-modal.tsx:211-225 | A zero total shows a dash. Any other total shows text that reads back as the total. |
| TeeScorecard.UnmatchedHolesAddNothing | src/components/tee-scorecard-modal.tsx:211-225 | Holes with no row for the tee add nothing to the par and distance totals. |
| HoleImages.HoleLabel | src/components/hole-images-modal.tsx:34-38 | The label is the hole number alone iff the name is missing, blank, or that number. Otherwise it is the number, " — " and the untrimmed name. |
| HoleImages.HoleLabelNumber | src/components/hole-images-modal.tsx:34-38 | Every label reads back as the hole's number. |
| HoleImages.FarthestTee | src/components/hole-images-modal.tsx:40-47 | Absent iff there are no tees. Otherwise it returns a tee no other tee sorts before: longest distance, with a missing distance as 0, and on a tie the lowest index, then the earlier position. |
| HoleImages.FarthestUnique | src/components/hole-images-modal.tsx:40-47 | At most one position satisfies that description, so the choice is determined. |
| HoleImages.GoPrev | src/components/hole-images-modal.tsx:67-70 | The index steps back iff it can go back. Otherwise it stays, never below 0. |
| HoleImages.GoNext | src/components/hole-images-modal.tsx:68-71 | The index steps forward iff it can go forward. Otherwise it stays, never past the last hole. |
| HoleImages.NavigationStaysInRange | src/components/hole-images-modal.tsx:67-71 | From a valid index both moves stay valid, and each undoes the other. |
| HoleImages.HandleOpenChange | src/components/hole-images-modal.tsx:73-77 | Closing resets the index to 0. Opening reselects the farthest tee when there is one. |
| HoleImages.ReopenResets | src/components/hole-images-modal.tsx:73-77 | After closing through the dialog and an opening the dialog itself requests, the viewer is on the first hole with the farthest tee. |
| HoleImages.ButtonOpen | src/components/hole-images-modal.tsx:86 | The trigger button opens the dialog and keeps the hole and the selected tee. |
| HoleImages.SelectTee | src/components/hole-images-modal.tsx:112 | A tee badge selects that tee and changes nothing else. |
| HoleImages.ButtonReopenKeepsTee | src/components/hole-images-modal.tsx:73-112 | After picking a tee, closing through the dialog and reopening with the button, the viewer is on the first hole with the picked tee, not the farthest one. |
| HoleImages.CurrentHoleTee | src/components/hole-images-modal.tsx:64-65 | There is no row iff no tee is selected, the index is not a hole, or the current hole has no row for the selected tee. A row found is the first one for that tee, as `.find` returns. |
| QueryParams.Get | src/components/course-filters.tsx:42-43 | `get` is absent iff the key is missing. Otherwise it is the value of the key's first entry. |
| QueryParams.Delete | src/components/course-filters.tsx:23 | `delete` removes every entry for the key and keeps all others in order. |
| QueryParams.Set | src/components/course-filters.tsx:24 | After `set` the key has exactly the one value. Other keys are unchanged. A new key is appended. |
| QueryParams.SetSet | src/app/courses/page.tsx:32-34 | A second `set` of a key overrides the first. |
| QueryParams.SerializeRoundTrip | src/components/course-filters.tsx:26 | Parameters without separator characters serialise to a query string that parses back to the same list. |
| CourseSearch.ParseStr | src/app/courses/page.tsx:21-25 | Absent iff the parameter is missing or its first value is blank. Otherwise it is that value trimmed. |
| CourseSearch.ParseNum | src/app/courses/page.tsx:14-19 | Present iff the first value converts to a finite number, and then it is that number. |
| CourseSearch.PageOf | src/app/courses/page.tsx:85 | The page is at least 1. It is 1 when no number is given or the number is below 1, and the given number when that is at least 1. |
| CourseSearch.BoundsOf | src/app/courses/page.tsx:88-97 | A bounds object exists iff a bound is given, with `gte` and `lte` set for exactly the given bounds. |
| CourseSearch.WhereOf | src/app/courses/page.tsx:100-104 | The name filter is present iff `q` is. The tee filter is present iff some tee condition is. The holes filter is present iff `holes` parsed. |
| CourseSearch.WhereMeansFilters | src/app/courses/page.tsx:87-104 | A course matches the query iff its name contains `q`, ignoring case, some tee meets every given rating, slope and tee-type bound, and its hole count equals `holes`. |
| CourseSearch.NoTeesNeedsNoTeeFilter | src/app/courses/page.tsx:102 | When neither a `q` nor a `holes` filter is given, a course without tees matches iff no tee bound is given. |
| CourseSearch.TotalPages | src/app/courses/page.tsx:117 | The page count is the ceiling of the total over 50. |
| CourseSearch.EveryResultOnOnePage | src/app/courses/page.tsx:111-117 | Every result position falls on exactly one page, and that page is within the page count. |
| CourseSearch.CopyParams | src/app/courses/page.tsx:28-33 | `page` is dropped. Every other key keeps the last of its usable first values. |
| CourseSearch.QueryEntries | src/app/courses/page.tsx:27-35 | `page` appears exactly once and last, with the given page. Other keys are as above. |
| CourseSearch.BuildQueryReadsBack | src/app/courses/page.tsx:27-36 | Parsing the built query gives back the page and, for every other key, the value that was set. |
| CourseSearch.PaginationOf | src/app/courses/page.tsx:49-62 | The links show iff there is more than one page. Previous exists iff page > 1, Next iff page < totalPages, each pointing to /courses with the neighbouring page. |
| CourseSearch.LinksStayInRange | src/app/courses/page.tsx:49-62 | From a valid page both links lead to pages that exist. |
| CourseFilters.ApplyUpdates | src/components/course-filters.tsx:21-25 | Keys not named keep their values. A key last set to empty or undefined is removed. Any other named key ends with its last given value. |
| CourseFilters.TargetReadsBack | src/components/course-filters.tsx:26 | The target is "/courses?" followed by a query that parses back to the updated parameters. |
| CourseFilters.OrUndefined | src/components/course-filters.tsx:46-49 | An empty or missing field becomes undefined. Any other is kept. |
| CourseFilters.SelectValue | src/components/course-filters.tsx:50-51 | A missing, empty or "all" selection becomes undefined. Any other is kept. |
| CourseFilters.SubmitResult | src/components/course-filters.tsx:34-53 | After a submit, `q` is the trimmed text or gone. Each of the four numeric fields is its input when non-empty and gone otherwise. Tee type and holes keep the current value, and are gone when it is missing, empty or "all". `page` and every other key the form does not write are left as they were. |
| CourseFilters.SelectChangeResult | src/components/course-filters.tsx:128 | Choosing "all" removes the key. Any other value sets it. Other keys are unchanged. |
| PlayedPage.CourseIds | src/app/account/played/page.tsx:29 | The ids are distinct and are exactly the courses of the plays. |
| PlayedPage.CourseIdsPrefix | src/app/account/played/page.tsx:29 | The ids of a prefix of the plays are a prefix of the ids: first-occurrence order. |
| PlayedPage.GroupByCourse | src/app/account/played/page.tsx:41-46 | A course has a group iff it has a play. Its group is exactly its plays in the given order. |
| PlayedPage.GroupsPartitionRounds | src/app/account/played/page.tsx:41-46 | Each group holds exactly that course's plays and is a sub-list of the plays. |
| PlayedPage.Items | src/app/account/played/page.tsx:60-63 | Every item is a loaded course with that course's group. |
| PlayedPage.ItemsSkipMissing | src/app/account/played/page.tsx:61-62 | One item per id that has a loaded course. Ids without one are skipped. |
| PlayedPage.PlayedPage | src/app/account/played/page.tsx:7-52 | Nothing is shown without a session. Otherwise the count is the number of distinct courses played, and item `k` is the `k`-th played course, in first-play order, that the course query returned, together with all its rounds in their order. |
| PlayedPage.ItemsAt | src/app/account/played/page.tsx:60-63 | Item `k` is the `k`-th id with a loaded course, paired with that course and its group. |
| PlayedPage.CountLabelNumber | src/app/account/played/page.tsx:52 | The count label starts with the count. |
| FavoritesPage.NoteByCourse | src/app/account/favorites/page.tsx:29 | A course has an entry iff it has a bookmark. |
| FavoritesPage.MostRecentRoundWins | src/app/account/favorites/page.tsx:30-35 | With rounds oldest first, a course maps to the holes value of a round that no other round of the course is later than. |
| FavoritesPage.CardFor | src/app/account/favorites/page.tsx:67-78 | `isBookmarked` iff the course has a bookmark, whose note is shown or null. The favorite, played and signed-in flags are set. The last holes value is present iff the course has a round, and is that course's entry in the map of latest rounds. |
| FavoritesPage.CardNote | src/app/account/favorites/page.tsx:29 | The note shown is that of the course's last bookmark. |
| FavoritesPage.FavoritesPage | src/app/account/favorites/page.tsx:7-80 | Nothing is shown without a session. Otherwise there is one card per favorite, in order, and the count is the number of favorites. Card i is `CardFor` of the i-th favorite with the bookmark notes and last holes played, so it carries every field `CardFor` pins. |
| Text.Trim | src/app/courses/page.tsx:24 | `trim` removes a whitespace prefix and suffix and nothing else. |
| Text.TrimEmpty | src/app/courses/page.tsx:24 | Trimming leaves nothing iff the text is all whitespace. |
| Text.ParseIntRoundTrip | src/components/edit-play-modal.tsx:69 | `parseInt` reads back what `String` wrote. |
| Text.ParseIntPrefix | src/components/mark-as-played-modal.tsx:76 | `parseInt` stops at the first non-digit after the number. |
| Seqs.FilterPartition | src/components/play-scorecard-modal.tsx:72-73 | Filtering by a predicate and by its negation splits a list with nothing lost or repeated. |
| Seqs.SumPartition | src/components/play-scorecard-modal.tsx:76-82 | The sums over the two halves of such a split add up to the sum over the whole. |
| Seqs.MapFromPairs | src/app/account/favorites/page.tsx:29 | `new Map(pairs)` has exactly the pairs' keys, and a repeated key keeps its last value. |

## Left out

- Network I/O. The feed fetch (`getCoursesList`, GraphQL over HTTP) is a
  parameter holding either the course list or a failure message.
- Concurrency. The sync runs records one after another. The chunks of ten
  under `Promise.all`, and races between duplicate ids within a chunk, are
  not modelled.
- The database. Prisma is replaced by maps with ids from a counter. The
  cascade that removes per-hole-per-tee rows with their holes and tees is
  assumed, since the schema is not part of this model.
- References from plays and hole scores into the catalog. A play stores a
  `teeId` and a hole score stores a `holeId`, but the sync deletes and
  recreates a course's tees and holes under fresh ids. The model keeps plays
  and hole scores in a separate activity store that the sync never touches,
  so whether the database cascades, restricts or leaves those references
  dangling is not modelled.
- Database exceptions. The "Failed to save play", "Failed to add favorite"
  and similar answers are not modelled: a write in the model cannot fail.
- `revalidatePath`, `console` output, toasts, and the orphan script's
  listing, SQL text and `--delete` mode.
- React rendering: markup, Leaflet maps, loading states. The
  "render nothing without images" rule is the predicate `HasImages`, which
  has no contract of its own.
- Number conversion. `Number()` in the search page's `parseNum` is a
  function parameter. Ratings, slopes and hole counts are integers there, and
  fractional page numbers are not modelled.
- `parseInt` is modelled exactly for decimal text, on unbounded integers. The
  loss of precision above 2^53 is not modelled.
- Dates: `new Date(...)`, `toLocaleDateString`, and timestamps, which are
  integers.
- Unicode. Case folding is ASCII only, and whitespace is the ECMAScript set.
- Percent-encoding in `URLSearchParams.toString()`. The round-trip lemmas
  require keys without `=` and `&`, and values without `&`, instead.
- `updateCoursePlay`, the server action that the edit dialog calls, is not
  part of this model. The dialog's request is modelled, not the action.
- A NaN overall score is stored as given by `createCoursePlay`, as in the
  code. How the database treats it is not modelled.
- The bookmarks account page, signup and login, the account layout, and the
  presentational components.
- `getFarthestTee` sorts a copy of its input. In a model without mutation
  the caller's list cannot change, so there is nothing to state.
- Sync.SyncAll: states what the loop establishes for each upstream id's last
  record, not a view of the whole store after the loop.

=== FILE: activity.dfy ===
/** What signed-in users record about courses: their rounds (plays) with
    per-hole scores, their favorites and their bookmarks. Course, tee and hole
    ids are the catalog's ids; users are identified by their id string. */
module Activity {
  import opened Wrappers
  import opened Seqs
  import opened Text
  import opened Catalog
  import opened Holes

  type UserId = string

  /** `session?.user?.id` is truthy: there is a session and its user id is not empty. */
  predicate SignedIn(session: Option<UserId>) {
    session.Some? && session.value != ""
  }

  /** What a server action returns: `{ ok: true }` or `{ error }`. */
  datatype Outcome = Ok | Error(message: string)

  /** A logged round. `overallScore` is the number the client sent, as given. */
  datatype Play = Play(
    userId: UserId,
    courseId: Id,
    teeId: Id,
    holesPlayed: Half,
    overallScore: Option<Num>,
    note: Option<string>,
    playedAt: Timestamp)

  datatype HoleScore = HoleScore(playId: Id, holeId: Id, score: int)

  /** The (user, course) pair a favorite or a bookmark belongs to. */
  datatype Pair = Pair(userId: UserId, courseId: Id)

  /** Favorites are kept in creation order; bookmarks map a pair to its note. */
  datatype Activity = Activity(
    plays: map<Id, Play>,
    holeScores: set<HoleScore>,
    favorites: seq<Pair>,
    bookmarks: map<Pair, Option<string>>,
    nextId: Id)

  /** The store's constraints: play ids below the counter, one favorite per pair,
      and every hole score attached to a play. */
  ghost predicate Consistent(a: Activity) {
    && (forall p :: p in a.plays ==> p < a.nextId)
    && Distinct(a.favorites)
    && (forall hs :: hs in a.holeScores ==> hs.playId in a.plays)
  }

  /** The state after an action, and its answer. */
  datatype Reply = Reply(state: Activity, outcome: Outcome)

  /** `favorite.upsert({ create, update: {} })`: add the pair unless it is already there. */
  function UpsertFavorite(favorites: seq<Pair>, p: Pair): (r: seq<Pair>)
    ensures forall q :: q in r <==> q in favorites || q == p
    ensures Distinct(favorites) ==> Distinct(r)
    ensures SubseqOf(favorites, r)
  {
    if p in favorites then
      SubseqRefl(favorites);
      favorites
    else
      PrefixSubseq(favorites, [p]);
      favorites + [p]
  }

  lemma {:induction false} PrefixSubseq<T>(a: seq<T>, b: seq<T>)
    ensures SubseqOf(a, a + b)
    decreases |a|
  {
    if |a| > 0 {
      assert (a + b)[1..] == a[1..] + b;
      PrefixSubseq(a[1..], b);
    }
  }
}

=== FILE: bookmarks.dfy ===
/** `addBookmark`, `removeBookmark` and `updateBookmarkNote`: a signed-in
    user's bookmarked courses, each with an optional note. */
module Bookmarks {
  import opened Wrappers
  import opened Catalog
  import opened Activity

  /** Only the bookmarks change, and only the given pair's entry. */
  predicate OnlyEntryChanged(a: Activity, b: Activity, p: Pair) {
    && b == a.(bookmarks := b.bookmarks)
    && b.bookmarks - {p} == a.bookmarks - {p}
  }

  /** `bookmark.upsert({ create, update: {} })`: a new bookmark has no note; an existing one is kept. */
  function AddBookmark(a: Activity, session: Option<UserId>, courseId: Id): (r: Reply)
    ensures r.outcome == Error("Unauthorized") <==> !SignedIn(session)
    ensures r.outcome.Ok? <==> SignedIn(session)
    ensures r.outcome.Error? ==> r.state == a
    ensures r.outcome.Ok? ==>
      var p := Pair(session.value, courseId);
      && p in r.state.bookmarks
      && (p in a.bookmarks ==> r.state.bookmarks[p] == a.bookmarks[p])
      && (p !in a.bookmarks ==> r.state.bookmarks[p].None?)
      && OnlyEntryChanged(a, r.state, p)
  {
    if !SignedIn(session) then Reply(a, Error("Unauthorized"))
    else
      var p := Pair(session.value, courseId);
      if p in a.bookmarks then Reply(a, Ok)
      else Reply(a.(bookmarks := a.bookmarks[p := None]), Ok)
  }

  /** Bookmarking again changes nothing, and in particular keeps the note. */
  lemma AddBookmarkIdempotent(a: Activity, session: Option<UserId>, courseId: Id)
    ensures var r := AddBookmark(a, session, courseId);
      AddBookmark(r.state, session, courseId) == r
  {
  }

  /** `bookmark.deleteMany`: succeeds whether or not there was a bookmark. */
  function RemoveBookmark(a: Activity, session: Option<UserId>, courseId: Id): (r: Reply)
    ensures r.outcome == Error("Unauthorized") <==> !SignedIn(session)
    ensures r.outcome.Ok? <==> SignedIn(session)
    ensures r.outcome.Error? ==> r.state == a
    ensures r.outcome.Ok? ==>
      var p := Pair(session.value, courseId);
      && p !in r.state.bookmarks
      && OnlyEntryChanged(a, r.state, p)
  {
    if !SignedIn(session) then Reply(a, Error("Unauthorized"))
    else Reply(a.(bookmarks := a.bookmarks - {Pair(session.value, courseId)}), Ok)
  }

  /** `note || null`: an empty note is no note. */
  function NoteValue(note: Option<string>): (r: Option<string>)
    ensures r.None? <==> note.None? || note.value == ""
    ensures r.Some? ==> r == note
  {
    if note.None? || note.value == "" then None else note
  }

  /** `updateBookmarkNote`: upsert that creates the bookmark if needed and sets its note. */
  function UpdateBookmarkNote(a: Activity, session: Option<UserId>, courseId: Id, note: Option<string>): (r: Reply)
    ensures r.outcome == Error("Unauthorized") <==> !SignedIn(session)
    ensures r.outcome.Ok? <==> SignedIn(session)
    ensures r.outcome.Error? ==> r.state == a
    ensures r.outcome.Ok? ==>
      var p := Pair(session.value, courseId);
      && p in r.state.bookmarks
      && r.state.bookmarks[p] == NoteValue(note)
      && OnlyEntryChanged(a, r.state, p)
  {
    if !SignedIn(session) then Reply(a, Error("Unauthorized"))
    else Reply(a.(bookmarks := a.bookmarks[Pair(session.value, courseId) := NoteValue(note)]), Ok)
  }

  /** Adding a bookmark after writing a note keeps the note; removing it afterwards
      restores the user's other bookmarks exactly. */
  lemma NoteSurvivesAdd(a: Activity, session: Option<UserId>, courseId: Id, note: Option<string>)
    requires SignedIn(session)
    ensures var b := UpdateBookmarkNote(a, session, courseId, note).state;
      var c := AddBookmark(b, session, courseId).state;
      var p := Pair(session.value, courseId);
      && c.bookmarks[p] == NoteValue(note)
      && RemoveBookmark(c, session, courseId).state.bookmarks == a.bookmarks - {p}
  {
  }
}

=== FILE: catalog.dfy ===
/** The course catalog: the records of the upstream course feed, and the
    store rows (Course, Tee, Hole, HoleTee) the sync writes. The relational
    store is a set of in-memory tables; generated row ids are naturals drawn
    from a counter, so a new id is always fresh. */
module Catalog {
  import opened Wrappers

  type Id = nat

  /** The instant one sync pass stamps on every course it writes. */
  type Timestamp = int

  // ---- The feed record (one element of the upstream course list) ----

  datatype FeedTee = FeedTee(
    par: Option<int>,
    courseDistance: Option<int>,
    courseRating: Option<real>,
    slope: Option<int>,
    gender: Option<string>,
    kind: Option<string>,
    name: Option<string>)

  /** The per-tee numbers of one hole, matched to the course's tees by position. */
  datatype FeedHoleTee = FeedHoleTee(distance: Option<int>, strokeIndex: Option<int>, par: Option<int>)

  datatype FeedUrl = FeedUrl(url: Option<string>)

  datatype FeedHole = FeedHole(name: Option<string>, tees: Option<seq<FeedHoleTee>>, images: Option<seq<FeedUrl>>)

  datatype WorldLocation = WorldLocation(googleMapUrl: Option<string>, latitude: Option<real>, longitude: Option<real>)

  /** A feed course; `None` stands for both a missing and a null field. */
  datatype FeedCourse = FeedCourse(
    id: string,
    dbId: Option<string>,
    createdAt: Option<string>,
    description: Option<string>,
    displayName: string,
    numbersOfHoles: Option<int>,
    worldLocation: Option<WorldLocation>,
    courseLocation: Option<string>,
    tags: Option<seq<string>>,
    holes: Option<seq<FeedHole>>,
    difficulty: Option<real>,
    tees: Option<seq<FeedTee>>,
    image: Option<FeedUrl>,
    video: Option<FeedUrl>)

  /** `item.tees ?? []` */
  function TeesOf(item: FeedCourse): seq<FeedTee> {
    item.tees.GetOr([])
  }

  /** `item.holes ?? []` */
  function HolesOf(item: FeedCourse): seq<FeedHole> {
    item.holes.GetOr([])
  }

  /** `holeItem.tees ?? []` */
  function HoleTeesOf(hole: FeedHole): seq<FeedHoleTee> {
    hole.tees.GetOr([])
  }

  // ---- Store rows ----

  /** A stored course. `createdAt` is `None` when the store chose its own default. */
  datatype CourseRow = CourseRow(
    trackmanId: string,
    dbId: Option<string>,
    createdAt: Option<string>,
    description: Option<string>,
    displayName: string,
    numbersOfHoles: Option<int>,
    courseLocation: Option<string>,
    difficulty: Option<real>,
    tags: seq<string>,
    imageUrl: Option<string>,
    videoUrl: Option<string>,
    latitude: Option<real>,
    longitude: Option<real>,
    googleMapUrl: Option<string>,
    syncedAt: Timestamp)

  /** The update half of the course upsert: `None` is `undefined`, which leaves
      the stored field as it is. */
  datatype CourseUpdate = CourseUpdate(
    dbId: Option<string>,
    description: Option<string>,
    displayName: string,
    numbersOfHoles: Option<int>,
    courseLocation: Option<string>,
    difficulty: Option<real>,
    tags: seq<string>,
    imageUrl: Option<string>,
    videoUrl: Option<string>,
    latitude: Option<real>,
    longitude: Option<real>,
    googleMapUrl: Option<string>,
    syncedAt: Timestamp)

  /** A stored tee: its position in the feed's tee list and the feed's values. */
  datatype TeeRow = TeeRow(courseId: Id, teeIndex: nat, attrs: FeedTee)

  datatype HoleRow = HoleRow(courseId: Id, holeIndex: nat, name: Option<string>)

  datatype HoleTeeRow = HoleTeeRow(holeId: Id, teeId: Id, attrs: FeedHoleTee)

  datatype Store = Store(
    courses: map<Id, CourseRow>,
    tees: map<Id, TeeRow>,
    holes: map<Id, HoleRow>,
    holeTees: set<HoleTeeRow>,
    nextId: Id)

  /** What the store's constraints guarantee: ids below the counter, `trackmanId`
      unique, children pointing at existing parents, and a HoleTee joining a hole
      and a tee of the same course. */
  ghost predicate Valid(s: Store) {
    && (forall c :: c in s.courses ==> c < s.nextId)
    && (forall t :: t in s.tees ==> t < s.nextId && s.tees[t].courseId in s.courses)
    && (forall h :: h in s.holes ==> h < s.nextId && s.holes[h].courseId in s.courses)
    && (forall r :: r in s.holeTees ==>
          r.holeId in s.holes && r.teeId in s.tees && s.holes[r.holeId].courseId == s.tees[r.teeId].courseId)
    && (forall a, b :: a in s.courses && b in s.courses && s.courses[a].trackmanId == s.courses[b].trackmanId ==> a == b)
  }

  // ---- The rows of one course, and what they look like once ids are forgotten ----

  function TeesIn(tees: map<Id, TeeRow>, c: Id): map<Id, TeeRow> {
    map t | t in tees && tees[t].courseId == c :: tees[t]
  }

  function HolesIn(holes: map<Id, HoleRow>, c: Id): map<Id, HoleRow> {
    map h | h in holes && holes[h].courseId == c :: holes[h]
  }

  function HoleTeesIn(rows: set<HoleTeeRow>, holes: map<Id, HoleRow>, c: Id): set<HoleTeeRow> {
    set r | r in rows && r.holeId in holes && holes[r.holeId].courseId == c
  }

  ghost function TeesOfCourse(s: Store, c: Id): map<Id, TeeRow> {
    TeesIn(s.tees, c)
  }

  ghost function HolesOfCourse(s: Store, c: Id): map<Id, HoleRow> {
    HolesIn(s.holes, c)
  }

  ghost function HoleTeesOfCourse(s: Store, c: Id): set<HoleTeeRow> {
    HoleTeesIn(s.holeTees, s.holes, c)
  }

  /** Tee rows as (teeIndex, values) pairs. */
  function TeeViewOf(tees: map<Id, TeeRow>): set<(nat, FeedTee)> {
    set t | t in tees :: (tees[t].teeIndex, tees[t].attrs)
  }

  function HoleViewOf(holes: map<Id, HoleRow>): set<(nat, Option<string>)> {
    set h | h in holes :: (holes[h].holeIndex, holes[h].name)
  }

  /** HoleTee rows as (holeIndex, teeIndex, values), looked up in the given holes and tees. */
  function HoleTeeViewOf(holes: map<Id, HoleRow>, tees: map<Id, TeeRow>, rows: set<HoleTeeRow>): set<(nat, nat, FeedHoleTee)> {
    set r | r in rows && r.holeId in holes && r.teeId in tees
      :: (holes[r.holeId].holeIndex, tees[r.teeId].teeIndex, r.attrs)
  }

  /** The course's tees as (teeIndex, values) pairs. */
  ghost function TeeView(s: Store, c: Id): set<(nat, FeedTee)> {
    TeeViewOf(TeesOfCourse(s, c))
  }

  ghost function HoleView(s: Store, c: Id): set<(nat, Option<string>)> {
    HoleViewOf(HolesOfCourse(s, c))
  }

  /** The course's HoleTee rows as (holeIndex, teeIndex, values). */
  ghost function HoleTeeView(s: Store, c: Id): set<(nat, nat, FeedHoleTee)> {
    HoleTeeViewOf(HolesOfCourse(s, c), TeesOfCourse(s, c), HoleTeesOfCourse(s, c))
  }

  /** No two tees, and no two holes, of the course share an index. */
  ghost predicate IndicesUnique(s: Store, c: Id) {
    var tees := TeesOfCourse(s, c);
    var holes := HolesOfCourse(s, c);
    && (forall a, b :: a in tees && b in tees && tees[a].teeIndex == tees[b].teeIndex ==> a == b)
    && (forall a, b :: a in holes && b in holes && holes[a].holeIndex == holes[b].holeIndex ==> a == b)
  }

  /** The tees a feed record asks for, as (position, values) pairs. */
  function ItemTeeView(item: FeedCourse): set<(nat, FeedTee)> {
    var tees := TeesOf(item);
    set j: nat | j < |tees| :: (j, tees[j])
  }

  function ItemHoleView(item: FeedCourse): set<(nat, Option<string>)> {
    var holes := HolesOf(item);
    set i: nat | i < |holes| :: (i, holes[i].name)
  }

  /** The HoleTee rows a feed record asks for: hole `i`'s `j`-th entry, for every
      `j` below both that hole's entry count and the course's tee count. */
  function ItemHoleTeeView(item: FeedCourse): set<(nat, nat, FeedHoleTee)> {
    var holes := HolesOf(item);
    var n := |TeesOf(item)|;
    set i: nat, j: nat | i < |holes| && j < |HoleTeesOf(holes[i])| && j < n :: (i, j, HoleTeesOf(holes[i])[j])
  }

  /** Modulo generated ids, course `c` holds exactly what `item` describes:
      the same upstream id, the same tees, holes and per-hole-per-tee rows, at
      the positions the feed gives them. */
  ghost predicate Reflects(s: Store, c: Id, item: FeedCourse) {
    && c in s.courses
    && s.courses[c].trackmanId == item.id
    && s.courses[c].displayName == item.displayName
    && IndicesUnique(s, c)
    && TeeView(s, c) == ItemTeeView(item)
    && HoleView(s, c) == ItemHoleView(item)
    && HoleTeeView(s, c) == ItemHoleTeeView(item)
  }
}

=== FILE: course_filters.dfy ===
/** The filter form above the course list: how a submission or a select
    change rewrites the current query parameters before navigating. */
module CourseFilters {
  import opened Wrappers
  import opened Text
  import opened QueryParams

  /** An update: `undefined` is `None`. */
  type Updates = seq<(string, Option<string>)>

  /** Removes the key when the update is `undefined` or empty. */
  predicate Clears(u: Option<string>) {
    u.None? || u.value == ""
  }

  /** The update the loop applies last for `k`, if any. */
  function LastUpdate(updates: Updates, k: string): Option<Option<string>>
    decreases |updates|
  {
    if |updates| == 0 then None
    else if updates[|updates| - 1].0 == k then Some(updates[|updates| - 1].1)
    else LastUpdate(updates[..|updates| - 1], k)
  }

  /** The last update naming `k` is the one that counts. */
  lemma {:induction false} LastUpdateAt(updates: Updates, k: string, i: int)
    requires 0 <= i < |updates| && updates[i].0 == k
    requires forall j :: i < j < |updates| ==> updates[j].0 != k
    ensures LastUpdate(updates, k) == Some(updates[i].1)
    decreases |updates|
  {
    var n := |updates| - 1;
    if i < n {
      assert forall j :: i < j < n ==> updates[..n][j] == updates[j];
      LastUpdateAt(updates[..n], k, i);
    }
  }

  lemma {:induction false} LastUpdateNone(updates: Updates, k: string)
    requires forall j :: 0 <= j < |updates| ==> updates[j].0 != k
    ensures LastUpdate(updates, k).None?
    decreases |updates|
  {
    var n := |updates| - 1;
    if |updates| > 0 {
      assert forall j :: 0 <= j < n ==> updates[..n][j] == updates[j];
      LastUpdateNone(updates[..n], k);
    }
  }

  /** The loop of `updateParams`: delete on `undefined` or `""`, set otherwise.
      A key no update names keeps its values; one that is named ends with no
      value or with the single value of its last update. */
  function ApplyUpdates(ps: Params, updates: Updates): (r: Params)
    ensures forall k :: LastUpdate(updates, k).None? ==> Values(r, k) == Values(ps, k)
    ensures forall k :: LastUpdate(updates, k).Some? && Clears(LastUpdate(updates, k).value) ==> Values(r, k) == []
    ensures forall k :: LastUpdate(updates, k).Some? && !Clears(LastUpdate(updates, k).value) ==>
      Values(r, k) == [LastUpdate(updates, k).value.value]
    ensures forall e :: e in r ==> e in ps || exists i :: 0 <= i < |updates| && updates[i] == (e.0, Some(e.1))
    decreases |updates|
  {
    if |updates| == 0 then ps
    else
      var n := |updates| - 1;
      var init := updates[..n];
      var acc := ApplyUpdates(ps, init);
      assert forall i :: 0 <= i < n ==> init[i] == updates[i];
      var (k, u) := updates[n];
      if Clears(u) then Delete(acc, k) else Set(acc, k, u.value)
  }

  const Path: string := "/courses?"

  /** `router.push` target of `updateParams`. */
  function Target(ps: Params, updates: Updates): (t: string) {
    Path + Serialize(ApplyUpdates(ps, updates))
  }

  /** Updates whose keys and values need no escaping. */
  predicate PlainUpdates(updates: Updates) {
    forall i :: 0 <= i < |updates| ==>
      && '=' !in updates[i].0 && '&' !in updates[i].0
      && (updates[i].1.Some? ==> '&' !in updates[i].1.value)
  }

  /** The navigation target is the list page, and its query reads back as the updated parameters. */
  lemma TargetReadsBack(ps: Params, updates: Updates)
    requires Plain(ps) && PlainUpdates(updates)
    ensures var t := Target(ps, updates);
      && |t| >= |Path| && t[..|Path|] == Path
      && Parse(t[|Path|..]) == ApplyUpdates(ps, updates)
  {
    var r := ApplyUpdates(ps, updates);
    var t := Target(ps, updates);
    assert t[|Path|..] == Serialize(r);
    assert Plain(r) by {
      forall e | e in r
        ensures '=' !in e.0 && '&' !in e.0 && '&' !in e.1
      {
        if e !in ps {
          var i :| 0 <= i < |updates| && updates[i] == (e.0, Some(e.1));
        }
      }
    }
    SerializeRoundTrip(r);
  }

  /** The form's inputs; a missing input reads as `undefined`. */
  datatype FormInputs = FormInputs(
    q: Option<string>,
    ratingMin: Option<string>, ratingMax: Option<string>,
    slopeMin: Option<string>, slopeMax: Option<string>)

  /** `x || undefined`. */
  function OrUndefined(x: Option<string>): (r: Option<string>)
    ensures r.None? <==> Clears(x)
    ensures r.Some? ==> r == x
  {
    if x.None? || x.value == "" then None else x
  }

  /** `v && v !== "all" ? v : undefined` for the select-backed keys. */
  function SelectValue(current: Option<string>): (r: Option<string>)
    ensures r.None? <==> current.None? || current.value == "" || current.value == "all"
    ensures r.Some? ==> r == current
  {
    if current.None? || current.value == "" || current.value == "all" then None else current
  }

  /** The updates the submit handler builds, in its key order. */
  function SubmitUpdates(ps: Params, form: FormInputs): Updates {
    [ ("q", if form.q.None? then None else OrUndefined(Some(Trim(form.q.value)))),
      ("ratingMin", OrUndefined(form.ratingMin)),
      ("ratingMax", OrUndefined(form.ratingMax)),
      ("slopeMin", OrUndefined(form.slopeMin)),
      ("slopeMax", OrUndefined(form.slopeMax)),
      ("teeType", SelectValue(Get(ps, "teeType"))),
      ("holes", SelectValue(Get(ps, "holes"))) ]
  }

  /** `onSubmit`: the parameters navigated to. */
  function Submit(ps: Params, form: FormInputs): Params {
    ApplyUpdates(ps, SubmitUpdates(ps, form))
  }

  /** After a submission the search text is the trimmed input, or absent when
      blank; each numeric input is kept when non-empty; a missing, empty or
      "all" tee type or holes drops the key, and any other value stays; and
      every key the form does not manage, `page` among them, is carried over. */
  lemma SubmitResult(ps: Params, form: FormInputs)
    ensures var r := Submit(ps, form);
      && (form.q.None? || AllSpace(form.q.value) ==> Values(r, "q") == [])
      && (form.q.Some? && !AllSpace(form.q.value) ==> Values(r, "q") == [Trim(form.q.value)])
      && (Clears(form.ratingMin) ==> Values(r, "ratingMin") == [])
      && (!Clears(form.ratingMin) ==> Values(r, "ratingMin") == [form.ratingMin.value])
      && (Clears(form.ratingMax) ==> Values(r, "ratingMax") == [])
      && (!Clears(form.ratingMax) ==> Values(r, "ratingMax") == [form.ratingMax.value])
      && (Clears(form.slopeMin) ==> Values(r, "slopeMin") == [])
      && (!Clears(form.slopeMin) ==> Values(r, "slopeMin") == [form.slopeMin.value])
      && (Clears(form.slopeMax) ==> Values(r, "slopeMax") == [])
      && (!Clears(form.slopeMax) ==> Values(r, "slopeMax") == [form.slopeMax.value])
      && (Get(ps, "teeType") == Some("all") ==> Values(r, "teeType") == [])
      && (Get(ps, "holes") == Some("all") ==> Values(r, "holes") == [])
      && (SelectValue(Get(ps, "teeType")).Some? ==> Values(r, "teeType") == [Get(ps, "teeType").value])
      && (SelectValue(Get(ps, "holes")).Some? ==> Values(r, "holes") == [Get(ps, "holes").value])
      && (SelectValue(Get(ps, "teeType")).None? ==> Values(r, "teeType") == [])
      && (SelectValue(Get(ps, "holes")).None? ==> Values(r, "holes") == [])
      && Values(r, "page") == Values(ps, "page")
      && forall k :: !FormKey(k) ==> Values(r, k) == Values(ps, k)
  {
    SubmitQuery(ps, form);
    SubmitRatings(ps, form);
    SubmitSlopes(ps, form);
    SubmitSelects(ps, form);
    SubmitKeepsUnmanaged(ps, form);
  }

  lemma SubmitQuery(ps: Params, form: FormInputs)
    ensures var r := Submit(ps, form);
      && (form.q.None? || AllSpace(form.q.value) ==> Values(r, "q") == [])
      && (form.q.Some? && !AllSpace(form.q.value) ==> Values(r, "q") == [Trim(form.q.value)])
  {
    if form.q.Some? {
      TrimEmpty(form.q.value);
    }
    LastUpdateAt(SubmitUpdates(ps, form), "q", 0);
  }

  /** A numeric input is kept when non-empty and dropped otherwise. */
  lemma SubmitRatings(ps: Params, form: FormInputs)
    ensures var r := Submit(ps, form);
      && (Clears(form.ratingMin) ==> Values(r, "ratingMin") == [])
      && (!Clears(form.ratingMin) ==> Values(r, "ratingMin") == [form.ratingMin.value])
      && (Clears(form.ratingMax) ==> Values(r, "ratingMax") == [])
      && (!Clears(form.ratingMax) ==> Values(r, "ratingMax") == [form.ratingMax.value])
  {
    LastUpdateAt(SubmitUpdates(ps, form), "ratingMin", 1);
    LastUpdateAt(SubmitUpdates(ps, form), "ratingMax", 2);
  }

  lemma SubmitSlopes(ps: Params, form: FormInputs)
    ensures var r := Submit(ps, form);
      && (Clears(form.slopeMin) ==> Values(r, "slopeMin") == [])
      && (!Clears(form.slopeMin) ==> Values(r, "slopeMin") == [form.slopeMin.value])
      && (Clears(form.slopeMax) ==> Values(r, "slopeMax") == [])
      && (!Clears(form.slopeMax) ==> Values(r, "slopeMax") == [form.slopeMax.value])
  {
    LastUpdateAt(SubmitUpdates(ps, form), "slopeMin", 3);
    LastUpdateAt(SubmitUpdates(ps, form), "slopeMax", 4);
  }

  lemma SubmitSelects(ps: Params, form: FormInputs)
    ensures var r := Submit(ps, form);
      && (Get(ps, "teeType") == Some("all") ==> Values(r, "teeType") == [])
      && (Get(ps, "holes") == Some("all") ==> Values(r, "holes") == [])
      && (SelectValue(Get(ps, "teeType")).Some? ==> Values(r, "teeType") == [Get(ps, "teeType").value])
      && (SelectValue(Get(ps, "holes")).Some? ==> Values(r, "holes") == [Get(ps, "holes").value])
      && (SelectValue(Get(ps, "teeType")).None? ==> Values(r, "teeType") == [])
      && (SelectValue(Get(ps, "holes")).None? ==> Values(r, "holes") == [])
  {
    LastUpdateAt(SubmitUpdates(ps, form), "teeType", 5);
    LastUpdateAt(SubmitUpdates(ps, form), "holes", 6);
  }

  /** The keys the submit handler writes. */
  predicate FormKey(k: string) {
    k == "q" || k == "ratingMin" || k == "ratingMax" || k == "slopeMin" || k == "slopeMax"
    || k == "teeType" || k == "holes"
  }

  lemma SubmitKeepsUnmanaged(ps: Params, form: FormInputs)
    ensures Values(Submit(ps, form), "page") == Values(ps, "page")
    ensures forall k :: !FormKey(k) ==> Values(Submit(ps, form), k) == Values(ps, k)
  {
    var r := Submit(ps, form);
    forall k | !FormKey(k) ensures Values(r, k) == Values(ps, k) {
      SubmitKeepsOthers(ps, form, k);
    }
    SubmitKeepsOthers(ps, form, "page");
  }

  lemma SubmitKeepsOthers(ps: Params, form: FormInputs, k: string)
    requires !FormKey(k)
    ensures Values(Submit(ps, form), k) == Values(ps, k)
  {
    LastUpdateNone(SubmitUpdates(ps, form), k);
  }

  /** `onValueChange` of the tee-type and holes selects: "all" removes the key. */
  function SelectChange(ps: Params, key: string, v: string): Params {
    ApplyUpdates(ps, [(key, if v == "all" then None else Some(v))])
  }

  /** Choosing "all" removes the key; any other non-empty choice becomes its
      only value; no other key changes. */
  lemma SelectChangeResult(ps: Params, key: string, v: string)
    ensures var r := SelectChange(ps, key, v);
      && (v == "all" || v == "" ==> Values(r, key) == [])
      && (v != "all" && v != "" ==> Values(r, key) == [v])
      && forall k :: k != key ==> Values(r, k) == Values(ps, k)
  {
    var u: Updates := [(key, if v == "all" then None else Some(v))];
    LastUpdateAt(u, key, 0);
    forall k | k != key
      ensures LastUpdate(u, k).None?
    {
      LastUpdateNone(u, k);
    }
  }
}

=== FILE: course_play.dfy ===
/** `createCoursePlay`: the server action that logs a round. Its checks run in
    a fixed order (session, holes-played value, course, tee, nine-hole rule),
    and only a request that passes all of them writes anything. */
module CoursePlay {
  import opened Wrappers
  import opened Seqs
  import opened Text
  import opened Catalog
  import opened Holes
  import opened Activity

  /** The action's input. Per-hole scores are keyed by hole id; a score is a
      JavaScript number, of which only a finite one is stored. */
  datatype PlayInput = PlayInput(
    courseId: Id,
    teeId: Id,
    holesPlayed: string,
    overallScore: Option<Num>,
    note: Option<string>,
    holeScores: Option<map<Id, Num>>,
    addToFavorites: bool)

  /** `course.tees.find(t => t.id === teeId)` finds something. */
  predicate TeeOfCourse(cat: Store, courseId: Id, teeId: Id) {
    teeId in cat.tees && cat.tees[teeId].courseId == courseId
  }

  /** `holeIds.includes(holeId)` for the course's holes. */
  predicate HoleOfCourse(cat: Store, courseId: Id, holeId: Id) {
    holeId in cat.holes && cat.holes[holeId].courseId == courseId
  }

  /** `course.numbersOfHoles ?? 18`. */
  function HolesCount(row: CourseRow): int {
    row.numbersOfHoles.GetOr(18)
  }

  /** `note?.trim() || undefined`: the trimmed note, absent when blank. */
  function StoredNote(note: Option<string>): (r: Option<string>)
    ensures r.None? <==> note.None? || AllSpace(note.value)
    ensures r.Some? ==> r.value != "" && Trimmed(r.value)
  {
    if note.None? then None
    else
      TrimEmpty(note.value);
      NonEmpty(Trim(note.value))
  }

  /** The per-hole rows written for play `playId`: one for each entry whose hole
      belongs to the course and whose score is finite. */
  function ScoreRows(cat: Store, courseId: Id, playId: Id, scores: Option<map<Id, Num>>): (r: set<HoleScore>)
    ensures forall hs :: hs in r <==>
      && hs.playId == playId
      && scores.Some? && hs.holeId in scores.value
      && HoleOfCourse(cat, courseId, hs.holeId)
      && scores.value[hs.holeId] == Finite(hs.score)
  {
    if scores.None? || |scores.value| == 0 then {}
    else
      var m := scores.value;
      set k | k in m && HoleOfCourse(cat, courseId, k) && m[k].Finite? :: HoleScore(playId, k, m[k].value)
  }

  /** Every check of the action passes. */
  predicate Accepted(cat: Store, session: Option<UserId>, input: PlayInput) {
    && SignedIn(session)
    && ParseHalf(input.holesPlayed).Some?
    && input.courseId in cat.courses
    && TeeOfCourse(cat, input.courseId, input.teeId)
    && !(HolesCount(cat.courses[input.courseId]) == 9 && ParseHalf(input.holesPlayed).value != Full)
  }

  /** The play row the action creates. */
  function NewPlay(user: UserId, input: PlayInput, half: Half, now: Timestamp): Play {
    Play(user, input.courseId, input.teeId, half, input.overallScore, StoredNote(input.note), now)
  }

  /** `createCoursePlay`, with the catalog it reads, the activity store it
      writes, and the instant the play is stamped with. */
  function CreateCoursePlay(cat: Store, a: Activity, session: Option<UserId>, input: PlayInput, now: Timestamp): (r: Reply)
    ensures r.outcome == Error("Unauthorized") <==> !SignedIn(session)
    ensures r.outcome == Error("Invalid holes played") <==>
      SignedIn(session) && ParseHalf(input.holesPlayed).None?
    ensures r.outcome == Error("Course not found") <==>
      SignedIn(session) && ParseHalf(input.holesPlayed).Some? && input.courseId !in cat.courses
    ensures r.outcome == Error("Tee not found for this course") <==>
      && SignedIn(session) && ParseHalf(input.holesPlayed).Some? && input.courseId in cat.courses
      && !TeeOfCourse(cat, input.courseId, input.teeId)
    ensures r.outcome == Error("9-hole courses only support full round") <==>
      && SignedIn(session) && ParseHalf(input.holesPlayed).Some? && input.courseId in cat.courses
      && TeeOfCourse(cat, input.courseId, input.teeId)
      && HolesCount(cat.courses[input.courseId]) == 9 && ParseHalf(input.holesPlayed).value != Full
    ensures r.outcome.Ok? <==> Accepted(cat, session, input)
    ensures r.outcome.Error? ==> r.state == a
    ensures r.outcome.Ok? ==>
      && r.state.nextId == a.nextId + 1
      && r.state.plays == a.plays[a.nextId := NewPlay(session.value, input, ParseHalf(input.holesPlayed).value, now)]
      && r.state.holeScores == a.holeScores + ScoreRows(cat, input.courseId, a.nextId, input.holeScores)
      && r.state.bookmarks == a.bookmarks
      && (input.addToFavorites ==> r.state.favorites == UpsertFavorite(a.favorites, Pair(session.value, input.courseId)))
      && (!input.addToFavorites ==> r.state.favorites == a.favorites)
  {
    if !SignedIn(session) then Reply(a, Error("Unauthorized"))
    else
      var half := ParseHalf(input.holesPlayed);
      if half.None? then Reply(a, Error("Invalid holes played"))
      else if input.courseId !in cat.courses then Reply(a, Error("Course not found"))
      else if !TeeOfCourse(cat, input.courseId, input.teeId) then Reply(a, Error("Tee not found for this course"))
      else if HolesCount(cat.courses[input.courseId]) == 9 && half.value != Full then
        Reply(a, Error("9-hole courses only support full round"))
      else
        var user := session.value;
        var pid := a.nextId;
        var plays := a.plays[pid := NewPlay(user, input, half.value, now)];
        var scores := a.holeScores + ScoreRows(cat, input.courseId, pid, input.holeScores);
        var favorites := if input.addToFavorites then UpsertFavorite(a.favorites, Pair(user, input.courseId)) else a.favorites;
        Reply(Activity(plays, scores, favorites, a.bookmarks, pid + 1), Ok)
  }

  /** A logged round adds exactly one play, keeps the store's constraints, and
      leaves every earlier play as it was. */
  lemma CreateAddsOnePlay(cat: Store, a: Activity, session: Option<UserId>, input: PlayInput, now: Timestamp)
    requires Consistent(a)
    requires Accepted(cat, session, input)
    ensures var r := CreateCoursePlay(cat, a, session, input, now);
      && Consistent(r.state)
      && |r.state.plays| == |a.plays| + 1
      && a.nextId !in a.plays
      && (forall p :: p in a.plays ==> p in r.state.plays && r.state.plays[p] == a.plays[p])
  {
    var r := CreateCoursePlay(cat, a, session, input, now);
    var play := NewPlay(session.value, input, ParseHalf(input.holesPlayed).value, now);
    AddPlayConsistent(a, play, ScoreRows(cat, input.courseId, a.nextId, input.holeScores), r.state);
  }

  /** Adding a play under the next id, with score rows attached to it, keeps the store's constraints. */
  lemma AddPlayConsistent(a: Activity, play: Play, rows: set<HoleScore>, r: Activity)
    requires Consistent(a)
    requires forall hs :: hs in rows ==> hs.playId == a.nextId
    requires r.plays == a.plays[a.nextId := play] && r.holeScores == a.holeScores + rows
    requires Distinct(r.favorites) && r.nextId == a.nextId + 1
    ensures Consistent(r) && a.nextId !in a.plays && |r.plays| == |a.plays| + 1
  {
    assert r.plays.Keys == a.plays.Keys + {a.nextId};
  }

  /** With "add to favorites", the pair is a favorite afterwards, exactly once,
      and logging another round with the same request adds no second favorite. */
  lemma CreateFavoriteOnce(cat: Store, a: Activity, session: Option<UserId>, input: PlayInput, now: Timestamp)
    requires Consistent(a)
    requires Accepted(cat, session, input) && input.addToFavorites
    ensures var r := CreateCoursePlay(cat, a, session, input, now);
      var p := Pair(session.value, input.courseId);
      && p in r.state.favorites
      && Distinct(r.state.favorites)
      && CreateCoursePlay(cat, r.state, session, input, now).state.favorites == r.state.favorites
  {
  }

  /** When no entry names a hole of the course with a finite score, no score row is written. */
  lemma NoQualifyingScores(cat: Store, a: Activity, session: Option<UserId>, input: PlayInput, now: Timestamp)
    requires Accepted(cat, session, input)
    requires input.holeScores.Some? ==> forall k :: k in input.holeScores.value ==>
      !HoleOfCourse(cat, input.courseId, k) || !input.holeScores.value[k].Finite?
    ensures CreateCoursePlay(cat, a, session, input, now).state.holeScores == a.holeScores
  {
    assert ScoreRows(cat, input.courseId, a.nextId, input.holeScores) == {};
  }
}

=== FILE: course_search.dfy ===
/** The course list page: reading the search parameters, turning them into
    the store's filter, paging through the results fifty at a time, and the
    links to the neighbouring pages. */
module CourseSearch {
  import opened Wrappers
  import opened Text
  import opened QueryParams

  const PageSize: int := 50

  /** A search parameter's value: one string, or the strings of a repeated key. */
  datatype ParamValue = One(s: string) | Many(items: seq<string>)

  /** The page's `searchParams`, in key order. */
  type SearchParams = seq<(string, ParamValue)>

  /** `params[k]`. */
  function Lookup(params: SearchParams, k: string): (r: Option<ParamValue>)
    ensures r.None? <==> forall i :: 0 <= i < |params| ==> params[i].0 != k
    decreases |params|
  {
    if |params| == 0 then None
    else if params[0].0 == k then Some(params[0].1)
    else
      assert forall i :: 0 < i < |params| ==> params[i] == params[1..][i - 1];
      Lookup(params[1..], k)
  }

  /** `typeof value === "string" ? value : value[0]`; an empty list has no first element. */
  function FirstOf(v: ParamValue): (r: Option<string>)
    ensures r.None? <==> v.Many? && v.items == []
  {
    match v
    case One(s) => Some(s)
    case Many(items) => if |items| > 0 then Some(items[0]) else None
  }

  /** `parseStr`: the first value, trimmed; blank or missing gives nothing. */
  function ParseStr(v: Option<ParamValue>): (r: Option<string>)
    ensures r.None? <==> v.None? || FirstOf(v.value).None? || AllSpace(FirstOf(v.value).value)
    ensures r.Some? ==> r.value == Trim(FirstOf(v.value).value) && r.value != "" && Trimmed(r.value)
  {
    if v.None? then None
    else
      var s := FirstOf(v.value);
      if s.None? then None
      else
        TrimEmpty(s.value);
        NonEmpty(Trim(s.value))
  }

  /** `parseNum`, with JavaScript's `Number` as the parameter `toNumber`; a
      missing first element reads as `Number(undefined)`, which is NaN. */
  function ParseNum(v: Option<ParamValue>, toNumber: string -> Num): (r: Option<int>)
    ensures r.Some? <==> v.Some? && FirstOf(v.value).Some? && toNumber(FirstOf(v.value).value).Finite?
    ensures r.Some? ==> toNumber(FirstOf(v.value).value) == Finite(r.value)
  {
    if v.None? then None
    else
      var s := FirstOf(v.value);
      var n := if s.None? then NaN else toNumber(s.value);
      if n.Finite? then Some(n.value) else None
  }

  /** `Math.max(1, parseNum(params.page) ?? 1)`. */
  function PageOf(params: SearchParams, toNumber: string -> Num): (p: int)
    ensures p >= 1
    ensures ParseNum(Lookup(params, "page"), toNumber).None? ==> p == 1
    ensures ParseNum(Lookup(params, "page"), toNumber).Some? && ParseNum(Lookup(params, "page"), toNumber).value < 1 ==> p == 1
    ensures ParseNum(Lookup(params, "page"), toNumber).Some? && ParseNum(Lookup(params, "page"), toNumber).value >= 1 ==>
      p == ParseNum(Lookup(params, "page"), toNumber).value
  {
    var n := ParseNum(Lookup(params, "page"), toNumber).GetOr(1);
    if n > 1 then n else 1
  }

  /** The values the page filters by. Ratings and slopes are compared as numbers. */
  datatype Filters = Filters(
    q: Option<string>,
    ratingMin: Option<int>, ratingMax: Option<int>,
    slopeMin: Option<int>, slopeMax: Option<int>,
    teeType: Option<string>,
    holes: Option<int>)

  function FiltersOf(params: SearchParams, toNumber: string -> Num): Filters {
    Filters(
      ParseStr(Lookup(params, "q")),
      ParseNum(Lookup(params, "ratingMin"), toNumber), ParseNum(Lookup(params, "ratingMax"), toNumber),
      ParseNum(Lookup(params, "slopeMin"), toNumber), ParseNum(Lookup(params, "slopeMax"), toNumber),
      ParseStr(Lookup(params, "teeType")),
      ParseNum(Lookup(params, "holes"), toNumber))
  }

  /** A `{ gte?, lte? }` range object. */
  datatype Bounds = Bounds(gte: Option<int>, lte: Option<int>)

  /** The tee conditions object; an absent field is a key the object does not have. */
  datatype TeeConditions = TeeConditions(courseRating: Option<Bounds>, slope: Option<Bounds>, gender: Option<string>)

  /** The store filter `where`. */
  datatype Where = Where(nameContains: Option<string>, tees: Option<TeeConditions>, numbersOfHoles: Option<int>)

  /** A range object exists only when a bound is given, and carries exactly the given ones. */
  function BoundsOf(min: Option<int>, max: Option<int>): (r: Option<Bounds>)
    ensures r.None? <==> min.None? && max.None?
    ensures r.Some? ==> r.value.gte == min && r.value.lte == max
  {
    if min.None? && max.None? then None else Some(Bounds(min, max))
  }

  function TeeConditionsOf(f: Filters): TeeConditions {
    TeeConditions(BoundsOf(f.ratingMin, f.ratingMax), BoundsOf(f.slopeMin, f.slopeMax), f.teeType)
  }

  /** `Object.keys(teeConditions).length > 0`. */
  predicate HasTeeConditions(c: TeeConditions) {
    c.courseRating.Some? || c.slope.Some? || c.gender.Some?
  }

  /** `where`: the name filter iff there is a search text, the tee filter iff
      some tee condition was given, the holes filter iff `holes` parsed. */
  function WhereOf(f: Filters): (w: Where)
    ensures w.nameContains == f.q
    ensures w.tees.Some? <==>
      f.ratingMin.Some? || f.ratingMax.Some? || f.slopeMin.Some? || f.slopeMax.Some? || f.teeType.Some?
    ensures w.numbersOfHoles == f.holes
  {
    var c := TeeConditionsOf(f);
    Where(f.q, if HasTeeConditions(c) then Some(c) else None, f.holes)
  }

  /** A course and its tees as the filter sees them. */
  datatype SearchTee = SearchTee(courseRating: Option<int>, slope: Option<int>, gender: Option<string>)
  datatype SearchCourse = SearchCourse(displayName: string, numbersOfHoles: Option<int>, tees: seq<SearchTee>)

  /** `b` is a contiguous part of `a`. */
  predicate Contains(a: string, b: string) {
    exists i, j :: 0 <= i <= j <= |a| && a[i..j] == b
  }

  /** A range filter on a nullable column: a null value satisfies no comparison. */
  predicate InBounds(x: Option<int>, b: Bounds) {
    && (b.gte.Some? ==> x.Some? && x.value >= b.gte.value)
    && (b.lte.Some? ==> x.Some? && x.value <= b.lte.value)
  }

  predicate TeeMatches(t: SearchTee, c: TeeConditions) {
    && (c.courseRating.Some? ==> InBounds(t.courseRating, c.courseRating.value))
    && (c.slope.Some? ==> InBounds(t.slope, c.slope.value))
    && (c.gender.Some? ==> t.gender == c.gender)
  }

  /** How the store applies `where`: case-insensitive name containment, `tees: { some }`, and equality. */
  predicate Matches(w: Where, course: SearchCourse) {
    && (w.nameContains.Some? ==> Contains(ToLower(course.displayName), ToLower(w.nameContains.value)))
    && (w.tees.Some? ==> exists i :: 0 <= i < |course.tees| && TeeMatches(course.tees[i], w.tees.value))
    && (w.numbersOfHoles.Some? ==> course.numbersOfHoles == w.numbersOfHoles)
  }

  /** A tee within every bound the user gave, stated on the filters directly. */
  predicate TeeWithin(t: SearchTee, f: Filters) {
    && (f.ratingMin.Some? ==> t.courseRating.Some? && t.courseRating.value >= f.ratingMin.value)
    && (f.ratingMax.Some? ==> t.courseRating.Some? && t.courseRating.value <= f.ratingMax.value)
    && (f.slopeMin.Some? ==> t.slope.Some? && t.slope.value >= f.slopeMin.value)
    && (f.slopeMax.Some? ==> t.slope.Some? && t.slope.value <= f.slopeMax.value)
    && (f.teeType.Some? ==> t.gender == f.teeType)
  }

  predicate AnyTeeFilter(f: Filters) {
    f.ratingMin.Some? || f.ratingMax.Some? || f.slopeMin.Some? || f.slopeMax.Some? || f.teeType.Some?
  }

  /** The list shows exactly the courses whose name contains the search text,
      which have one tee meeting all the tee filters at once (when any is
      given), and whose hole count is the one asked for. */
  lemma WhereMeansFilters(f: Filters, course: SearchCourse)
    ensures Matches(WhereOf(f), course) <==>
      && (f.q.Some? ==> Contains(ToLower(course.displayName), ToLower(f.q.value)))
      && (AnyTeeFilter(f) ==> exists i :: 0 <= i < |course.tees| && TeeWithin(course.tees[i], f))
      && (f.holes.Some? ==> course.numbersOfHoles == f.holes)
  {
    var c := TeeConditionsOf(f);
    assert forall t :: TeeMatches(t, c) <==> TeeWithin(t, f);
  }

  /** Without tee filters a course without tees is listed; with any, it never is. */
  lemma NoTeesNeedsNoTeeFilter(f: Filters, course: SearchCourse)
    requires course.tees == []
    requires f.q.None? && f.holes.None?
    ensures Matches(WhereOf(f), course) <==> !AnyTeeFilter(f)
  {
    WhereMeansFilters(f, course);
  }

  /** `skip`: the results before the page. */
  function Skip(page: int): int {
    (page - 1) * PageSize
  }

  /** `Math.ceil(total / PAGE_SIZE)`. */
  function TotalPages(total: nat): (n: nat)
    ensures (n - 1) * PageSize < total <= n * PageSize || (total == 0 && n == 0)
  {
    (total + PageSize - 1) / PageSize
  }

  /** Every result is on exactly one page, and that page is within the page count. */
  lemma EveryResultOnOnePage(total: nat, i: nat)
    requires i < total
    ensures var p := i / PageSize + 1;
      && 1 <= p <= TotalPages(total)
      && Skip(p) <= i < Skip(p) + PageSize
      && forall q :: Skip(q) <= i < Skip(q) + PageSize ==> q == p
  {
    var p := i / PageSize + 1;
    forall q | Skip(q) <= i < Skip(q) + PageSize
      ensures q == p
    {
      assert (q - 1) * PageSize <= i < q * PageSize;
      assert q - 1 == i / PageSize;
    }
  }

  /** One step of `buildQuery`'s loop: `page` and keys without a non-empty first value are skipped. */
  function CopyEntry(acc: Params, k: string, v: ParamValue): Params {
    if k == "page" then acc
    else
      var s := FirstOf(v);
      if s.Some? && s.value != "" then Set(acc, k, s.value) else acc
  }

  /** The value the loop keeps for `k`: that of the last entry with a usable value. */
  function LastUsable(params: SearchParams, k: string): Option<string>
    decreases |params|
  {
    if |params| == 0 then None
    else
      var last := params[|params| - 1];
      var s := FirstOf(last.1);
      if last.0 == k && s.Some? && s.value != "" then s
      else LastUsable(params[..|params| - 1], k)
  }

  /** The loop over `Object.entries(params)`. */
  function CopyParams(params: SearchParams): (r: Params)
    ensures Values(r, "page") == []
    ensures forall k :: k != "page" ==> Values(r, k) == (if LastUsable(params, k).Some? then [LastUsable(params, k).value] else [])
    ensures forall e :: e in r ==> exists i :: 0 <= i < |params| && e.0 == params[i].0 && FirstOf(params[i].1) == Some(e.1)
    decreases |params|
  {
    if |params| == 0 then []
    else
      var n := |params| - 1;
      var init := params[..n];
      var acc := CopyParams(init);
      var r := CopyEntry(acc, params[n].0, params[n].1);
      CopyStepValues(params, init, acc, r);
      CopyStepOrigin(params, init, acc, r);
      r
  }

  /** One more entry copied: every key other than `page` holds its last usable value. */
  lemma CopyStepValues(params: SearchParams, init: SearchParams, acc: Params, r: Params)
    requires |params| > 0 && init == params[..|params| - 1]
    requires Values(acc, "page") == []
    requires forall k :: k != "page" ==> Values(acc, k) == (if LastUsable(init, k).Some? then [LastUsable(init, k).value] else [])
    requires r == CopyEntry(acc, params[|params| - 1].0, params[|params| - 1].1)
    ensures Values(r, "page") == []
    ensures forall k :: k != "page" ==> Values(r, k) == (if LastUsable(params, k).Some? then [LastUsable(params, k).value] else [])
  {
  }

  /** One more entry copied: every copied entry still comes from some parameter. */
  lemma CopyStepOrigin(params: SearchParams, init: SearchParams, acc: Params, r: Params)
    requires |params| > 0 && init == params[..|params| - 1]
    requires forall e :: e in acc ==> exists i :: 0 <= i < |init| && e.0 == init[i].0 && FirstOf(init[i].1) == Some(e.1)
    requires r == CopyEntry(acc, params[|params| - 1].0, params[|params| - 1].1)
    ensures forall e :: e in r ==> exists i :: 0 <= i < |params| && e.0 == params[i].0 && FirstOf(params[i].1) == Some(e.1)
  {
    forall e | e in r ensures exists i :: 0 <= i < |params| && e.0 == params[i].0 && FirstOf(params[i].1) == Some(e.1) {
      if e in acc {
        var i :| 0 <= i < |init| && e.0 == init[i].0 && FirstOf(init[i].1) == Some(e.1);
        assert params[i] == init[i];
      } else {
        assert e.0 == params[|params| - 1].0 && FirstOf(params[|params| - 1].1) == Some(e.1);
      }
    }
  }

  /** The entries `buildQuery` serialises: the copied parameters, then `page`. */
  function QueryEntries(params: SearchParams, page: int): (r: Params)
    ensures Values(r, "page") == [IntToString(page)]
    ensures r[|r| - 1] == ("page", IntToString(page))
    ensures forall k :: k != "page" ==> Values(r, k) == (if LastUsable(params, k).Some? then [LastUsable(params, k).value] else [])
  {
    var acc := CopyParams(params);
    ValuesEmpty(acc, "page");
    Set(acc, "page", IntToString(page))
  }

  /** `buildQuery`, without percent-encoding. */
  function BuildQuery(params: SearchParams, page: int): string {
    Serialize(QueryEntries(params, page))
  }

  /** Keys and first values that need no escaping. */
  predicate PlainParams(params: SearchParams) {
    forall i :: 0 <= i < |params| ==>
      && '=' !in params[i].0 && '&' !in params[i].0
      && (FirstOf(params[i].1).Some? ==> '&' !in FirstOf(params[i].1).value)
  }

  /** The query string of a page link reads back with exactly the requested page
      and the other parameters' values. */
  lemma BuildQueryReadsBack(params: SearchParams, page: int)
    requires PlainParams(params)
    ensures var back := Parse(BuildQuery(params, page));
      && Values(back, "page") == [IntToString(page)]
      && forall k :: k != "page" ==> Get(back, k) == LastUsable(params, k)
  {
    var acc := CopyParams(params);
    var r := QueryEntries(params, page);
    assert '&' !in IntToString(page) && '=' !in "page" && '&' !in "page";
    assert Plain(r) by {
      forall e | e in r
        ensures '=' !in e.0 && '&' !in e.0 && '&' !in e.1
      {
        ValuesEmpty(acc, "page");
        if e != ("page", IntToString(page)) {
          assert e in acc;
        }
      }
    }
    SerializeRoundTrip(r);
    forall k | k != "page"
      ensures Get(r, k) == LastUsable(params, k)
    {
      GetFirstValue(r, k);
    }
  }

  /** The Previous link is shown iff `page > 1`, Next iff `page < totalPages`,
      and the links only when there is more than one page. */
  datatype Pagination = Pagination(shown: bool, previous: Option<string>, next: Option<string>)

  function PaginationOf(params: SearchParams, page: int, totalPages: int): (r: Pagination)
    ensures r.shown <==> totalPages > 1
    ensures r.previous.Some? <==> page > 1
    ensures r.next.Some? <==> page < totalPages
    ensures r.previous.Some? ==> r.previous.value == "/courses?" + BuildQuery(params, page - 1)
    ensures r.next.Some? ==> r.next.value == "/courses?" + BuildQuery(params, page + 1)
  {
    Pagination(
      totalPages > 1,
      if page > 1 then Some("/courses?" + BuildQuery(params, page - 1)) else None,
      if page < totalPages then Some("/courses?" + BuildQuery(params, page + 1)) else None)
  }

  /** Both links lead to pages that exist: Previous to a page of at least 1,
      Next to one of at most the page count. */
  lemma LinksStayInRange(params: SearchParams, page: int, totalPages: int)
    requires page >= 1
    ensures var r := PaginationOf(params, page, totalPages);
      && (r.previous.Some? ==> 1 <= page - 1 < page)
      && (r.next.Some? ==> page < page + 1 <= totalPages)
      && (r.shown && page == 1 ==> r.next.Some?)
  {
  }
}

=== FILE: edit_play.dfy ===
/** The "edit play" dialog: the form it fills from a stored play when it
    opens, the score check on submit, and the update request it sends. */
module EditPlay {
  import opened Wrappers
  import opened Seqs
  import opened Text
  import opened Catalog
  import opened Holes
  import opened Activity
  import opened ScoreForm

  /** A stored play as the dialog receives it; hole scores in load order. */
  datatype PlayView = PlayView(
    id: Id,
    holesPlayed: string,
    overallScore: Option<int>,
    note: Option<string>,
    holeScores: seq<(Id, int)>)

  datatype EditForm = EditForm(overallScore: string, note: string, holeScores: map<Id, string>)

  /** Each score written with `String(score)`: the decimal text, which
      `parseInt` reads back as the score, under the same hole. */
  function ScoreTexts(scores: seq<(Id, int)>): (r: seq<(Id, string)>)
    ensures |r| == |scores|
    ensures forall i :: 0 <= i < |r| ==> r[i].0 == scores[i].0 && r[i].1 == IntToString(scores[i].1)
    ensures forall i :: 0 <= i < |r| ==> ParseInt(r[i].1) == Finite(scores[i].1)
  {
    var r := seq(|scores|, i requires 0 <= i < |scores| => (scores[i].0, IntToString(scores[i].1)));
    TextsParseBack(scores, r);
    r
  }

  lemma TextsParseBack(scores: seq<(Id, int)>, r: seq<(Id, string)>)
    requires |r| == |scores| && forall i :: 0 <= i < |r| ==> r[i].1 == IntToString(scores[i].1)
    ensures forall i :: 0 <= i < |r| ==> ParseInt(r[i].1) == Finite(scores[i].1)
  {
    forall i | 0 <= i < |r| ensures ParseInt(r[i].1) == Finite(scores[i].1) {
      ParseIntRoundTrip(scores[i].1);
    }
  }

  /** The form filled in when the dialog opens; a hole listed twice keeps its last score. */
  function InitForm(p: PlayView): (f: EditForm)
    ensures f.overallScore == "" <==> p.overallScore.None?
    ensures p.overallScore.Some? ==> f.overallScore == IntToString(p.overallScore.value)
    ensures p.overallScore.Some? ==> ParseInt(f.overallScore) == Finite(p.overallScore.value)
    ensures f.note == p.note.GetOr("")
    ensures f.holeScores.Keys == set i | 0 <= i < |p.holeScores| :: p.holeScores[i].0
    ensures forall i :: IsLastKey(p.holeScores, i) ==> f.holeScores[p.holeScores[i].0] == IntToString(p.holeScores[i].1)
  {
    var texts := ScoreTexts(p.holeScores);
    assert forall i :: IsLastKey(p.holeScores, i) ==> IsLastKey(texts, i);
    assert (set i | 0 <= i < |texts| :: texts[i].0) == (set i | 0 <= i < |p.holeScores| :: p.holeScores[i].0);
    var overall := if p.overallScore.Some? then IntToString(p.overallScore.value) else "";
    assert p.overallScore.Some? ==> ParseInt(overall) == Finite(p.overallScore.value) by {
      if p.overallScore.Some? { ParseIntRoundTrip(p.overallScore.value); }
    }
    EditForm(overall, p.note.GetOr(""), MapFromPairs(texts))
  }

  /** The effect that runs when `open` changes: the form is refilled only on opening. */
  function OnOpen(open: bool, p: PlayView, f: EditForm): (r: EditForm)
    ensures open ==> r == InitForm(p)
    ensures !open ==> r == f
  {
    if open then InitForm(p) else f
  }

  /** The update sent: `overallScore: scoreNum ?? null`, the trimmed note or null,
      and the parsed per-hole map, always present. */
  datatype UpdateInput = UpdateInput(playId: Id, overallScore: Option<Num>, note: Option<string>, holeScores: map<Id, int>)

  datatype EditSubmission = Mismatched(holeSum: int, overall: Num) | Send(input: UpdateInput)

  function Submit(p: PlayView, form: EditForm, holes: seq<HoleInfo>): (r: EditSubmission)
    ensures r.Mismatched? <==> CheckScores(HolesToShow(holes, HalfOf(p.holesPlayed)), form.overallScore, form.holeScores).Mismatch?
    ensures r.Send? ==>
      && r.input.playId == p.id
      && (r.input.overallScore.None? <==> AllSpace(form.overallScore))
      && r.input.overallScore == OverallNumber(form.overallScore)
      && r.input.note == ClientNote(form.note)
      && r.input.holeScores == ParsedScores(form.holeScores)
  {
    var shown := HolesToShow(holes, HalfOf(p.holesPlayed));
    var check := CheckScores(shown, form.overallScore, form.holeScores);
    if check.Mismatch? then Mismatched(check.holeSum, check.overall)
    else Send(UpdateInput(p.id, OverallNumber(form.overallScore), ClientNote(form.note), ParsedScores(form.holeScores)))
  }

  /** The dialog after the server answers: it closes, and `onSuccess` fires, only without an error. */
  datatype Closing = Closing(open: bool, notified: bool)

  function AfterUpdate(open: bool, outcome: Outcome): (r: Closing)
    ensures !r.open <==> outcome.Ok? || !open
    ensures r.notified <==> outcome.Ok?
  {
    if outcome.Ok? then Closing(false, true) else Closing(open, false)
  }

  /** Opening the dialog and saving without edits sends back the stored scores:
      the overall score, and each hole's last stored score. */
  lemma UnchangedFormRoundTrip(p: PlayView, holes: seq<HoleInfo>)
    requires Submit(p, InitForm(p), holes).Send?
    ensures var u := Submit(p, InitForm(p), holes).input;
      && u.overallScore == (if p.overallScore.Some? then Some(Finite(p.overallScore.value)) else None)
      && u.holeScores == MapFromPairs(p.holeScores)
  {
    var f := InitForm(p);
    var u := Submit(p, f, holes).input;
    if p.overallScore.Some? {
      var text := IntToString(p.overallScore.value);
      ParseIntRoundTrip(p.overallScore.value);
      assert !AllSpace(text) by { assert !IsSpace(text[0]); }
    } else {
      assert AllSpace(f.overallScore);
    }
    ParsedTextsRoundTrip(p.holeScores);
  }

  /** Parsing the written scores gives back the scores, keyed as `new Map` keys them. */
  lemma ParsedTextsRoundTrip(scores: seq<(Id, int)>)
    ensures ParsedScores(MapFromPairs(ScoreTexts(scores))) == MapFromPairs(scores)
  {
    var texts := ScoreTexts(scores);
    var m, want := ParsedScores(MapFromPairs(texts)), MapFromPairs(scores);
    ParsedTextsAll(scores, texts);
    ParsedKeysWithin(scores, texts);
    SameMaps(m, want);
  }

  lemma ParsedKeysWithin(scores: seq<(Id, int)>, texts: seq<(Id, string)>)
    requires texts == ScoreTexts(scores)
    ensures forall k :: k in ParsedScores(MapFromPairs(texts)) ==> k in MapFromPairs(scores)
  {
    TextKeys(scores, texts);
  }

  lemma ParsedTextsAll(scores: seq<(Id, int)>, texts: seq<(Id, string)>)
    requires texts == ScoreTexts(scores)
    ensures forall k :: k in MapFromPairs(scores) ==>
      k in ParsedScores(MapFromPairs(texts)) && ParsedScores(MapFromPairs(texts))[k] == MapFromPairs(scores)[k]
  {
    forall k | k in MapFromPairs(scores)
      ensures k in ParsedScores(MapFromPairs(texts)) && ParsedScores(MapFromPairs(texts))[k] == MapFromPairs(scores)[k]
    {
      ParsedTextAt(scores, texts, k);
    }
  }

  lemma TextKeys(scores: seq<(Id, int)>, texts: seq<(Id, string)>)
    requires texts == ScoreTexts(scores)
    ensures MapFromPairs(texts).Keys == MapFromPairs(scores).Keys
  {
    assert forall i :: 0 <= i < |texts| ==> texts[i].0 == scores[i].0;
  }

  /** The text written for a hole's last score parses back to that score. */
  lemma ParsedTextAt(scores: seq<(Id, int)>, texts: seq<(Id, string)>, k: Id)
    requires texts == ScoreTexts(scores) && k in MapFromPairs(scores)
    ensures k in ParsedScores(MapFromPairs(texts)) && ParsedScores(MapFromPairs(texts))[k] == MapFromPairs(scores)[k]
  {
    LastKeyExists(scores, k);
    var i :| IsLastKey(scores, i) && scores[i].0 == k;
    assert IsLastKey(texts, i);
    ParseIntRoundTrip(scores[i].1);
  }
}

=== FILE: favorites.dfy ===
/** `addFavorite` and `removeFavorite`: a signed-in user's favorite courses,
    one row per (user, course) pair. Favoriting needs a logged round first. */
module Favorites {
  import opened Wrappers
  import opened Seqs
  import opened Catalog
  import opened Activity

  /** `coursePlay.findFirst({ where: { userId, courseId } })` finds something. */
  predicate HasPlayed(a: Activity, user: UserId, courseId: Id) {
    exists p :: p in a.plays && a.plays[p].userId == user && a.plays[p].courseId == courseId
  }

  const NotPlayed := "You must mark this course as played before favoriting"

  /** Only the favorites change, and only in the given pair. */
  ghost predicate OnlyPairChanged(a: Activity, b: Activity, p: Pair) {
    && b == a.(favorites := b.favorites)
    && forall q :: q != p ==> (q in b.favorites <==> q in a.favorites)
  }

  function AddFavorite(a: Activity, session: Option<UserId>, courseId: Id): (r: Reply)
    ensures r.outcome == Error("Unauthorized") <==> !SignedIn(session)
    ensures r.outcome == Error(NotPlayed) <==> SignedIn(session) && !HasPlayed(a, session.value, courseId)
    ensures r.outcome.Ok? <==> SignedIn(session) && HasPlayed(a, session.value, courseId)
    ensures r.outcome.Error? ==> r.state == a
    ensures r.outcome.Ok? ==>
      var p := Pair(session.value, courseId);
      && p in r.state.favorites
      && OnlyPairChanged(a, r.state, p)
      && (Distinct(a.favorites) ==> Distinct(r.state.favorites))
  {
    if !SignedIn(session) then Reply(a, Error("Unauthorized"))
    else if !HasPlayed(a, session.value, courseId) then Reply(a, Error(NotPlayed))
    else Reply(a.(favorites := UpsertFavorite(a.favorites, Pair(session.value, courseId))), Ok)
  }

  /** Favoriting again changes nothing and answers the same. */
  lemma AddFavoriteIdempotent(a: Activity, session: Option<UserId>, courseId: Id)
    ensures var r := AddFavorite(a, session, courseId);
      AddFavorite(r.state, session, courseId) == r
  {
    var r := AddFavorite(a, session, courseId);
    if r.outcome.Ok? {
      var p := Pair(session.value, courseId);
      var w :| w in a.plays && a.plays[w].userId == session.value && a.plays[w].courseId == courseId;
      assert w in r.state.plays;
    }
  }

  /** `favorite.deleteMany({ where: { userId, courseId } })`. */
  function RemoveFavorite(a: Activity, session: Option<UserId>, courseId: Id): (r: Reply)
    ensures r.outcome == Error("Unauthorized") <==> !SignedIn(session)
    ensures r.outcome.Ok? <==> SignedIn(session)
    ensures r.outcome.Error? ==> r.state == a
    ensures r.outcome.Ok? ==>
      var p := Pair(session.value, courseId);
      && p !in r.state.favorites
      && OnlyPairChanged(a, r.state, p)
      && SubseqOf(r.state.favorites, a.favorites)
      && (Distinct(a.favorites) ==> Distinct(r.state.favorites))
  {
    if !SignedIn(session) then Reply(a, Error("Unauthorized"))
    else
      var p := Pair(session.value, courseId);
      var keep := (q: Pair) => q != p;
      FilterIsSubseq(a.favorites, keep);
      FilterDistinct(a.favorites, keep);
      Reply(a.(favorites := Filter(a.favorites, keep)), Ok)
  }

  /** Favoriting and then unfavoriting a course leaves the user's other favorites as they were. */
  lemma AddThenRemove(a: Activity, session: Option<UserId>, courseId: Id)
    requires SignedIn(session) && HasPlayed(a, session.value, courseId)
    ensures var b := RemoveFavorite(AddFavorite(a, session, courseId).state, session, courseId).state;
      var p := Pair(session.value, courseId);
      && p !in b.favorites
      && (forall q :: q != p ==> (q in b.favorites <==> q in a.favorites))
      && b.plays == a.plays && b.bookmarks == a.bookmarks
  {
  }
}

=== FILE: favorites_page.dfy ===
/** The "favorites" account page: one card per favorite course, flagged with
    the user's bookmark note and the half of the course they last played. */
module FavoritesPage {
  import opened Wrappers
  import opened Seqs
  import opened Catalog
  import opened Activity

  datatype FavoriteRow = FavoriteRow(id: Id, courseId: Id)
  datatype BookmarkRow = BookmarkRow(courseId: Id, note: Option<string>)

  /** A round as this page loads it, in the store's oldest-first order. */
  datatype RoundRow = RoundRow(courseId: Id, holesPlayed: string, playedAt: Timestamp)

  function NotePairs(bookmarks: seq<BookmarkRow>): seq<(Id, Option<string>)> {
    seq(|bookmarks|, i requires 0 <= i < |bookmarks| => (bookmarks[i].courseId, bookmarks[i].note))
  }

  function RoundPairs(rounds: seq<RoundRow>): seq<(Id, string)> {
    seq(|rounds|, i requires 0 <= i < |rounds| => (rounds[i].courseId, rounds[i].holesPlayed))
  }

  /** `bookmarkNoteByCourse`. */
  function NoteByCourse(bookmarks: seq<BookmarkRow>): (m: map<Id, Option<string>>)
    ensures forall c :: c in m <==> exists i :: 0 <= i < |bookmarks| && bookmarks[i].courseId == c
  {
    var pairs := NotePairs(bookmarks);
    var m := MapFromPairs(pairs);
    assert forall c :: c in m <==> exists i :: 0 <= i < |bookmarks| && bookmarks[i].courseId == c by {
      forall c
        ensures c in m <==> exists i :: 0 <= i < |bookmarks| && bookmarks[i].courseId == c
      {
        if c in m {
          var i :| 0 <= i < |pairs| && pairs[i].0 == c;
          assert bookmarks[i].courseId == c;
        }
        if exists i :: 0 <= i < |bookmarks| && bookmarks[i].courseId == c {
          var i :| 0 <= i < |bookmarks| && bookmarks[i].courseId == c;
          assert pairs[i].0 == c;
        }
      }
    }
    m
  }

  /** `playByCourse`: a course's entry is written by each of its rounds in turn, so the last one stays. */
  function PlayByCourse(rounds: seq<RoundRow>): map<Id, string> {
    MapFromPairs(RoundPairs(rounds))
  }

  predicate OldestFirst(rounds: seq<RoundRow>) {
    forall i, j :: 0 <= i < j < |rounds| ==> rounds[i].playedAt <= rounds[j].playedAt
  }

  /** With the rounds oldest first, each played course maps to the half of a
      round no other round on that course is more recent than. */
  lemma MostRecentRoundWins(rounds: seq<RoundRow>, c: Id, k: int)
    requires OldestFirst(rounds)
    requires 0 <= k < |rounds| && rounds[k].courseId == c
    ensures c in PlayByCourse(rounds)
    ensures exists i ::
      && 0 <= i < |rounds| && rounds[i].courseId == c
      && PlayByCourse(rounds)[c] == rounds[i].holesPlayed
      && forall j :: 0 <= j < |rounds| && rounds[j].courseId == c ==> rounds[j].playedAt <= rounds[i].playedAt
  {
    var pairs := RoundPairs(rounds);
    assert pairs[k].0 == c;
    LastKeyExists(pairs, c);
    var i :| IsLastKey(pairs, i) && pairs[i].0 == c;
    LastRoundLatest(rounds, pairs, c, i);
  }

  /** The round behind the last pair for a course is no older than any other round on it. */
  lemma LastRoundLatest(rounds: seq<RoundRow>, pairs: seq<(Id, string)>, c: Id, i: int)
    requires OldestFirst(rounds) && pairs == RoundPairs(rounds)
    requires IsLastKey(pairs, i) && pairs[i].0 == c
    ensures 0 <= i < |rounds| && rounds[i].courseId == c && rounds[i].holesPlayed == pairs[i].1
    ensures forall j :: 0 <= j < |rounds| && rounds[j].courseId == c ==> rounds[j].playedAt <= rounds[i].playedAt
  {
    forall j | 0 <= j < |rounds| && rounds[j].courseId == c
      ensures rounds[j].playedAt <= rounds[i].playedAt
    {
      assert pairs[j].0 == c;
    }
  }

  /** The flags each card gets. */
  datatype Card = Card(
    courseId: Id,
    isBookmarked: bool,
    bookmarkNote: Option<string>,
    isFavorite: bool,
    played: bool,
    lastHolesPlayed: Option<string>,
    isLoggedIn: bool)

  function CardFor(f: FavoriteRow, notes: map<Id, Option<string>>, playsByCourse: map<Id, string>): (card: Card)
    ensures card.courseId == f.courseId
    ensures card.isBookmarked <==> f.courseId in notes
    ensures card.bookmarkNote == (if f.courseId in notes then notes[f.courseId] else None)
    ensures card.isFavorite && card.played && card.isLoggedIn
    ensures card.lastHolesPlayed.Some? <==> f.courseId in playsByCourse
    ensures card.lastHolesPlayed.Some? ==> card.lastHolesPlayed.value == playsByCourse[f.courseId]
  {
    Card(
      f.courseId,
      f.courseId in notes,
      if f.courseId in notes then notes[f.courseId] else None,
      true,
      true,
      if f.courseId in playsByCourse then Some(playsByCourse[f.courseId]) else None,
      true)
  }

  datatype FavoritesView = FavoritesView(count: int, cards: seq<Card>)

  /** The page: nothing when signed out; otherwise a count of the favorites and
      one card per favorite, in the favorites' order. */
  function FavoritesPage(session: Option<UserId>, favorites: seq<FavoriteRow>, bookmarks: seq<BookmarkRow>, rounds: seq<RoundRow>): (v: Option<FavoritesView>)
    ensures v.None? <==> !SignedIn(session)
    ensures v.Some? ==> v.value.count == |favorites| && |v.value.cards| == |favorites|
    ensures v.Some? ==> forall i :: 0 <= i < |favorites| ==>
      v.value.cards[i] == CardFor(favorites[i], NoteByCourse(bookmarks), PlayByCourse(rounds))
    ensures v.Some? ==> forall i :: 0 <= i < |favorites| ==>
      && v.value.cards[i].courseId == favorites[i].courseId
      && v.value.cards[i].isFavorite && v.value.cards[i].played
      && (v.value.cards[i].isBookmarked <==> exists b :: 0 <= b < |bookmarks| && bookmarks[b].courseId == favorites[i].courseId)
  {
    if !SignedIn(session) then None
    else
      var notes := NoteByCourse(bookmarks);
      var plays := PlayByCourse(rounds);
      Some(FavoritesView(|favorites|, seq(|favorites|, i requires 0 <= i < |favorites| => CardFor(favorites[i], notes, plays))))
  }

  /** A bookmarked course's card carries the note of its last bookmark row, and
      the note of a course without a bookmark is null. */
  lemma CardNote(f: FavoriteRow, bookmarks: seq<BookmarkRow>, playsByCourse: map<Id, string>, b: int)
    requires IsLastKey(NotePairs(bookmarks), b) && bookmarks[b].courseId == f.courseId
    ensures CardFor(f, NoteByCourse(bookmarks), playsByCourse).bookmarkNote == bookmarks[b].note
  {
    assert NotePairs(bookmarks)[b] == (f.courseId, bookmarks[b].note);
  }
}

=== FILE: hole_images.dfy ===
/** The hole-image viewer: hole labels, the tee it starts on (the one with
    the longest course distance), moving between holes, and the state the
    dialog resets when it opens or closes. */
module HoleImages {
  import opened Wrappers
  import opened Text
  import opened Catalog
  import opened Holes

  /** A tee as the viewer receives it. */
  datatype ImageTee = ImageTee(id: Id, name: Option<string>, courseDistance: Option<int>, teeIndex: int)

  /** `getHoleLabel`: the hole's number, followed by its name when the trimmed
      name is non-empty and is not just that number. The untrimmed name is shown. */
  function HoleLabel(hole: HoleInfo): (r: string)
    ensures var num := IntToString(hole.holeIndex + 1);
      && (r == num <==> hole.name.None? || Trim(hole.name.value) == "" || Trim(hole.name.value) == num)
      && (r != num ==> r == num + " — " + hole.name.value)
  {
    var num := IntToString(hole.holeIndex + 1);
    if hole.name.Some? && Trim(hole.name.value) != "" && Trim(hole.name.value) != num then
      assert |num + " — " + hole.name.value| > |num|;
      num + " — " + hole.name.value
    else num
  }

  /** Whatever name is appended, the label still reads back as the hole's number. */
  lemma HoleLabelNumber(hole: HoleInfo)
    ensures ParseInt(HoleLabel(hole)) == Finite(hole.holeIndex + 1)
  {
    var n := hole.holeIndex + 1;
    var shown := HoleLabel(hole);
    if hole.name.Some? && Trim(hole.name.value) != "" && Trim(hole.name.value) != IntToString(n) {
      NamedLabelNumber(n, hole.name.value, shown);
    } else {
      ParseIntRoundTrip(n);
    }
  }

  /** A number followed by the separator and any name parses back to the number. */
  lemma NamedLabelNumber(n: int, name: string, shown: string)
    requires shown == IntToString(n) + " — " + name
    ensures ParseInt(shown) == Finite(n)
  {
    var rest := " — " + name;
    assert shown == IntToString(n) + rest;
    ParseIntPrefix(n, rest);
  }

  /** `courseDistance ?? 0`. */
  function Dist(t: ImageTee): int {
    t.courseDistance.GetOr(0)
  }

  /** `a` sorts before `b` under the viewer's comparator: farther first, then lower tee index. */
  predicate Before(a: ImageTee, b: ImageTee) {
    Dist(a) > Dist(b) || (Dist(a) == Dist(b) && a.teeIndex < b.teeIndex)
  }

  /** Position `k` is where the stable sort's first element comes from: nothing
      sorts before it, and it sorts strictly before every earlier tee. */
  predicate IsFarthest(tees: seq<ImageTee>, k: int) {
    && 0 <= k < |tees|
    && (forall j :: 0 <= j < |tees| ==> !Before(tees[j], tees[k]))
    && (forall j :: 0 <= j < k ==> Before(tees[k], tees[j]))
  }

  /** `getFarthestTee`: the first element of a stably sorted copy, or nothing for no tees. */
  method FarthestTee(tees: seq<ImageTee>) returns (r: Option<ImageTee>)
    ensures r.None? <==> |tees| == 0
    ensures r.Some? ==> exists k :: IsFarthest(tees, k) && tees[k] == r.value
  {
    if |tees| == 0 {
      return None;
    }
    var best := 0;
    var i := 1;
    while i < |tees|
      invariant 0 <= best < i <= |tees|
      invariant forall j :: 0 <= j < i ==> !Before(tees[j], tees[best])
      invariant forall j :: 0 <= j < best ==> Before(tees[best], tees[j])
    {
      if Before(tees[i], tees[best]) {
        best := i;
      }
      i := i + 1;
    }
    assert IsFarthest(tees, best);
    return Some(tees[best]);
  }

  /** The farthest tee is well defined: at most one position qualifies. */
  lemma FarthestUnique(tees: seq<ImageTee>, k1: int, k2: int)
    requires IsFarthest(tees, k1) && IsFarthest(tees, k2)
    ensures k1 == k2
  {
    EarlierNotFarthest(tees, k1, k2);
    EarlierNotFarthest(tees, k2, k1);
  }

  /** A tee that the farthest one sorts strictly before cannot be farthest itself. */
  lemma EarlierNotFarthest(tees: seq<ImageTee>, k: int, j: int)
    requires IsFarthest(tees, k) && 0 <= j < |tees|
    ensures j < k ==> !IsFarthest(tees, j)
  {
    if j < k {
      assert Before(tees[k], tees[j]);
    }
  }

  /** `canGoPrev` and `canGoNext`. */
  predicate CanGoPrev(index: int) {
    index > 0
  }

  predicate CanGoNext(count: int, index: int) {
    index < count - 1
  }

  /** `goPrev`: one hole back, never below the first. */
  function GoPrev(index: int): (r: int)
    ensures 0 <= index ==> 0 <= r <= index
    ensures CanGoPrev(index) <==> r == index - 1
  {
    if index - 1 > 0 then index - 1 else 0
  }

  /** `goNext`: one hole on, never past the last. */
  function GoNext(count: int, index: int): (r: int)
    ensures index < count ==> index <= r < count
    ensures CanGoNext(count, index) <==> r == index + 1
  {
    if count - 1 < index + 1 then count - 1 else index + 1
  }

  /** On a non-empty list both moves keep the index on a hole, and a move that
      was allowed is undone by the opposite one. */
  lemma NavigationStaysInRange(count: int, index: int)
    requires 0 <= index < count
    ensures 0 <= GoPrev(index) < count && 0 <= GoNext(count, index) < count
    ensures CanGoNext(count, index) ==> GoPrev(GoNext(count, index)) == index
    ensures CanGoPrev(index) ==> GoNext(count, GoPrev(index)) == index
    ensures !CanGoPrev(index) ==> GoPrev(index) == index
    ensures !CanGoNext(count, index) ==> GoNext(count, index) == index
  {
  }

  /** The dialog's state: open or not, the hole shown, the tee selected. */
  datatype Viewer = Viewer(open: bool, index: int, selected: Option<ImageTee>)

  /** `handleOpenChange`: closing returns to the first hole; opening reselects
      the farthest tee when there is one. */
  function HandleOpenChange(v: Viewer, next: bool, farthest: Option<ImageTee>): (r: Viewer)
    ensures r.open == next
    ensures r.index == (if next then v.index else 0)
    ensures r.selected == (if next && farthest.Some? then farthest else v.selected)
  {
    var idx := if !next then 0 else v.index;
    var sel := if next && farthest.Some? then farthest else v.selected;
    Viewer(next, idx, sel)
  }

  /** The first viewer state: closed, first hole, the farthest tee if any. */
  function InitialViewer(farthest: Option<ImageTee>): Viewer {
    Viewer(false, 0, farthest)
  }

  /** Closing through the dialog shows the first hole again, and an opening the
      dialog itself requests then selects the farthest tee. */
  lemma ReopenResets(v: Viewer, farthest: Option<ImageTee>)
    requires farthest.Some?
    ensures var closed := HandleOpenChange(v, false, farthest);
      && closed.index == 0
      && HandleOpenChange(closed, true, farthest) == Viewer(true, 0, farthest)
  {
  }

  /** The trigger button's `setOpen(true)`: it opens the dialog without going
      through `handleOpenChange`, so hole and tee stay as they were. */
  function ButtonOpen(v: Viewer): (r: Viewer)
    ensures r.open
    ensures r.index == v.index && r.selected == v.selected
  {
    v.(open := true)
  }

  /** A tee badge's `setSelectedTee(tee)`: only the selection changes. */
  function SelectTee(v: Viewer, tee: ImageTee): (r: Viewer)
    ensures r.selected == Some(tee)
    ensures r.open == v.open && r.index == v.index
  {
    v.(selected := Some(tee))
  }

  /** Picking a tee, closing through the dialog and reopening with the trigger
      button shows the first hole with the picked tee, not the farthest one. */
  lemma ButtonReopenKeepsTee(v: Viewer, tee: ImageTee, farthest: Option<ImageTee>)
    ensures ButtonOpen(HandleOpenChange(SelectTee(v, tee), false, farthest)) == Viewer(true, 0, Some(tee))
  {
  }

  /** `hasImages`: some hole has at least one image; without it nothing is rendered. */
  predicate HasImages(holes: seq<HoleInfo>) {
    exists i :: 0 <= i < |holes| && |holes[i].imageUrls| > 0
  }

  /** The shown hole's first row for the selected tee; none when there is no
      selection, no hole at the index, or no row for that tee. */
  function CurrentHoleTee(holes: seq<HoleInfo>, v: Viewer): (r: Option<HoleTeeInfo>)
    ensures r.None? <==>
      || v.selected.None? || !(0 <= v.index < |holes|)
      || forall i :: 0 <= i < |holes[v.index].holeTees| ==> holes[v.index].holeTees[i].teeId != v.selected.value.id
    ensures r.Some? ==>
      && 0 <= v.index < |holes|
      && r.value.teeId == v.selected.value.id
      && exists i :: IsFirstFor(holes[v.index].holeTees, v.selected.value.id, i) && holes[v.index].holeTees[i] == r.value
  {
    if v.selected.None? || !(0 <= v.index < |holes|) then None
    else
      var r := FindHoleTee(holes[v.index].holeTees, v.selected.value.id);
      r
  }
}

=== FILE: holes.dfy ===
/** Holes as the pages and dialogs see them, and the rules they share: which
    holes a front-nine, back-nine or full round shows, and how a hole's
    numbers for one tee are found among its per-tee rows. */
module Holes {
  import opened Wrappers
  import opened Seqs
  import opened Catalog

  /** Which part of the course a round covers. */
  datatype Half = Front | Back | Full

  /** The value a round's `holesPlayed` carries. */
  function HalfName(h: Half): string {
    match h
    case Front => "front"
    case Back => "back"
    case Full => "full"
  }

  /** The server's check against `HOLES_PLAYED_VALUES`: only the three names are accepted. */
  function ParseHalf(s: string): (r: Option<Half>)
    ensures r.Some? <==> s == "front" || s == "back" || s == "full"
    ensures r.Some? ==> HalfName(r.value) == s
  {
    if s == "front" then Some(Front)
    else if s == "back" then Some(Back)
    else if s == "full" then Some(Full)
    else None
  }

  /** Accepted names and halves correspond one to one. */
  lemma ParseHalfName(h: Half)
    ensures ParseHalf(HalfName(h)) == Some(h)
  {
  }

  /** How the scorecard and edit dialogs read a stored `holesPlayed`: "front",
      "back", and anything else as the whole course. */
  function HalfOf(s: string): (h: Half)
    ensures ParseHalf(s).Some? ==> h == ParseHalf(s).value
    ensures ParseHalf(s).None? ==> h == Full
  {
    if s == "front" then Front else if s == "back" then Back else Full
  }

  /** A per-tee row of a hole: the measurements for one tee. */
  datatype HoleTeeInfo = HoleTeeInfo(teeId: Id, par: Option<int>, distance: Option<int>, strokeIndex: Option<int>)

  /** A hole with its per-tee rows and images, as the pages load it. */
  datatype HoleInfo = HoleInfo(id: Id, holeIndex: int, name: Option<string>, holeTees: seq<HoleTeeInfo>, imageUrls: seq<string>)

  /** The front nine are the holes with index below 9. */
  predicate InHalf(half: Half, holeIndex: int) {
    match half
    case Front => holeIndex < 9
    case Back => holeIndex >= 9
    case Full => true
  }

  /** `holesToShow`: the holes of the chosen half, in their given order. */
  function HolesToShow(holes: seq<HoleInfo>, half: Half): (r: seq<HoleInfo>)
    ensures SubseqOf(r, holes)
    ensures forall h :: h in r <==> h in holes && InHalf(half, h.holeIndex)
  {
    match half
    case Front =>
      FilterIsSubseq(holes, (h: HoleInfo) => h.holeIndex < 9);
      Filter(holes, (h: HoleInfo) => h.holeIndex < 9)
    case Back =>
      FilterIsSubseq(holes, (h: HoleInfo) => h.holeIndex >= 9);
      Filter(holes, (h: HoleInfo) => h.holeIndex >= 9)
    case Full =>
      SubseqRefl(holes);
      holes
  }

  /** The front and back nine split the course's holes: every hole is shown in exactly one of them. */
  lemma HalvesSplitCourse(holes: seq<HoleInfo>)
    ensures multiset(HolesToShow(holes, Front)) + multiset(HolesToShow(holes, Back)) == multiset(HolesToShow(holes, Full))
  {
    FilterPartition(holes, (h: HoleInfo) => h.holeIndex < 9, (h: HoleInfo) => h.holeIndex >= 9);
  }

  /** `holeTees.find(ht => ht.teeId === teeId)`: the first row for the tee, if any. */
  function FindHoleTee(rows: seq<HoleTeeInfo>, teeId: Id): (r: Option<HoleTeeInfo>)
    ensures r.None? <==> forall i :: 0 <= i < |rows| ==> rows[i].teeId != teeId
    ensures r.Some? ==> exists i :: 0 <= i < |rows| && rows[i] == r.value && IsFirstFor(rows, teeId, i)
    decreases |rows|
  {
    if |rows| == 0 then None
    else if rows[0].teeId == teeId then
      assert IsFirstFor(rows, teeId, 0);
      Some(rows[0])
    else
      var r := FindHoleTee(rows[1..], teeId);
      assert forall i :: 0 < i < |rows| ==> rows[i] == rows[1..][i - 1];
      assert forall i :: IsFirstFor(rows[1..], teeId, i) ==> IsFirstFor(rows, teeId, i + 1);
      r
  }

  /** Row `i` is for the tee and no earlier row is. */
  predicate IsFirstFor(rows: seq<HoleTeeInfo>, teeId: Id, i: int) {
    && 0 <= i < |rows|
    && rows[i].teeId == teeId
    && forall j :: 0 <= j < i ==> rows[j].teeId != teeId
  }

  /** A hole's row for a tee. */
  function HoleTeeFor(hole: HoleInfo, teeId: Id): Option<HoleTeeInfo> {
    FindHoleTee(hole.holeTees, teeId)
  }

  /** `holeTee(hole)?.par ?? null`. */
  function ParFor(hole: HoleInfo, teeId: Id): Option<int> {
    var ht := HoleTeeFor(hole, teeId);
    if ht.Some? then ht.value.par else None
  }

  /** `holeTee(hole)?.distance ?? null`. */
  function DistanceFor(hole: HoleInfo, teeId: Id): Option<int> {
    var ht := HoleTeeFor(hole, teeId);
    if ht.Some? then ht.value.distance else None
  }

  /** `holeTee(hole)?.strokeIndex ?? null`. */
  function StrokeIndexFor(hole: HoleInfo, teeId: Id): Option<int> {
    var ht := HoleTeeFor(hole, teeId);
    if ht.Some? then ht.value.strokeIndex else None
  }

  /** The first matching row decides: whatever later rows for the same tee say is ignored. */
  lemma FirstRowDecides(hole: HoleInfo, teeId: Id, i: int)
    requires IsFirstFor(hole.holeTees, teeId, i)
    ensures ParFor(hole, teeId) == hole.holeTees[i].par
    ensures DistanceFor(hole, teeId) == hole.holeTees[i].distance
    ensures StrokeIndexFor(hole, teeId) == hole.holeTees[i].strokeIndex
  {
    var r := HoleTeeFor(hole, teeId);
    var k :| 0 <= k < |hole.holeTees| && hole.holeTees[k] == r.value && IsFirstFor(hole.holeTees, teeId, k);
    assert k == i;
  }
}

=== FILE: mark_as_played.dfy ===
/** The "mark as played" dialog: its form state, the checks `handleSubmit`
    makes before calling `createCoursePlay`, the request it sends, and the
    reset after a successful save. */
module MarkAsPlayed {
  import opened Wrappers
  import opened Text
  import opened Catalog
  import opened Holes
  import opened Activity
  import opened CoursePlay
  import opened ScoreForm

  /** The dialog's fields; `teeId` is `None` while no tee is selected (the empty string). */
  datatype PlayForm = PlayForm(
    teeId: Option<Id>,
    holesPlayed: Half,
    overallScore: string,
    note: string,
    addToFavorites: bool,
    holeScores: map<Id, string>)

  /** The state the dialog starts in and returns to after a save. */
  const BlankForm := PlayForm(None, Full, "", "", false, map[])

  /** What a submit does: complain about the tee, complain about the totals, or call the server. */
  datatype Submission = NoTee | Mismatched(holeSum: int, overall: Num) | Send(input: PlayInput)

  /** The per-hole map sent: the parsed scores, or nothing when none parsed. */
  function SentScores(entries: map<Id, string>): (r: Option<map<Id, Num>>)
    ensures r.None? <==> forall k :: k in entries ==> ParseInt(entries[k]) == NaN
    ensures r.Some? ==> forall k :: k in r.value <==> k in entries && ParseInt(entries[k]).Finite?
    ensures r.Some? ==> forall k :: k in r.value ==> r.value[k] == ParseInt(entries[k])
  {
    var nums := ParsedScores(entries);
    if |nums| > 0 then Some(map k | k in nums :: Finite(nums[k]))
    else
      assert forall k :: k !in nums;
      None
  }

  /** `handleSubmit` for the course `courseId` whose holes are `holes`. */
  function Submit(form: PlayForm, courseId: Id, holes: seq<HoleInfo>): (r: Submission)
    ensures r == NoTee <==> form.teeId.None?
    ensures r.Mismatched? <==>
      form.teeId.Some? && CheckScores(HolesToShow(holes, form.holesPlayed), form.overallScore, form.holeScores).Mismatch?
    ensures r.Send? ==>
      && r.input.courseId == courseId
      && r.input.teeId == form.teeId.value
      && ParseHalf(r.input.holesPlayed) == Some(form.holesPlayed)
      && r.input.overallScore == OverallNumber(form.overallScore)
      && r.input.note == ClientNote(form.note)
      && r.input.holeScores == SentScores(form.holeScores)
      && r.input.addToFavorites == form.addToFavorites
  {
    if form.teeId.None? then NoTee
    else
      var shown := HolesToShow(holes, form.holesPlayed);
      var check := CheckScores(shown, form.overallScore, form.holeScores);
      if check.Mismatch? then Mismatched(check.holeSum, check.overall)
      else
        ParseHalfName(form.holesPlayed);
        Send(PlayInput(courseId, form.teeId.value, HalfName(form.holesPlayed), OverallNumber(form.overallScore),
          ClientNote(form.note), SentScores(form.holeScores), form.addToFavorites))
  }

  /** The dialog: whether it is open, and its form. */
  datatype Dialog = Dialog(open: bool, form: PlayForm)

  /** After the server answers: a success closes the dialog and resets the form;
      an error leaves both as they were. */
  function AfterSave(d: Dialog, outcome: Outcome): (r: Dialog)
    ensures outcome.Ok? ==> !r.open && r.form == BlankForm
    ensures outcome.Error? ==> r == d
  {
    if outcome.Ok? then Dialog(false, BlankForm) else d
  }

  /** The rows the server stores for a submitted form are exactly its per-hole
      entries that parsed to integers and name a hole of the course, whichever
      half the round covers. */
  lemma SubmittedScoresStored(cat: Store, a: Activity, session: Option<UserId>, form: PlayForm, courseId: Id,
                              holes: seq<HoleInfo>, now: Timestamp)
    requires Submit(form, courseId, holes).Send?
    requires Accepted(cat, session, Submit(form, courseId, holes).input)
    ensures var r := CreateCoursePlay(cat, a, session, Submit(form, courseId, holes).input, now);
      forall hs :: hs in r.state.holeScores - a.holeScores ==>
        && hs.playId == a.nextId
        && hs.holeId in form.holeScores
        && ParseInt(form.holeScores[hs.holeId]) == Finite(hs.score)
        && HoleOfCourse(cat, courseId, hs.holeId)
  {
  }

  /** The note the client sends is stored unchanged: the server's own trim has nothing left to remove. */
  lemma ClientNoteStoredAsSent(note: string)
    ensures StoredNote(ClientNote(note)) == ClientNote(note)
  {
    var c := ClientNote(note);
    if c.Some? {
      TrimOfTrimmed(c.value);
    }
  }
}

=== FILE: orphans.dfy ===
/** The orphan report: courses in the store whose normalised (name, location)
    key is not among the keys of the current feed. */
module Orphans {
  import opened Wrappers
  import opened Seqs
  import opened Text
  import opened Catalog
  import opened Sync

  /** `replace(/\s+/g, " ")`: every maximal run of whitespace becomes one space. */
  function Collapse(s: string): (r: string)
    decreases |s|
  {
    if s == [] then []
    else if IsSpace(s[0]) then [' '] + Collapse(TrimStart(s))
    else [s[0]] + Collapse(s[1..])
  }

  /** What `Collapse` leaves: no longer than its input, the same first and last
      visible characters, only plain spaces, never two together, and no capital
      that was not there before. */
  lemma CollapseShape(s: string)
    ensures var r := Collapse(s);
      && |r| <= |s|
      && (|s| > 0 ==> |r| > 0 && r[0] == (if IsSpace(s[0]) then ' ' else s[0]))
      && (|s| > 0 && !IsSpace(s[|s| - 1]) ==> |r| > 0 && r[|r| - 1] == s[|s| - 1])
      && PlainSpaces(r) && NoDoubleSpace(r)
      && (NoUpper(s) ==> NoUpper(r))
  {
    CollapseLength(s);
    if |s| > 0 {
      CollapseFirst(s);
      if !IsSpace(s[|s| - 1]) {
        CollapseLast(s);
      }
    }
    CollapseSpaces(s);
    if NoUpper(s) {
      CollapseNoUpper(s);
    }
  }

  lemma {:induction false} CollapseLength(s: string)
    ensures |Collapse(s)| <= |s|
    decreases |s|
  {
    if s != [] {
      if IsSpace(s[0]) {
        CollapseLength(TrimStart(s));
      } else {
        CollapseLength(s[1..]);
      }
    }
  }

  lemma CollapseFirst(s: string)
    requires s != []
    ensures |Collapse(s)| > 0 && Collapse(s)[0] == (if IsSpace(s[0]) then ' ' else s[0])
  {
  }

  lemma {:induction false} CollapseLast(s: string)
    requires s != [] && !IsSpace(s[|s| - 1])
    ensures |Collapse(s)| > 0 && Collapse(s)[|Collapse(s)| - 1] == s[|s| - 1]
    decreases |s|
  {
    if IsSpace(s[0]) {
      TrimStartLast(s);
      CollapseLast(TrimStart(s));
    } else if |s| > 1 {
      CollapseLast(s[1..]);
    }
  }

  lemma {:induction false} CollapseSpaces(s: string)
    ensures PlainSpaces(Collapse(s)) && NoDoubleSpace(Collapse(s))
    decreases |s|
  {
    if s != [] {
      var r := Collapse(s);
      if IsSpace(s[0]) {
        var rest := TrimStart(s);
        CollapseSpaces(rest);
        if rest != [] {
          CollapseFirst(rest);
        }
        var cr := Collapse(rest);
        assert r == [' '] + cr;
        assert forall i :: 1 <= i < |r| ==> r[i] == cr[i - 1];
      } else {
        CollapseSpaces(s[1..]);
        var cr := Collapse(s[1..]);
        assert r == [s[0]] + cr;
        assert forall i :: 1 <= i < |r| ==> r[i] == cr[i - 1];
      }
    }
  }

  lemma {:induction false} CollapseNoUpper(s: string)
    requires NoUpper(s)
    ensures NoUpper(Collapse(s))
    decreases |s|
  {
    if s != [] {
      var r := Collapse(s);
      if IsSpace(s[0]) {
        TrimStartNoUpper(s);
        CollapseNoUpper(TrimStart(s));
        var cr := Collapse(TrimStart(s));
        assert r == [' '] + cr;
        assert forall i :: 1 <= i < |r| ==> r[i] == cr[i - 1];
      } else {
        var tail := s[1..];
        forall i | 0 <= i < |tail| ensures !IsUpper(tail[i]) {
          assert tail[i] == s[i + 1];
        }
        CollapseNoUpper(tail);
        var cr := Collapse(tail);
        assert r == [s[0]] + cr;
        assert forall i :: 1 <= i < |r| ==> r[i] == cr[i - 1];
      }
    }
  }

  lemma {:induction false} TrimStartNoUpper(s: string)
    requires NoUpper(s)
    ensures NoUpper(TrimStart(s))
    decreases |s|
  {
    if |s| > 0 && IsSpace(s[0]) {
      assert forall i :: 0 <= i < |s| - 1 ==> s[1..][i] == s[i + 1];
      TrimStartNoUpper(s[1..]);
    }
  }

  /** `trimStart` keeps a visible last character. */
  lemma {:induction false} TrimStartLast(s: string)
    requires s != [] && !IsSpace(s[|s| - 1])
    ensures var r := TrimStart(s); r != [] && r[|r| - 1] == s[|s| - 1]
    decreases |s|
  {
    if IsSpace(s[0]) {
      TrimStartLast(s[1..]);
    }
  }

  /** The form `normalize` produces: no whitespace at either end, every
      whitespace character a plain space, no two spaces together, no ASCII capital. */
  ghost predicate NormalForm(s: string) {
    && Trimmed(s)
    && NoUpper(s)
    && PlainSpaces(s)
    && NoDoubleSpace(s)
  }

  /** Every whitespace character is a plain space. */
  predicate PlainSpaces(s: string) {
    forall i :: 0 <= i < |s| && IsSpace(s[i]) ==> s[i] == ' '
  }

  /** No two whitespace characters stand next to each other. */
  ghost predicate NoDoubleSpace(s: string) {
    forall i, j :: 0 <= i < j < |s| && j == i + 1 ==> !(IsSpace(s[i]) && IsSpace(s[j]))
  }

  /** `normalize`: absent and empty give ""; otherwise trim, lower-case, collapse whitespace. */
  function Normalize(s: Option<string>): (r: string)
    ensures NormalForm(r)
    ensures r == "" <==> s.None? || AllSpace(s.value)
  {
    if s.None? || s.value == "" then ""
    else
      var t := ToLower(Trim(s.value));
      LowerKeepsTrimmed(Trim(s.value));
      TrimEmpty(s.value);
      CollapseShape(t);
      Collapse(t)
  }

  /** Lower-casing changes no whitespace, so a trimmed string stays trimmed. */
  lemma LowerKeepsTrimmed(s: string)
    requires Trimmed(s)
    ensures Trimmed(ToLower(s)) && NoUpper(ToLower(s))
  {
  }

  /** A string in normal form collapses to itself. */
  lemma {:induction false} CollapseNormal(s: string)
    requires PlainSpaces(s) && NoDoubleSpace(s)
    ensures Collapse(s) == s
    decreases |s|
  {
    if s != [] {
      var tail := s[1..];
      assert forall i :: 0 <= i < |tail| ==> tail[i] == s[i + 1];
      CollapseNormal(tail);
      if IsSpace(s[0]) {
        assert tail == [] || !IsSpace(tail[0]);
        assert TrimStart(s) == TrimStart(tail);
        assert TrimStart(s) == tail;
      }
    }
  }

  /** Exactly the strings in normal form are left alone by `normalize`. */
  lemma NormalFormFixed(s: string)
    ensures NormalForm(s) <==> Normalize(Some(s)) == s
  {
    if NormalForm(s) && s != "" {
      TrimOfTrimmed(s);
      assert ToLower(s) == s;
      CollapseNormal(s);
    }
  }

  /** Normalising twice is normalising once. */
  lemma NormalizeIdempotent(s: Option<string>)
    ensures Normalize(Some(Normalize(s))) == Normalize(s)
  {
    NormalFormFixed(Normalize(s));
  }

  /** Leading whitespace does not change a name's normal form. */
  lemma NormalizeIgnoresLeadingSpace(w: string, s: string)
    requires AllSpace(w)
    ensures Normalize(Some(w + s)) == Normalize(Some(s))
  {
    TrimStartSkipsSpace(w, s);
    if w + s != "" && s != "" {
      assert Trim(w + s) == Trim(s);
    }
  }

  lemma {:induction false} TrimStartSkipsSpace(w: string, s: string)
    requires AllSpace(w)
    ensures TrimStart(w + s) == TrimStart(s)
    decreases |w|
  {
    if w != [] {
      assert (w + s)[1..] == w[1..] + s;
      TrimStartSkipsSpace(w[1..], s);
    } else {
      assert w + s == s;
    }
  }

  /** Whitespace after some visible character does not disturb `trimStart`. */
  lemma {:induction false} TrimStartPrefix(a: string, t: string)
    requires !AllSpace(a)
    ensures TrimStart(a + t) == TrimStart(a) + t
    decreases |a|
  {
    if IsSpace(a[0]) {
      assert (a + t)[1..] == a[1..] + t;
      assert !AllSpace(a[1..]) by {
        var k :| 0 <= k < |a| && !IsSpace(a[k]);
        assert a[1..][k - 1] == a[k];
      }
      TrimStartPrefix(a[1..], t);
    }
  }

  lemma {:induction false} TrimEndSuffix(t: string, b: string)
    requires !AllSpace(b)
    ensures TrimEnd(t + b) == t + TrimEnd(b)
    decreases |b|
  {
    if IsSpace(b[|b| - 1]) {
      assert (t + b)[..|t + b| - 1] == t + b[..|b| - 1];
      assert !AllSpace(b[..|b| - 1]) by {
        var k :| 0 <= k < |b| && !IsSpace(b[k]);
        assert b[..|b| - 1][k] == b[k];
      }
      TrimEndSuffix(t, b[..|b| - 1]);
    }
  }

  /** Trailing whitespace does not change a name's normal form. */
  lemma NormalizeIgnoresTrailingSpace(s: string, w: string)
    requires AllSpace(w)
    ensures Normalize(Some(s + w)) == Normalize(Some(s))
  {
    if !AllSpace(s) {
      TrimStartPrefix(s, w);
      var t := TrimStart(s);
      assert TrimEnd(t + w) == TrimEnd(t) by { TrimEndSkipsSpace(t, w); }
    } else {
      assert AllSpace(s + w);
    }
  }

  lemma {:induction false} TrimEndSkipsSpace(t: string, w: string)
    requires AllSpace(w)
    ensures TrimEnd(t + w) == TrimEnd(t)
    decreases |w|
  {
    if w != [] {
      assert (t + w)[..|t + w| - 1] == t + w[..|w| - 1];
      TrimEndSkipsSpace(t, w[..|w| - 1]);
    } else {
      assert t + w == t;
    }
  }

  /** One run of whitespace between two visible parts collapses to a single space. */
  lemma {:induction false} CollapseRun(a: string, w: string, b: string)
    requires a == [] || !IsSpace(a[|a| - 1])
    requires w != [] && AllSpace(w)
    requires b == [] || !IsSpace(b[0])
    ensures Collapse(a + w + b) == Collapse(a) + " " + Collapse(b)
    decreases |a|
  {
    if a == [] {
      CollapseRunNil(w, b);
      assert a + w + b == w + b;
    } else if IsSpace(a[0]) {
      var rest := TrimStart(a);
      TrimStartDrops(a);
      assert !AllSpace(a);
      assert rest != [] && rest[|rest| - 1] == a[|a| - 1];
      CollapseRun(rest, w, b);
      CollapseRunSpace(a, w, b);
    } else {
      CollapseRun(a[1..], w, b);
      CollapseRunChar(a, w, b);
    }
  }

  lemma CollapseRunNil(w: string, b: string)
    requires w != [] && AllSpace(w)
    requires b == [] || !IsSpace(b[0])
    ensures Collapse(w + b) == " " + Collapse(b)
  {
    TrimStartSkipsSpace(w, b);
    assert TrimStart(b) == b;
  }

  lemma CollapseRunSpace(a: string, w: string, b: string)
    requires a != [] && IsSpace(a[0]) && !IsSpace(a[|a| - 1])
    requires Collapse(TrimStart(a) + w + b) == Collapse(TrimStart(a)) + " " + Collapse(b)
    ensures Collapse(a + w + b) == Collapse(a) + " " + Collapse(b)
  {
    var s, rest := a + w + b, TrimStart(a);
    StartOfRun(a, w, b);
    assert s[0] == a[0];
    CollapseSpaceHead(s, rest + w + b);
    CollapseSpaceHead(a, rest);
    ConsJoin(' ', Collapse(rest), " ", Collapse(b));
  }

  lemma CollapseRunChar(a: string, w: string, b: string)
    requires a != [] && !IsSpace(a[0])
    requires Collapse(a[1..] + w + b) == Collapse(a[1..]) + " " + Collapse(b)
    ensures Collapse(a + w + b) == Collapse(a) + " " + Collapse(b)
  {
    var s := a + w + b;
    assert s[0] == a[0] && s[1..] == a[1..] + w + b;
    CollapseCons(s, a[1..] + w + b);
    CollapseCons(a, a[1..]);
    ConsJoin(a[0], Collapse(a[1..]), " ", Collapse(b));
  }

  /** `Collapse` on a string starting with a visible character. */
  lemma CollapseCons(s: string, tail: string)
    requires s != [] && !IsSpace(s[0]) && tail == s[1..]
    ensures Collapse(s) == [s[0]] + Collapse(tail)
  {
  }

  /** `Collapse` on a string starting with whitespace. */
  lemma CollapseSpaceHead(s: string, rest: string)
    requires s != [] && IsSpace(s[0]) && rest == TrimStart(s)
    ensures Collapse(s) == [' '] + Collapse(rest)
  {
  }

  lemma ConsJoin<T>(c: T, x: seq<T>, m: seq<T>, y: seq<T>)
    ensures [c] + (x + m + y) == [c] + x + m + y
  {
  }

  /** Lower-casing never turns a character into whitespace or whitespace into something else. */
  lemma LowerSpace(c: char)
    ensures IsSpace(LowerChar(c)) == IsSpace(c)
  {
  }

  /** `toLowerCase` commutes with trimming. */
  lemma {:induction false} LowerTrimStart(s: string)
    ensures TrimStart(ToLower(s)) == ToLower(TrimStart(s))
    decreases |s|
  {
    if |s| > 0 {
      LowerSpace(s[0]);
      if IsSpace(s[0]) {
        assert ToLower(s)[1..] == ToLower(s[1..]);
        LowerTrimStart(s[1..]);
      }
    }
  }

  lemma {:induction false} LowerTrimEnd(s: string)
    ensures TrimEnd(ToLower(s)) == ToLower(TrimEnd(s))
    decreases |s|
  {
    if |s| > 0 {
      LowerSpace(s[|s| - 1]);
      if IsSpace(s[|s| - 1]) {
        assert ToLower(s)[..|s| - 1] == ToLower(s[..|s| - 1]);
        LowerTrimEnd(s[..|s| - 1]);
      }
    }
  }

  /** Letter case does not change a name's normal form. */
  lemma NormalizeIgnoresCase(s: string)
    ensures Normalize(Some(ToLower(s))) == Normalize(Some(s))
  {
    if s != "" {
      LowerTrim(s);
      LowerTwice(Trim(s));
      NormalizeNonEmpty(s);
      NormalizeNonEmpty(ToLower(s));
    }
  }

  lemma LowerTrim(s: string)
    ensures Trim(ToLower(s)) == ToLower(Trim(s))
  {
    TrimIsBothEnds(s);
    TrimIsBothEnds(ToLower(s));
    LowerTrimStart(s);
    LowerTrimEnd(TrimStart(s));
  }

  lemma LowerTwice(s: string)
    ensures ToLower(ToLower(s)) == ToLower(s)
  {
    assert forall i :: 0 <= i < |s| ==> ToLower(ToLower(s))[i] == ToLower(s)[i];
  }

  /** The length of a whitespace run between two visible parts does not change the normal form. */
  lemma NormalizeIgnoresRunLength(a: string, w1: string, w2: string, b: string)
    requires a != [] && !IsSpace(a[|a| - 1]) && b != [] && !IsSpace(b[0])
    requires w1 != [] && AllSpace(w1) && w2 != [] && AllSpace(w2)
    ensures Normalize(Some(a + w1 + b)) == Normalize(Some(a + w2 + b))
  {
    RunTrimmed(a, w1, b);
    RunTrimmed(a, w2, b);
  }

  lemma RunTrimmed(a: string, w: string, b: string)
    requires a != [] && !IsSpace(a[|a| - 1]) && b != [] && !IsSpace(b[0])
    requires w != [] && AllSpace(w)
    ensures Normalize(Some(a + w + b)) == Collapse(ToLower(TrimStart(a))) + " " + Collapse(ToLower(TrimEnd(b)))
  {
    var ta, tb := TrimStart(a), TrimEnd(b);
    var la, lb := ToLower(ta), ToLower(tb);
    LowerEnds(a, b, la, lb);
    CollapseRun(la, w, lb);
    TrimOfRun(a, w, b);
    LowerRun(ta, w, tb);
    NormalizeNonEmpty(a + w + b);
  }

  /** `normalize` of a present, non-empty string. */
  lemma NormalizeNonEmpty(s: string)
    requires s != ""
    ensures Normalize(Some(s)) == Collapse(ToLower(Trim(s)))
  {
  }

  lemma LowerRun(x: string, w: string, y: string)
    requires AllSpace(w)
    ensures ToLower(x + w + y) == ToLower(x) + w + ToLower(y)
  {
    LowerConcat(x + w, y);
    LowerConcat(x, w);
    LowerSpaces(w);
  }

  /** The visible characters at the ends of the two parts survive trimming and lower-casing. */
  lemma LowerEnds(a: string, b: string, la: string, lb: string)
    requires a != [] && !IsSpace(a[|a| - 1]) && b != [] && !IsSpace(b[0])
    requires la == ToLower(TrimStart(a)) && lb == ToLower(TrimEnd(b))
    ensures la != [] && !IsSpace(la[|la| - 1])
    ensures lb != [] && !IsSpace(lb[0])
  {
    var ta, tb := TrimStart(a), TrimEnd(b);
    TrimStartLast(a);
    TrimEndFirst(b);
    LowerSpace(ta[|ta| - 1]);
    LowerSpace(tb[0]);
  }

  /** Trimming a run-separated string trims only its outer parts. */
  lemma TrimOfRun(a: string, w: string, b: string)
    requires a != [] && !IsSpace(a[|a| - 1]) && b != [] && !IsSpace(b[0])
    ensures Trim(a + w + b) == TrimStart(a) + w + TrimEnd(b)
  {
    var ta := TrimStart(a);
    StartOfRun(a, w, b);
    EndOfRun(ta, w, b);
    TrimIsBothEnds(a + w + b);
  }

  lemma StartOfRun(a: string, w: string, b: string)
    requires a != [] && !IsSpace(a[|a| - 1])
    ensures TrimStart(a + w + b) == TrimStart(a) + w + b
  {
    assert !AllSpace(a);
    TrimStartPrefix(a, w + b);
    assert a + w + b == a + (w + b);
    assert TrimStart(a) + (w + b) == TrimStart(a) + w + b;
  }

  lemma EndOfRun(t: string, w: string, b: string)
    requires b != [] && !IsSpace(b[0])
    ensures TrimEnd(t + w + b) == t + w + TrimEnd(b)
  {
    assert !AllSpace(b);
    TrimEndSuffix(t + w, b);
  }

  lemma LowerConcat(x: string, y: string)
    ensures ToLower(x + y) == ToLower(x) + ToLower(y)
  {
    var l, r := ToLower(x + y), ToLower(x) + ToLower(y);
    assert forall i :: 0 <= i < |r| ==> l[i] == r[i];
  }

  lemma LowerSpaces(w: string)
    requires AllSpace(w)
    ensures ToLower(w) == w
  {
    assert forall i :: 0 <= i < |w| ==> ToLower(w)[i] == w[i];
  }

  /** `trimEnd` keeps a visible first character. */
  lemma {:induction false} TrimEndFirst(s: string)
    requires s != [] && !IsSpace(s[0])
    ensures var r := TrimEnd(s); r != [] && r[0] == s[0]
    decreases |s|
  {
    if IsSpace(s[|s| - 1]) {
      TrimEndFirst(s[..|s| - 1]);
    }
  }

  /** The example the orphan report relies on: padding, case and run length all disappear. */
  lemma PineValley()
    ensures Normalize(Some("  Pine   Valley  ")) == Normalize(Some("pine valley"))
  {
    PineValleyLeading();
    PineValleyTrailing();
    PineValleyRun();
  }

  lemma PineValleyLeading()
    ensures Normalize(Some("  Pine   Valley  ")) == Normalize(Some("Pine   Valley  "))
  {
    var w, y := "  ", "Pine   Valley  ";
    assert "  Pine   Valley  " == w + y;
    NormalizeIgnoresLeadingSpace(w, y);
  }

  lemma PineValleyTrailing()
    ensures Normalize(Some("Pine   Valley  ")) == Normalize(Some("Pine   Valley"))
  {
    var z, w := "Pine   Valley", "  ";
    assert "Pine   Valley  " == z + w;
    NormalizeIgnoresTrailingSpace(z, w);
  }

  lemma PineValleyRun()
    ensures Normalize(Some("Pine   Valley")) == Normalize(Some("pine valley"))
  {
    PineValleyParts();
    NormalizeIgnoresRunLength("Pine", "   ", " ", "Valley");
    var u := "Pine" + " " + "Valley";
    NormalizeIgnoresCase(u);
    PineValleyLower();
  }

  lemma PineValleyParts()
    ensures "Pine   Valley" == "Pine" + "   " + "Valley"
  {
    var l, r := "Pine   Valley", "Pine" + "   " + "Valley";
    assert |r| == 13;
    assert forall i :: 0 <= i < 13 ==> l[i] == r[i];
  }

  lemma PineValleyLower()
    ensures ToLower("Pine" + " " + "Valley") == "pine valley"
  {
    var l, r := ToLower("Pine" + " " + "Valley"), "pine valley";
    assert |l| == 11;
    assert forall i :: 0 <= i < 11 ==> l[i] == r[i];
  }

  /** `nameLocationKey`: the two normal forms joined by '|'. */
  function NameLocationKey(displayName: Option<string>, courseLocation: Option<string>): (k: string)
  {
    Normalize(displayName) + "|" + Normalize(courseLocation)
  }

  /** The position of the first '|' (the length when there is none). */
  function BarIndex(s: string): (n: nat)
    ensures n <= |s|
  {
    if s == [] || s[0] == '|' then 0 else 1 + BarIndex(s[1..])
  }

  lemma {:induction false} BarIndexJoin(a: string, x: string)
    requires '|' !in a
    ensures BarIndex(a + "|" + x) == |a|
  {
    if a != [] {
      assert (a + "|" + x)[1..] == a[1..] + "|" + x;
      BarIndexJoin(a[1..], x);
    }
  }

  /** Two strings free of '|' are recovered from their '|'-joined form. */
  lemma JoinSplits(a: string, x: string, b: string, y: string)
    requires '|' !in a && '|' !in b
    requires a + "|" + x == b + "|" + y
    ensures a == b && x == y
  {
    var k := a + "|" + x;
    BarIndexJoin(a, x);
    BarIndexJoin(b, y);
    assert a == k[..|a|] && b == (b + "|" + y)[..|b|];
    assert x == k[|a| + 1..] && y == (b + "|" + y)[|b| + 1..];
  }

  /** When neither name's normal form contains '|', equal keys mean equal normal forms. */
  lemma KeySplits(n1: Option<string>, l1: Option<string>, n2: Option<string>, l2: Option<string>)
    requires '|' !in Normalize(n1) && '|' !in Normalize(n2)
    requires NameLocationKey(n1, l1) == NameLocationKey(n2, l2)
    ensures Normalize(n1) == Normalize(n2) && Normalize(l1) == Normalize(l2)
  {
    JoinSplits(Normalize(n1), Normalize(l1), Normalize(n2), Normalize(l2));
  }

  /** Names and locations already in normal form are keyed as they are. */
  lemma NormalKey(x: string, y: string)
    requires NormalForm(x) && NormalForm(y)
    ensures NameLocationKey(Some(x), Some(y)) == x + "|" + y
  {
    NormalFormFixed(x);
    NormalFormFixed(y);
  }

  lemma SameJoin()
    ensures "a|b" + "|" + "c" == "a" + "|" + "b|c"
  {
    var l, r := "a|b" + "|" + "c", "a" + "|" + "b|c";
    assert |l| == |r| == 5;
    assert forall i :: 0 <= i < 5 ==> l[i] == r[i];
  }

  /** A '|' inside a name lets two different courses share a key. */
  lemma KeyAmbiguous()
    ensures NameLocationKey(Some("a|b"), Some("c")) == NameLocationKey(Some("a"), Some("b|c"))
    ensures Normalize(Some("a|b")) != Normalize(Some("a"))
  {
    var ab, c, a, bc := "a|b", "c", "a", "b|c";
    assert NormalForm(ab) && NormalForm(c) && NormalForm(a) && NormalForm(bc);
    NormalKey(ab, c);
    NormalKey(a, bc);
    SameJoin();
    NormalFormFixed(ab);
    NormalFormFixed(a);
  }

  /** The fields of a stored course the report selects. */
  datatype DbCourse = DbCourse(id: Id, trackmanId: string, displayName: string, courseLocation: Option<string>)

  function CourseKey(c: DbCourse): string {
    NameLocationKey(Some(c.displayName), c.courseLocation)
  }

  function ItemKey(item: FeedCourse): string {
    NameLocationKey(Some(item.displayName), item.courseLocation)
  }

  /** `apiNameLocationKeys`. */
  function ApiKeys(items: seq<FeedCourse>): (keys: set<string>)
    ensures forall k :: k in keys <==> exists i :: 0 <= i < |items| && ItemKey(items[i]) == k
  {
    set i | 0 <= i < |items| :: ItemKey(items[i])
  }

  /** `orphans`: the stored courses, in store order, whose key the feed lacks. */
  function FindOrphans(all: seq<DbCourse>, items: seq<FeedCourse>): (orphans: seq<DbCourse>)
    ensures SubseqOf(orphans, all)
    ensures forall c :: c in orphans <==> c in all && forall i :: 0 <= i < |items| ==> ItemKey(items[i]) != CourseKey(c)
  {
    var keys := ApiKeys(items);
    var r := Filter(all, (c: DbCourse) => CourseKey(c) !in keys);
    FilterIsSubseq(all, (c: DbCourse) => CourseKey(c) !in keys);
    r
  }

  /** The course the sync writes for a record, as the report reads it. */
  function AsDbCourse(id: Id, row: CourseRow): DbCourse {
    DbCourse(id, row.trackmanId, row.displayName, row.courseLocation)
  }

  /** A course just created from a feed record is never reported. */
  lemma CreatedCourseNotOrphan(id: Id, item: FeedCourse, items: seq<FeedCourse>, all: seq<DbCourse>, now: Timestamp)
    requires item in items
    ensures AsDbCourse(id, MapCourseCreate(item, now)) !in FindOrphans(all, items)
  {
    var i :| 0 <= i < |items| && items[i] == item;
    assert ItemKey(items[i]) == CourseKey(AsDbCourse(id, MapCourseCreate(item, now)));
  }

  /** An update keeps the stored location when the record carries none, so a
      course the feed still lists is reported once its location is dropped upstream. */
  lemma StaleLocationReported(id: Id, row: CourseRow, item: FeedCourse, now: Timestamp)
    requires row.trackmanId == item.id && item.courseLocation.None?
    requires row.courseLocation.Some? && !AllSpace(row.courseLocation.value)
    ensures var updated := ApplyUpdate(row, MapCourseUpdate(item, now));
      AsDbCourse(id, updated) in FindOrphans([AsDbCourse(id, updated)], [item])
  {
    var updated := ApplyUpdate(row, MapCourseUpdate(item, now));
    var c := AsDbCourse(id, updated);
    var a := Normalize(Some(item.displayName));
    assert |CourseKey(c)| > |a| + 1 == |ItemKey(item)|;
  }
}

=== FILE: play_scorecard.dfy ===
/** The scorecard of one logged round: the holes it covers, split into the out
    (front) and in (back) nine, par and score totals, the score relative to
    par, and the square/circle marking of each hole's score. */
module PlayScorecard {
  import opened Wrappers
  import opened Seqs
  import opened Text
  import opened Catalog
  import opened Holes

  /** The round as the scorecard receives it: its tee, its half, its hole scores in load order. */
  datatype CardPlay = CardPlay(teeId: Id, holesPlayed: string, holeScores: seq<(Id, int)>)

  /** `new Map(play.holeScores.map(hs => [hs.holeId, hs.score]))`. */
  function ScoreByHole(p: CardPlay): map<Id, int> {
    MapFromPairs(p.holeScores)
  }

  /** `scoreByHoleId.get(hole.id) ?? null`: the last score listed for the hole. */
  function ScoreFor(p: CardPlay, hole: HoleInfo): (r: Option<int>)
    ensures r.None? <==> forall i :: 0 <= i < |p.holeScores| ==> p.holeScores[i].0 != hole.id
    ensures forall i :: IsLastKey(p.holeScores, i) && p.holeScores[i].0 == hole.id ==> r == Some(p.holeScores[i].1)
  {
    var m := ScoreByHole(p);
    if hole.id in m then Some(m[hole.id]) else None
  }

  function ParOr0(teeId: Id, h: HoleInfo): int {
    ParFor(h, teeId).GetOr(0)
  }

  function ScoreOr0(p: CardPlay, h: HoleInfo): int {
    ScoreFor(p, h).GetOr(0)
  }

  /** `sumPar`: a hole without a par for the tee counts 0. */
  function SumPar(holes: seq<HoleInfo>, teeId: Id): int {
    Sum(holes, (h: HoleInfo) => ParOr0(teeId, h))
  }

  /** `sumScore`: a hole without a score counts 0. */
  function SumScore(holes: seq<HoleInfo>, p: CardPlay): int {
    Sum(holes, (h: HoleInfo) => ScoreOr0(p, h))
  }

  function OutHoles(shown: seq<HoleInfo>): seq<HoleInfo> {
    Filter(shown, (h: HoleInfo) => h.holeIndex < 9)
  }

  function InHoles(shown: seq<HoleInfo>): seq<HoleInfo> {
    Filter(shown, (h: HoleInfo) => h.holeIndex >= 9)
  }

  /** `totalToPar`: defined only when the total par is positive. */
  function TotalToPar(totalPar: int, totalScore: int): (r: Option<int>)
    ensures r.None? <==> totalPar <= 0
    ensures r.Some? ==> totalPar + r.value == totalScore
  {
    if totalPar > 0 then Some(totalScore - totalPar) else None
  }

  /** What the table's footer shows. */
  datatype Totals = Totals(
    outPar: int, inPar: int, totalPar: int,
    outScore: int, inScore: int, totalScore: int,
    full18: bool, toPar: Option<int>)

  /** The footer of the scorecard for the round `p` on a course with holes `holes`. */
  function CardTotals(p: CardPlay, holes: seq<HoleInfo>): (t: Totals)
    ensures var shown := HolesToShow(holes, HalfOf(p.holesPlayed));
      && t.totalPar == SumPar(shown, p.teeId) && t.totalScore == SumScore(shown, p)
      && t.outPar == SumPar(OutHoles(shown), p.teeId) && t.inPar == SumPar(InHoles(shown), p.teeId)
      && t.outScore == SumScore(OutHoles(shown), p) && t.inScore == SumScore(InHoles(shown), p)
    ensures t.totalPar == t.outPar + t.inPar
    ensures t.totalScore == t.outScore + t.inScore
    ensures t.full18 <==>
      var shown := HolesToShow(holes, HalfOf(p.holesPlayed));
      (exists h :: h in shown && h.holeIndex < 9) && (exists h :: h in shown && h.holeIndex >= 9)
    ensures t.toPar.None? <==> t.totalPar <= 0
    ensures t.toPar.Some? ==> t.totalPar + t.toPar.value == t.totalScore
  {
    var shown := HolesToShow(holes, HalfOf(p.holesPlayed));
    var out, inn := OutHoles(shown), InHoles(shown);
    var lo := (h: HoleInfo) => h.holeIndex < 9;
    var hi := (h: HoleInfo) => h.holeIndex >= 9;
    SumPartition(shown, lo, hi, (h: HoleInfo) => ParOr0(p.teeId, h));
    SumPartition(shown, lo, hi, (h: HoleInfo) => ScoreOr0(p, h));
    assert |out| > 0 <==> exists h :: h in shown && h.holeIndex < 9 by {
      if |out| > 0 { assert out[0] in shown; }
    }
    assert |inn| > 0 <==> exists h :: h in shown && h.holeIndex >= 9 by {
      if |inn| > 0 { assert inn[0] in shown; }
    }
    var totalPar, totalScore := SumPar(shown, p.teeId), SumScore(shown, p);
    Totals(SumPar(out, p.teeId), SumPar(inn, p.teeId), totalPar,
      SumScore(out, p), SumScore(inn, p), totalScore,
      |out| > 0 && |inn| > 0, TotalToPar(totalPar, totalScore))
  }

  /** Holes without a par for the play's tee add nothing to a par sum, and holes
      without a score add nothing to a score sum: a missing value counts 0. */
  lemma MissingValuesAddNothing(p: CardPlay, holes: seq<HoleInfo>, extra: seq<HoleInfo>)
    ensures (forall k :: 0 <= k < |extra| ==> ParFor(extra[k], p.teeId).None?) ==>
      SumPar(holes + extra, p.teeId) == SumPar(holes, p.teeId)
    ensures (forall k :: 0 <= k < |extra| ==> ScoreFor(p, extra[k]).None?) ==>
      SumScore(holes + extra, p) == SumScore(holes, p)
  {
    var fp := (h: HoleInfo) => ParOr0(p.teeId, h);
    var fs := (h: HoleInfo) => ScoreOr0(p, h);
    SumConcat(holes, extra, fp);
    SumConcat(holes, extra, fs);
    if forall k :: 0 <= k < |extra| ==> ParFor(extra[k], p.teeId).None? {
      SumZero(extra, fp);
    }
    if forall k :: 0 <= k < |extra| ==> ScoreFor(p, extra[k]).None? {
      SumZero(extra, fs);
    }
  }

  /** A front-nine or back-nine round never shows both nines. */
  lemma HalfRoundNotFull18(p: CardPlay, holes: seq<HoleInfo>)
    requires p.holesPlayed == "front" || p.holesPlayed == "back"
    ensures !CardTotals(p, holes).full18
  {
    var shown := HolesToShow(holes, HalfOf(p.holesPlayed));
    if p.holesPlayed == "front" {
      assert forall h :: h in shown ==> h.holeIndex < 9;
    } else {
      assert forall h :: h in shown ==> h.holeIndex >= 9;
    }
  }

  /** `formatToPar`: "E" for even, a plus sign before an over-par number, and
      `String(n)` (with its minus sign) under par. */
  function FormatToPar(n: int): (s: string)
    ensures |s| > 0
    ensures s == "E" <==> n == 0
    ensures n != 0 ==> s[0] == (if n > 0 then '+' else '-')
  {
    if n == 0 then "E" else if n > 0 then "+" + IntToString(n) else IntToString(n)
  }

  /** The text `formatToPar` writes reads back, with `parseInt`, as the number it shows. */
  lemma FormatToParReadsBack(n: int)
    requires n != 0
    ensures ParseInt(FormatToPar(n)) == Finite(n)
  {
    if n > 0 {
      ParseIntPlus(n);
    } else {
      ParseIntRoundTrip(n);
    }
  }

  datatype ScoreStyle = DoubleSquare | SingleSquare | SingleCircle | DoubleCircle

  /** `getScoreStyle`: squares over par, circles under, nothing at par or without both values. */
  function GetScoreStyle(par: Option<int>, score: Option<int>): (r: Option<ScoreStyle>)
    ensures par.None? || score.None? ==> r.None?
  {
    if par.None? || score.None? then None
    else
      var diff := score.value - par.value;
      if diff >= 2 then Some(DoubleSquare)
      else if diff == 1 then Some(SingleSquare)
      else if diff == 0 then None
      else if diff == -1 then Some(SingleCircle)
      else Some(DoubleCircle)
  }

  /** A style as a signed number of marks: squares count up, circles down. */
  function Marks(s: Option<ScoreStyle>): int {
    match s
    case None => 0
    case Some(DoubleSquare) => 2
    case Some(SingleSquare) => 1
    case Some(SingleCircle) => -1
    case Some(DoubleCircle) => -2
  }

  function Clamp(x: int, lo: int, hi: int): int {
    if x < lo then lo else if x > hi then hi else x
  }

  /** The marking is the score against par, capped at two marks either way. */
  lemma ScoreStyleMarks(par: int, score: int)
    ensures Marks(GetScoreStyle(Some(par), Some(score))) == Clamp(score - par, -2, 2)
  {
  }

  /** A higher score on the same par never gets fewer marks. */
  lemma ScoreStyleMonotone(par: int, s1: int, s2: int)
    requires s1 <= s2
    ensures Marks(GetScoreStyle(Some(par), Some(s1))) <= Marks(GetScoreStyle(Some(par), Some(s2)))
  {
    ScoreStyleMarks(par, s1);
    ScoreStyleMarks(par, s2);
  }
}

=== FILE: played_page.dfy ===
/** The "played courses" account page: the user's rounds, newest first,
    grouped under the courses they were played on. */
module PlayedPage {
  import opened Wrappers
  import opened Seqs
  import opened Text
  import opened Catalog
  import opened Activity

  /** A round as the page loads it, already in the store's newest-first order. */
  datatype PlayedRound = PlayedRound(id: Id, courseId: Id, playedAt: Timestamp)

  /** A course the page can show. */
  datatype CourseSummary = CourseSummary(id: Id, displayName: string)

  /** `[...new Set(plays.map(p => p.courseId))]`: each course once, where it first appears. */
  function CourseIds(plays: seq<PlayedRound>): (r: seq<Id>)
    ensures Distinct(r)
    ensures forall c :: c in r <==> exists i :: 0 <= i < |plays| && plays[i].courseId == c
    decreases |plays|
  {
    if |plays| == 0 then []
    else
      var n := |plays| - 1;
      var prev := CourseIds(plays[..n]);
      assert forall i :: 0 <= i < n ==> plays[..n][i] == plays[i];
      if plays[n].courseId in prev then prev else prev + [plays[n].courseId]
  }

  /** Reading more rounds only appends course ids: the ids of any prefix of the
      rounds come first, in the same order. Together with the contract of
      `CourseIds` this fixes the order as that of first appearance. */
  lemma {:induction false} CourseIdsPrefix(plays: seq<PlayedRound>, k: nat)
    requires k <= |plays|
    ensures var a, b := CourseIds(plays[..k]), CourseIds(plays);
      |a| <= |b| && b[..|a|] == a
    decreases |plays| - k
  {
    if k < |plays| {
      var n := |plays| - 1;
      assert plays[..n][..k] == plays[..k];
      CourseIdsPrefix(plays[..n], k);
      assert plays[..n] == plays[..n];
    } else {
      assert plays[..k] == plays;
    }
  }

  /** The test that picks a course's rounds. */
  function OnCourse(c: Id): PlayedRound -> bool {
    (p: PlayedRound) => p.courseId == c
  }

  /** `playsByCourse`: built by walking the rounds and pushing each onto its course's list. */
  method GroupByCourse(plays: seq<PlayedRound>) returns (groups: map<Id, seq<PlayedRound>>)
    ensures forall c :: c in groups <==> exists i :: 0 <= i < |plays| && plays[i].courseId == c
    ensures forall c :: c in groups ==> groups[c] == Filter(plays, OnCourse(c))
  {
    groups := map[];
    var i := 0;
    while i < |plays|
      invariant 0 <= i <= |plays|
      invariant Grouped(plays[..i], groups)
    {
      var p := plays[i];
      var list := if p.courseId in groups then groups[p.courseId] else [];
      GroupStep(plays[..i], p, groups);
      PrefixSnoc(plays, i);
      groups := groups[p.courseId := list + [p]];
      i := i + 1;
    }
    assert plays[..i] == plays;
  }

  /** Some round in `rounds` was played on course `c`. */
  predicate Played(rounds: seq<PlayedRound>, c: Id) {
    exists j :: 0 <= j < |rounds| && rounds[j].courseId == c
  }

  /** The groups built from the rounds `done`: one per course played, holding that course's rounds in order. */
  ghost predicate Grouped(done: seq<PlayedRound>, groups: map<Id, seq<PlayedRound>>) {
    && (forall c :: c in groups <==> Played(done, c))
    && (forall c :: c in groups ==> groups[c] == Filter(done, OnCourse(c)))
  }

  /** Pushing one more round onto its course's list keeps the groups right. */
  lemma GroupStep(done: seq<PlayedRound>, p: PlayedRound, groups: map<Id, seq<PlayedRound>>)
    requires Grouped(done, groups)
    ensures Grouped(done + [p], groups[p.courseId := (if p.courseId in groups then groups[p.courseId] else []) + [p]])
  {
    GroupStepKeys(done, p, groups);
    GroupStepLists(done, p, groups);
  }

  lemma GroupStepKeys(done: seq<PlayedRound>, p: PlayedRound, groups: map<Id, seq<PlayedRound>>)
    requires forall c :: c in groups <==> Played(done, c)
    ensures forall c :: c in groups || c == p.courseId <==> Played(done + [p], c)
  {
    var post := done + [p];
    forall c: Id ensures c in groups || c == p.courseId <==> Played(post, c) {
      if c in groups {
        var j :| 0 <= j < |done| && done[j].courseId == c;
        assert post[j] == done[j];
      }
      if c == p.courseId {
        assert post[|done|] == p;
      }
      if Played(post, c) {
        var j :| 0 <= j < |post| && post[j].courseId == c;
        if j < |done| {
          assert done[j] == post[j];
        }
      }
    }
  }

  lemma GroupStepLists(done: seq<PlayedRound>, p: PlayedRound, groups: map<Id, seq<PlayedRound>>)
    requires Grouped(done, groups)
    ensures var g := groups[p.courseId := (if p.courseId in groups then groups[p.courseId] else []) + [p]];
      forall c :: c in g ==> g[c] == Filter(done + [p], OnCourse(c))
  {
    var post := done + [p];
    forall c
      ensures Filter(post, OnCourse(c)) == Filter(done, OnCourse(c)) + (if c == p.courseId then [p] else [])
    {
      FilterSnoc(done, p, OnCourse(c));
    }
    if p.courseId !in groups {
      FilterNone(done, OnCourse(p.courseId));
    }
  }

  /** No element passes: nothing is kept. */
  lemma {:induction false} FilterNone(s: seq<PlayedRound>, p: PlayedRound -> bool)
    requires forall j :: 0 <= j < |s| ==> !p(s[j])
    ensures Filter(s, p) == []
    decreases |s|
  {
    if |s| > 0 {
      FilterNone(s[1..], p);
    }
  }

  /** Each round is in its own course's group and in no other, and a group keeps the rounds' order. */
  lemma GroupsPartitionRounds(plays: seq<PlayedRound>, c: Id)
    ensures forall p :: p in Filter(plays, OnCourse(c)) <==> p in plays && p.courseId == c
    ensures SubseqOf(Filter(plays, OnCourse(c)), plays)
  {
    FilterIsSubseq(plays, OnCourse(c));
  }

  /** The page body: nothing when signed out; otherwise the count label and one
      item per course id that names a loaded course, in course-id order. */
  datatype PlayedView = PlayedView(count: int, items: seq<(CourseSummary, seq<PlayedRound>)>)

  function Items(ids: seq<Id>, courseById: map<Id, CourseSummary>, groups: map<Id, seq<PlayedRound>>): (r: seq<(CourseSummary, seq<PlayedRound>)>)
    ensures |r| <= |ids|
    ensures forall x :: x in r ==> exists c :: c in ids && c in courseById && x.0 == courseById[c] && x.1 == (if c in groups then groups[c] else [])
    decreases |ids|
  {
    if |ids| == 0 then []
    else
      var rest := Items(ids[1..], courseById, groups);
      assert forall c :: c in ids[1..] ==> c in ids;
      if ids[0] !in courseById then rest
      else
        var item := (courseById[ids[0]], if ids[0] in groups then groups[ids[0]] else []);
        assert ([item] + rest)[1..] == rest;
        [item] + rest
  }

  /** The test that keeps the ids the course query returned. */
  function Loaded(courseById: map<Id, CourseSummary>): Id -> bool {
    (c: Id) => c in courseById
  }

  /** Ids the course query did not return are skipped, and only those. */
  lemma {:induction false} ItemsSkipMissing(ids: seq<Id>, courseById: map<Id, CourseSummary>, groups: map<Id, seq<PlayedRound>>)
    ensures |Items(ids, courseById, groups)| == |Filter(ids, Loaded(courseById))|
    decreases |ids|
  {
    if |ids| > 0 {
      ItemsSkipMissing(ids[1..], courseById, groups);
    }
  }

  /** Item `k` is the `k`-th of the ids `f`, with its course and its group. */
  ghost predicate ItemsMatch(f: seq<Id>, r: seq<(CourseSummary, seq<PlayedRound>)>,
                             courseById: map<Id, CourseSummary>, groups: map<Id, seq<PlayedRound>>) {
    && |r| == |f|
    && forall k :: 0 <= k < |f| ==>
         f[k] in courseById && r[k] == (courseById[f[k]], if f[k] in groups then groups[f[k]] else [])
  }

  /** Item `k` belongs to the `k`-th id the course query returned, in id order. */
  lemma {:induction false} ItemsAt(ids: seq<Id>, courseById: map<Id, CourseSummary>, groups: map<Id, seq<PlayedRound>>)
    ensures ItemsMatch(Filter(ids, Loaded(courseById)), Items(ids, courseById, groups), courseById, groups)
    decreases |ids|
  {
    if |ids| > 0 {
      ItemsAt(ids[1..], courseById, groups);
      var f, r := Filter(ids, Loaded(courseById)), Items(ids, courseById, groups);
      var f', r' := Filter(ids[1..], Loaded(courseById)), Items(ids[1..], courseById, groups);
      if ids[0] in courseById {
        var c := ids[0];
        assert f == [c] + f';
        assert r == [(courseById[c], if c in groups then groups[c] else [])] + r';
        ItemsMatchCons(c, f', r', courseById, groups);
      } else {
        assert f == f' && r == r';
      }
    }
  }

  lemma ItemsMatchCons(c: Id, f: seq<Id>, r: seq<(CourseSummary, seq<PlayedRound>)>,
                       courseById: map<Id, CourseSummary>, groups: map<Id, seq<PlayedRound>>)
    requires c in courseById && ItemsMatch(f, r, courseById, groups)
    ensures ItemsMatch([c] + f, [(courseById[c], if c in groups then groups[c] else [])] + r, courseById, groups)
  {
    var f2, r2 := [c] + f, [(courseById[c], if c in groups then groups[c] else [])] + r;
    forall k | 0 < k < |f2|
      ensures f2[k] in courseById && r2[k] == (courseById[f2[k]], if f2[k] in groups then groups[f2[k]] else [])
    {
      assert f2[k] == f[k - 1] && r2[k] == r[k - 1];
    }
  }

  /** The page: nothing when signed out; otherwise the number of courses played,
      and one item per played course the query returned, in first-play order,
      holding that course's rounds in their order. */
  method PlayedPage(session: Option<UserId>, plays: seq<PlayedRound>, courseById: map<Id, CourseSummary>) returns (v: Option<PlayedView>)
    ensures v.None? <==> !SignedIn(session)
    ensures v.Some? ==> v.value.count == |CourseIds(plays)|
    ensures v.Some? ==> |v.value.items| <= v.value.count
    ensures v.Some? ==>
      var shown := Filter(CourseIds(plays), Loaded(courseById));
      && |v.value.items| == |shown|
      && forall k :: 0 <= k < |shown| ==>
           shown[k] in courseById && v.value.items[k] == (courseById[shown[k]], Filter(plays, OnCourse(shown[k])))
  {
    if !SignedIn(session) {
      return None;
    }
    var ids := CourseIds(plays);
    var groups := GroupByCourse(plays);
    var items := Items(ids, courseById, groups);
    ItemsAt(ids, courseById, groups);
    var shown := Filter(ids, Loaded(courseById));
    forall k | 0 <= k < |shown|
      ensures shown[k] in courseById && items[k] == (courseById[shown[k]], Filter(plays, OnCourse(shown[k])))
    {
      assert shown[k] in ids;
    }
    return Some(PlayedView(|ids|, items));
  }

  /** "n course(s) played". */
  function CountLabel(n: nat): (s: string) {
    NatToString(n) + " course" + (if n != 1 then "s" else "") + " played"
  }

  /** The label starts with the count, as a number `parseInt` reads back. */
  lemma CountLabelNumber(n: nat)
    ensures ParseInt(CountLabel(n)) == Finite(n)
  {
    var rest := " course" + (if n != 1 then "s" else "") + " played";
    assert CountLabel(n) == IntToString(n) + rest;
    ParseIntPrefix(n, rest);
  }
}

=== FILE: query_params.dfy ===
/** `URLSearchParams`, as the course list and its filter form use it: an
    ordered list of key/value entries in which a key may repeat. */
module QueryParams {
  import opened Wrappers

  type Params = seq<(string, string)>

  /** `getAll(k)`: the values of the entries with key `k`, in order. */
  function Values(ps: Params, k: string): (r: seq<string>)
    ensures |r| <= |ps|
    decreases |ps|
  {
    if |ps| == 0 then []
    else (if ps[0].0 == k then [ps[0].1] else []) + Values(ps[1..], k)
  }

  lemma {:induction false} ValuesConcat(a: Params, b: Params, k: string)
    ensures Values(a + b, k) == Values(a, k) + Values(b, k)
    decreases |a|
  {
    if |a| > 0 {
      assert (a + b)[1..] == a[1..] + b;
      ValuesConcat(a[1..], b, k);
    } else {
      assert a + b == b;
    }
  }

  /** A key has no values exactly when no entry carries it. */
  lemma {:induction false} ValuesEmpty(ps: Params, k: string)
    ensures Values(ps, k) == [] <==> forall i :: 0 <= i < |ps| ==> ps[i].0 != k
    decreases |ps|
  {
    if |ps| > 0 {
      ValuesEmpty(ps[1..], k);
      assert forall i :: 0 < i < |ps| ==> ps[i] == ps[1..][i - 1];
    }
  }

  /** `get(k)`: the value of the first entry with key `k`. */
  function Get(ps: Params, k: string): (r: Option<string>)
    ensures r.None? <==> forall i :: 0 <= i < |ps| ==> ps[i].0 != k
    ensures r.Some? ==> exists i :: 0 <= i < |ps| && ps[i] == (k, r.value) && forall j :: 0 <= j < i ==> ps[j].0 != k
    decreases |ps|
  {
    if |ps| == 0 then None
    else if ps[0].0 == k then
      assert ps[0] == (k, ps[0].1);
      Some(ps[0].1)
    else
      var r := Get(ps[1..], k);
      assert forall i :: 0 < i < |ps| ==> ps[i] == ps[1..][i - 1];
      r
  }

  /** `get` is the first of `getAll`. */
  lemma {:induction false} GetFirstValue(ps: Params, k: string)
    ensures Get(ps, k) == (if Values(ps, k) == [] then None else Some(Values(ps, k)[0]))
    decreases |ps|
  {
    if |ps| > 0 && ps[0].0 != k {
      GetFirstValue(ps[1..], k);
    }
  }

  /** `delete(k)`: every entry with key `k` goes, the rest stay in order. */
  function Delete(ps: Params, k: string): (r: Params)
    ensures Values(r, k) == []
    ensures forall k' :: k' != k ==> Values(r, k') == Values(ps, k')
    ensures forall e :: e in r <==> e in ps && e.0 != k
    decreases |ps|
  {
    if |ps| == 0 then []
    else
      var rest := Delete(ps[1..], k);
      if ps[0].0 == k then rest
      else
        assert ([ps[0]] + rest)[1..] == rest;
        [ps[0]] + rest
  }

  /** Replaces the first entry with key `k` by `(k, v)` and drops the later ones. */
  function ReplaceFirst(ps: Params, k: string, v: string): (r: Params)
    requires exists i :: 0 <= i < |ps| && ps[i].0 == k
    ensures Values(r, k) == [v]
    ensures forall k' :: k' != k ==> Values(r, k') == Values(ps, k')
    ensures forall e :: e in r ==> e in ps || e == (k, v)
    decreases |ps|
  {
    if ps[0].0 == k then
      var rest := Delete(ps[1..], k);
      assert ([(k, v)] + rest)[1..] == rest;
      [(k, v)] + rest
    else
      assert exists i :: 0 <= i < |ps[1..]| && ps[1..][i].0 == k by {
        var i :| 0 <= i < |ps| && ps[i].0 == k;
        assert ps[1..][i - 1] == ps[i];
      }
      var rest := ReplaceFirst(ps[1..], k, v);
      assert ([ps[0]] + rest)[1..] == rest;
      [ps[0]] + rest
  }

  /** `set(k, v)`: afterwards `k` has the single value `v`, in place of its first
      entry if it had one and at the end otherwise; no other key changes. */
  function Set(ps: Params, k: string, v: string): (r: Params)
    ensures Values(r, k) == [v]
    ensures forall k' :: k' != k ==> Values(r, k') == Values(ps, k')
    ensures forall e :: e in r ==> e in ps || e == (k, v)
    ensures (forall i :: 0 <= i < |ps| ==> ps[i].0 != k) ==> r == ps + [(k, v)]
  {
    if exists i :: 0 <= i < |ps| && ps[i].0 == k then ReplaceFirst(ps, k, v)
    else
      ValuesEmpty(ps, k);
      ValuesConcat(ps, [(k, v)], k);
      assert forall k' :: k' != k ==> Values(ps + [(k, v)], k') == Values(ps, k') by {
        forall k' | k' != k
          ensures Values(ps + [(k, v)], k') == Values(ps, k')
        {
          ValuesConcat(ps, [(k, v)], k');
        }
      }
      ps + [(k, v)]
  }

  /** Setting a key twice leaves what setting it once to the second value does, as far as `getAll` can tell. */
  lemma SetSet(ps: Params, k: string, v1: string, v2: string, key: string)
    ensures Values(Set(Set(ps, k, v1), k, v2), key) == Values(Set(ps, k, v2), key)
  {
  }

  /** One entry as `toString` writes it. Percent-encoding is not modelled. */
  function Piece(e: (string, string)): string {
    e.0 + "=" + e.1
  }

  /** `toString`: the entries' `k=v` pieces joined by `&`. */
  function Serialize(ps: Params): string
    decreases |ps|
  {
    if |ps| == 0 then ""
    else if |ps| == 1 then Piece(ps[0])
    else Piece(ps[0]) + "&" + Serialize(ps[1..])
  }

  /** `s` cut at every `c`. */
  function Split(s: string, c: char): (r: seq<string>)
    ensures |r| > 0
    decreases |s|
  {
    if |s| == 0 then [""]
    else
      var rest := Split(s[1..], c);
      if s[0] == c then [""] + rest else [[s[0]] + rest[0]] + rest[1..]
  }

  lemma {:induction false} SplitNoSeparator(x: string, c: char)
    requires c !in x
    ensures Split(x, c) == [x]
    decreases |x|
  {
    if |x| > 0 {
      assert x[1..][..] == x[1..];
      SplitNoSeparator(x[1..], c);
      assert [x[0]] + x[1..] == x;
    }
  }

  lemma {:induction false} SplitFirst(x: string, c: char, rest: string)
    requires c !in x
    ensures Split(x + [c] + rest, c) == [x] + Split(rest, c)
    decreases |x|
  {
    var s := x + [c] + rest;
    if |x| == 0 {
      assert s[0] == c && s[1..] == rest;
    } else {
      assert s[0] == x[0] && s[1..] == x[1..] + [c] + rest;
      SplitFirst(x[1..], c, rest);
      assert [x[0]] + x[1..] == x;
    }
  }

  /** Index of the first `c` in `s`. */
  function IndexOf(s: string, c: char): (r: Option<nat>)
    ensures r.None? <==> c !in s
    ensures r.Some? ==> r.value < |s| && s[r.value] == c && c !in s[..r.value]
    decreases |s|
  {
    if |s| == 0 then None
    else if s[0] == c then Some(0)
    else
      var r := IndexOf(s[1..], c);
      if r.None? then None
      else
        assert s[..r.value + 1] == [s[0]] + s[1..][..r.value];
        Some(r.value + 1)
  }

  /** One piece read back: cut at its first `=`; without one the value is empty. */
  function ParsePiece(p: string): (string, string) {
    var i := IndexOf(p, '=');
    if i.None? then (p, "") else (p[..i.value], p[i.value + 1..])
  }

  /** The constructor's reading of the pieces: empty pieces are skipped. */
  function ParsePieces(pieces: seq<string>): Params
    decreases |pieces|
  {
    if |pieces| == 0 then []
    else if pieces[0] == "" then ParsePieces(pieces[1..])
    else [ParsePiece(pieces[0])] + ParsePieces(pieces[1..])
  }

  /** `new URLSearchParams(s)` for a string without a leading `?`. */
  function Parse(s: string): Params {
    ParsePieces(Split(s, '&'))
  }

  /** Keys without `=` or `&` and values without `&`: what percent-encoding guarantees. */
  predicate Plain(ps: Params) {
    forall e :: e in ps ==> '=' !in e.0 && '&' !in e.0 && '&' !in e.1
  }

  lemma PieceRoundTrip(e: (string, string))
    requires '=' !in e.0
    ensures ParsePiece(Piece(e)) == e
  {
    var p := Piece(e);
    assert p[|e.0|] == '=' && p[..|e.0|] == e.0 && p[|e.0| + 1..] == e.1;
    assert '=' !in p[..|e.0|];
  }

  /** Reading back what `toString` writes gives the same entries. */
  lemma {:induction false} SerializeRoundTrip(ps: Params)
    requires Plain(ps)
    ensures Parse(Serialize(ps)) == ps
    decreases |ps|
  {
    if |ps| == 0 {
      assert Split("", '&') == [""];
    } else {
      PlainHead(ps);
      PieceRoundTrip(ps[0]);
      if |ps| == 1 {
        ParseSingle(Piece(ps[0]));
        assert ps == [ps[0]];
      } else {
        PlainTail(ps);
        SerializeRoundTrip(ps[1..]);
        ParseCons(Piece(ps[0]), Serialize(ps[1..]));
        assert ps == [ps[0]] + ps[1..];
      }
    }
  }

  /** The first entry of plain entries writes a non-empty piece without `&`. */
  lemma PlainHead(ps: Params)
    requires Plain(ps) && |ps| > 0
    ensures '=' !in ps[0].0 && '&' !in Piece(ps[0]) && Piece(ps[0]) != ""
  {
    assert ps[0] in ps;
    var p := Piece(ps[0]);
    assert forall c :: c in p ==> c in ps[0].0 || c == '=' || c in ps[0].1;
    assert p[|ps[0].0|] == '=';
  }

  lemma PlainTail(ps: Params)
    requires Plain(ps) && |ps| > 0
    ensures Plain(ps[1..])
  {
    forall e | e in ps[1..]
      ensures e in ps
    {
    }
  }

  /** A lone piece reads back as one entry. */
  lemma ParseSingle(p: string)
    requires '&' !in p && p != ""
    ensures Parse(p) == [ParsePiece(p)]
  {
    SplitNoSeparator(p, '&');
    assert Parse(p) == [ParsePiece(p)] + ParsePieces([]);
  }

  /** A piece followed by `&` reads back as its entry followed by the rest's. */
  lemma ParseCons(p: string, rest: string)
    requires '&' !in p && p != ""
    ensures Parse(p + "&" + rest) == [ParsePiece(p)] + Parse(rest)
  {
    SplitFirst(p, '&', rest);
    var pieces := [p] + Split(rest, '&');
    assert pieces[1..] == Split(rest, '&');
  }
}

=== FILE: score_form.dfy ===
/** The client-side score check both play dialogs run before saving: the
    overall score and the per-hole scores are parsed with `parseInt`, and when
    an overall score is given and every shown hole is scored, their sum must
    equal it. */
module ScoreForm {
  import opened Wrappers
  import opened Seqs
  import opened Text
  import opened Catalog
  import opened Holes

  /** `overallScore.trim() ? parseInt(overallScore, 10) : undefined`. */
  function OverallNumber(text: string): (r: Option<Num>)
    ensures r.None? <==> AllSpace(text)
    ensures r.Some? ==> r.value == ParseInt(text)
  {
    TrimEmpty(text);
    if Trim(text) != "" then Some(ParseInt(text)) else None
  }

  /** `note.trim() || null`. */
  function ClientNote(note: string): (r: Option<string>)
    ensures r.None? <==> AllSpace(note)
    ensures r.Some? ==> r.value == Trim(note) && r.value != ""
  {
    TrimEmpty(note);
    NonEmpty(Trim(note))
  }

  /** `holeScoresNum`: the entries whose text parses to a finite integer. */
  function ParsedScores(entries: map<Id, string>): (m: map<Id, int>)
    ensures forall k :: k in m <==> k in entries && ParseInt(entries[k]).Finite?
    ensures forall k :: k in m ==> ParseInt(entries[k]) == Finite(m[k])
  {
    map k | k in entries && ParseInt(entries[k]).Finite? :: ParseInt(entries[k]).value
  }

  /** `hasAllHoleScores`: there is a shown hole, and each has an entry that parses. */
  predicate AllScored(shown: seq<HoleInfo>, entries: map<Id, string>) {
    && |shown| > 0
    && forall i :: 0 <= i < |shown| ==> shown[i].id in entries && ParseInt(entries[shown[i].id]).Finite?
  }

  /** The parsed score of a hole, 0 when it has none. */
  function ScoreOr0(nums: map<Id, int>, h: HoleInfo): int {
    if h.id in nums then nums[h.id] else 0
  }

  /** `holesToShow.reduce((sum, h) => sum + (holeScoresNum[h.id] ?? 0), 0)`. */
  function HoleSum(shown: seq<HoleInfo>, nums: map<Id, int>): int {
    Sum(shown, (h: HoleInfo) => ScoreOr0(nums, h))
  }

  datatype Check = Agrees | Mismatch(holeSum: int, overall: Num)

  /** The consistency check. A NaN overall score equals no sum, so it is a mismatch too. */
  function CheckScores(shown: seq<HoleInfo>, overall: string, entries: map<Id, string>): (c: Check)
    ensures c.Mismatch? <==>
      && OverallNumber(overall).Some? && AllScored(shown, entries)
      && OverallNumber(overall).value != Finite(HoleSum(shown, ParsedScores(entries)))
    ensures c.Mismatch? ==> c.overall == ParseInt(overall) && c.holeSum == HoleSum(shown, ParsedScores(entries))
  {
    var scoreNum := OverallNumber(overall);
    if scoreNum.Some? && AllScored(shown, entries) then
      var holeSum := HoleSum(shown, ParsedScores(entries));
      if scoreNum.value != Finite(holeSum) then Mismatch(holeSum, scoreNum.value) else Agrees
    else Agrees
  }

  /** Scores typed as the decimal text of integers whose sum is the typed overall
      score pass the check. */
  lemma ConsistentScoresPass(shown: seq<HoleInfo>, scores: map<Id, int>, entries: map<Id, string>)
    requires forall i :: 0 <= i < |shown| ==> shown[i].id in scores && shown[i].id in entries
    requires forall i :: 0 <= i < |shown| ==> entries[shown[i].id] == IntToString(scores[shown[i].id])
    ensures CheckScores(shown, IntToString(HoleSum(shown, scores)), entries) == Agrees
  {
    var total := HoleSum(shown, scores);
    var text := IntToString(total);
    ParseIntRoundTrip(total);
    assert !AllSpace(text) by { assert !IsSpace(text[0]); }
    var nums := ParsedScores(entries);
    forall i | 0 <= i < |shown| ensures ScoreOr0(nums, shown[i]) == ScoreOr0(scores, shown[i]) {
      ParseIntRoundTrip(scores[shown[i].id]);
    }
    SumCongruent(shown, (h: HoleInfo) => ScoreOr0(nums, h), (h: HoleInfo) => ScoreOr0(scores, h));
  }

  /** An overall score that does not parse is rejected whenever every shown hole is scored. */
  lemma UnparsableOverallRejected(shown: seq<HoleInfo>, overall: string, entries: map<Id, string>)
    requires !AllSpace(overall) && ParseInt(overall) == NaN
    requires AllScored(shown, entries)
    ensures CheckScores(shown, overall, entries).Mismatch?
  {
  }
}

=== FILE: seqs.dfy ===
/** Sequence helpers shared by the model: the order-preserving `Array.filter`,
    the left-to-right numeric `reduce`, and `new Map(pairs)` where later pairs win. */
module Seqs {

  /** `a` is obtained from `b` by deleting elements, keeping the order of the rest. */
  predicate SubseqOf<T(==)>(a: seq<T>, b: seq<T>)
    decreases |b|
  {
    |a| == 0 || (|b| > 0 && if a[0] == b[0] then SubseqOf(a[1..], b[1..]) else SubseqOf(a, b[1..]))
  }

  lemma {:induction false} SubseqRefl<T>(s: seq<T>)
    ensures SubseqOf(s, s)
    decreases |s|
  {
    if |s| > 0 {
      SubseqRefl(s[1..]);
    }
  }

  predicate Distinct<T(==)>(s: seq<T>) {
    forall i, j :: 0 <= i < j < |s| ==> s[i] != s[j]
  }

  /** `Array.prototype.filter`. */
  function Filter<T(==)>(s: seq<T>, p: T -> bool): (r: seq<T>)
    ensures |r| <= |s|
    ensures forall i :: 0 <= i < |r| ==> r[i] in s && p(r[i])
    ensures forall i :: 0 <= i < |s| && p(s[i]) ==> s[i] in r
    decreases |s|
  {
    if |s| == 0 then []
    else if p(s[0]) then [s[0]] + Filter(s[1..], p)
    else Filter(s[1..], p)
  }

  lemma {:induction false} FilterIsSubseq<T>(s: seq<T>, p: T -> bool)
    ensures SubseqOf(Filter(s, p), s)
    decreases |s|
  {
    if |s| > 0 {
      FilterIsSubseq(s[1..], p);
      var r := Filter(s, p);
      if p(s[0]) {
        assert r[0] == s[0] && r[1..] == Filter(s[1..], p);
      } else if |r| > 0 {
        assert p(r[0]);
      }
    }
  }

  /** Filtering by `p` and by its negation `q` splits `s` without loss or duplication. */
  lemma {:induction false} FilterPartition<T>(s: seq<T>, p: T -> bool, q: T -> bool)
    requires forall i :: 0 <= i < |s| ==> q(s[i]) == !p(s[i])
    ensures multiset(Filter(s, p)) + multiset(Filter(s, q)) == multiset(s)
    decreases |s|
  {
    if |s| > 0 {
      FilterPartition(s[1..], p, q);
      assert s == [s[0]] + s[1..];
    }
  }

  /** Filtering keeps distinct elements distinct. */
  lemma {:induction false} FilterDistinct<T>(s: seq<T>, p: T -> bool)
    ensures Distinct(s) ==> Distinct(Filter(s, p))
    decreases |s|
  {
    if |s| > 0 && Distinct(s) {
      var tail := s[1..];
      assert forall i, j :: 0 <= i < j < |tail| ==> tail[i] == s[i + 1] && tail[j] == s[j + 1];
      FilterDistinct(tail, p);
      assert s[0] !in tail;
    }
  }

  /** Filtering twice keeps exactly what both predicates accept. */
  lemma {:induction false} FilterFilter<T>(s: seq<T>, p: T -> bool, q: T -> bool, pq: T -> bool)
    requires forall i :: 0 <= i < |s| ==> pq(s[i]) == (p(s[i]) && q(s[i]))
    ensures Filter(Filter(s, p), q) == Filter(s, pq)
    decreases |s|
  {
    if |s| > 0 {
      FilterFilter(s[1..], p, q, pq);
    }
  }

  /** Filtering a list with one more element at the end. */
  lemma {:induction false} FilterSnoc<T>(s: seq<T>, x: T, p: T -> bool)
    ensures Filter(s + [x], p) == Filter(s, p) + (if p(x) then [x] else [])
    decreases |s|
  {
    if |s| == 0 {
      assert s + [x] == [x];
      assert [x][1..] == [];
    } else {
      assert (s + [x])[1..] == s[1..] + [x];
      FilterSnoc(s[1..], x, p);
    }
  }

  /** Filtering keeps everything when every element passes. */
  lemma {:induction false} FilterAll<T>(s: seq<T>, p: T -> bool)
    requires forall i :: 0 <= i < |s| ==> p(s[i])
    ensures Filter(s, p) == s
    decreases |s|
  {
    if |s| > 0 {
      FilterAll(s[1..], p);
      assert s == [s[0]] + s[1..];
    }
  }

  /** A prefix one longer is the prefix with the next element appended. */
  lemma PrefixSnoc<T>(xs: seq<T>, i: int)
    requires 0 <= i < |xs|
    ensures xs[..i + 1] == xs[..i] + [xs[i]]
  {
  }

  /** `reduce((acc, x) => acc + f(x), 0)`. */
  function Sum<T>(s: seq<T>, f: T -> int): int
    decreases |s|
  {
    if |s| == 0 then 0 else f(s[0]) + Sum(s[1..], f)
  }

  lemma {:induction false} SumConcat<T>(a: seq<T>, b: seq<T>, f: T -> int)
    ensures Sum(a + b, f) == Sum(a, f) + Sum(b, f)
    decreases |a|
  {
    if |a| > 0 {
      assert (a + b)[1..] == a[1..] + b;
      SumConcat(a[1..], b, f);
    } else {
      assert a + b == b;
    }
  }

  /** Sums of two functions that agree on every element are equal. */
  lemma {:induction false} SumCongruent<T>(s: seq<T>, f: T -> int, g: T -> int)
    requires forall i :: 0 <= i < |s| ==> f(s[i]) == g(s[i])
    ensures Sum(s, f) == Sum(s, g)
    decreases |s|
  {
    if |s| > 0 {
      SumCongruent(s[1..], f, g);
    }
  }

  /** Summing the two halves of a split gives the sum of the whole. */
  lemma {:induction false} SumPartition<T>(s: seq<T>, p: T -> bool, q: T -> bool, f: T -> int)
    requires forall i :: 0 <= i < |s| ==> q(s[i]) == !p(s[i])
    ensures Sum(Filter(s, p), f) + Sum(Filter(s, q), f) == Sum(s, f)
    decreases |s|
  {
    if |s| > 0 {
      SumPartition(s[1..], p, q, f);
      if p(s[0]) {
        SumConcat([s[0]], Filter(s[1..], p), f);
      } else {
        SumConcat([s[0]], Filter(s[1..], q), f);
      }
    }
  }

  /** A sum over elements that all contribute zero is zero. */
  lemma {:induction false} SumZero<T>(s: seq<T>, f: T -> int)
    requires forall i :: 0 <= i < |s| ==> f(s[i]) == 0
    ensures Sum(s, f) == 0
    decreases |s|
  {
    if |s| > 0 {
      SumZero(s[1..], f);
    }
  }

  /** Position `i` holds the last pair whose key is `pairs[i].0`. */
  predicate IsLastKey<K(==), V>(pairs: seq<(K, V)>, i: int) {
    0 <= i < |pairs| && forall j :: i < j < |pairs| ==> pairs[j].0 != pairs[i].0
  }

  /** `new Map(pairs)`: every key present, and a repeated key keeps its last value. */
  function MapFromPairs<K(==), V>(pairs: seq<(K, V)>): (m: map<K, V>)
    ensures m.Keys == set i | 0 <= i < |pairs| :: pairs[i].0
    ensures forall i :: IsLastKey(pairs, i) ==> pairs[i].0 in m && m[pairs[i].0] == pairs[i].1
    decreases |pairs|
  {
    if |pairs| == 0 then map[]
    else
      var n := |pairs| - 1;
      var front := pairs[..n];
      var m := MapFromPairs(front);
      PairKeysSnoc(pairs, front);
      LastKeysAfterUpdate(pairs, front, m);
      m[pairs[n].0 := pairs[n].1]
  }

  lemma PairKeysSnoc<K, V>(pairs: seq<(K, V)>, front: seq<(K, V)>)
    requires |pairs| > 0 && front == pairs[..|pairs| - 1]
    ensures (set i | 0 <= i < |pairs| :: pairs[i].0) == (set i | 0 <= i < |front| :: front[i].0) + {pairs[|pairs| - 1].0}
  {
    var l, r := set i | 0 <= i < |pairs| :: pairs[i].0, set i | 0 <= i < |front| :: front[i].0;
    forall k | k in l ensures k in r + {pairs[|pairs| - 1].0} {
      var i :| 0 <= i < |pairs| && pairs[i].0 == k;
      if i < |front| {
        assert front[i] == pairs[i];
      }
    }
    forall k | k in r ensures k in l {
      var i :| 0 <= i < |front| && front[i].0 == k;
      assert pairs[i] == front[i];
    }
    assert pairs[|pairs| - 1].0 in l;
  }

  /** Two maps with the same keys and the same value at each key are equal. */
  lemma SameMaps<K, V>(m: map<K, V>, n: map<K, V>)
    requires forall k :: k in n ==> k in m && m[k] == n[k]
    requires forall k :: k in m ==> k in n
    ensures m == n
  {
  }

  /** Adding the last pair to the map of the others puts every last occurrence in place. */
  lemma LastKeysAfterUpdate<K, V>(pairs: seq<(K, V)>, front: seq<(K, V)>, m: map<K, V>)
    requires |pairs| > 0 && front == pairs[..|pairs| - 1]
    requires forall i :: IsLastKey(front, i) ==> front[i].0 in m && m[front[i].0] == front[i].1
    ensures forall i :: IsLastKey(pairs, i) ==>
      pairs[i].0 in m[pairs[|pairs| - 1].0 := pairs[|pairs| - 1].1] && m[pairs[|pairs| - 1].0 := pairs[|pairs| - 1].1][pairs[i].0] == pairs[i].1
  {
    var n := |pairs| - 1;
    var m' := m[pairs[n].0 := pairs[n].1];
    forall i | IsLastKey(pairs, i) ensures pairs[i].0 in m' && m'[pairs[i].0] == pairs[i].1 {
      if i < n {
        assert front[i] == pairs[i];
        assert IsLastKey(front, i);
      }
    }
  }

  /** Every key of a pair list has a last occurrence. */
  lemma {:induction false} LastKeyExists<K, V>(pairs: seq<(K, V)>, k: K)
    requires exists i :: 0 <= i < |pairs| && pairs[i].0 == k
    ensures exists i :: IsLastKey(pairs, i) && pairs[i].0 == k
    decreases |pairs|
  {
    var n := |pairs| - 1;
    if pairs[n].0 == k {
      assert IsLastKey(pairs, n);
    } else {
      var i0 :| 0 <= i0 < |pairs| && pairs[i0].0 == k;
      assert pairs[..n][i0].0 == k;
      LastKeyExists(pairs[..n], k);
      var i :| IsLastKey(pairs[..n], i) && pairs[..n][i].0 == k;
      assert IsLastKey(pairs, i);
    }
  }
}

=== FILE: sync.dfy ===
/** The sync endpoint: the shared-secret check, the course upsert keyed by the
    upstream `trackmanId`, and the delete-and-rebuild of a course's tees, holes
    and per-hole-per-tee rows from one feed record. Courses are synced one after
    another in feed order. */
module Sync {
  import opened Wrappers
  import opened Seqs
  import opened Catalog

  // ---- Trigger authentication ----

  /** The parts of the incoming request the endpoint reads. */
  datatype SyncRequest = SyncRequest(authorization: Option<string>, secretParam: Option<string>)

  const Bearer: string := "Bearer "

  /** The credential: the header text after "Bearer " when the header starts
      with it, otherwise the `secret` query parameter. */
  function CronSecret(req: SyncRequest): (r: Option<string>)
    ensures req.authorization.Some? && Bearer <= req.authorization.value ==>
              r.Some? && Bearer + r.value == req.authorization.value
    ensures !(req.authorization.Some? && Bearer <= req.authorization.value) ==> r == req.secretParam
  {
    if req.authorization.Some? && Bearer <= req.authorization.value then
      var h := req.authorization.value;
      assert h == Bearer + h[|Bearer|..];
      Some(h[|Bearer|..])
    else req.secretParam
  }

  /** A bearer header always wins over the query parameter and yields its token. */
  lemma BearerTokenWins(token: string, param: Option<string>)
    ensures CronSecret(SyncRequest(Some(Bearer + token), param)) == Some(token)
  {
    var h := Bearer + token;
    assert Bearer <= h;
    assert h[|Bearer|..] == token;
  }

  /** `!expected || secret !== expected` fails the request: the configured secret
      must be set, non-empty, and equal to the credential. */
  predicate Authorized(expected: Option<string>, req: SyncRequest) {
    expected.Some? && expected.value != "" && CronSecret(req) == expected
  }

  /** An accepted request always carried a non-empty credential. */
  lemma AuthorizedHasCredential(expected: Option<string>, req: SyncRequest)
    requires Authorized(expected, req)
    ensures CronSecret(req).Some? && CronSecret(req).value != ""
  {
  }

  /** The upstream fetch: the course list, or the message of the thrown error
      (`None` when what was thrown is not an `Error`). */
  datatype Fetch = Fetched(items: seq<FeedCourse>) | FetchFailed(message: Option<string>)

  datatype Response = Unauthorized | Synced(count: nat) | Failed(message: string)

  function Status(r: Response): int {
    match r
    case Unauthorized => 401
    case Synced(_) => 200
    case Failed(_) => 500
  }

  // ---- Course mapping ----

  function ImageUrl(item: FeedCourse): Option<string> {
    if item.image.Some? then item.image.value.url else None
  }

  function VideoUrl(item: FeedCourse): Option<string> {
    if item.video.Some? then item.video.value.url else None
  }

  function Latitude(item: FeedCourse): Option<real> {
    if item.worldLocation.Some? then item.worldLocation.value.latitude else None
  }

  function Longitude(item: FeedCourse): Option<real> {
    if item.worldLocation.Some? then item.worldLocation.value.longitude else None
  }

  function MapUrl(item: FeedCourse): Option<string> {
    if item.worldLocation.Some? then item.worldLocation.value.googleMapUrl else None
  }

  /** `item.createdAt ? new Date(item.createdAt) : undefined`: an empty text counts as absent. */
  function CreatedAt(item: FeedCourse): Option<string> {
    if item.createdAt.Some? && item.createdAt.value != "" then item.createdAt else None
  }

  /** The row written when no course has the item's `trackmanId` yet. */
  function MapCourseCreate(item: FeedCourse, syncedAt: Timestamp): (r: CourseRow)
    ensures r.trackmanId == item.id && r.displayName == item.displayName && r.syncedAt == syncedAt
    ensures r.tags == item.tags.GetOr([])
  {
    CourseRow(item.id, item.dbId, CreatedAt(item), item.description, item.displayName,
              item.numbersOfHoles, item.courseLocation, item.difficulty, item.tags.GetOr([]),
              ImageUrl(item), VideoUrl(item), Latitude(item), Longitude(item), MapUrl(item), syncedAt)
  }

  /** The update written to an existing course; it names neither `trackmanId` nor `createdAt`. */
  function MapCourseUpdate(item: FeedCourse, syncedAt: Timestamp): CourseUpdate {
    CourseUpdate(item.dbId, item.description, item.displayName, item.numbersOfHoles,
                 item.courseLocation, item.difficulty, item.tags.GetOr([]),
                 ImageUrl(item), VideoUrl(item), Latitude(item), Longitude(item), MapUrl(item), syncedAt)
  }

  /** An `undefined` field leaves the stored value. */
  function Overwrite<T>(stored: Option<T>, given: Option<T>): Option<T> {
    if given.Some? then given else stored
  }

  /** The store applying an update to a row. */
  function ApplyUpdate(row: CourseRow, u: CourseUpdate): (r: CourseRow)
    ensures r.trackmanId == row.trackmanId && r.createdAt == row.createdAt
  {
    row.(dbId := Overwrite(row.dbId, u.dbId),
         description := Overwrite(row.description, u.description),
         displayName := u.displayName,
         numbersOfHoles := Overwrite(row.numbersOfHoles, u.numbersOfHoles),
         courseLocation := Overwrite(row.courseLocation, u.courseLocation),
         difficulty := Overwrite(row.difficulty, u.difficulty),
         tags := u.tags,
         imageUrl := Overwrite(row.imageUrl, u.imageUrl),
         videoUrl := Overwrite(row.videoUrl, u.videoUrl),
         latitude := Overwrite(row.latitude, u.latitude),
         longitude := Overwrite(row.longitude, u.longitude),
         googleMapUrl := Overwrite(row.googleMapUrl, u.googleMapUrl),
         syncedAt := u.syncedAt)
  }

  /** Every optional course field of the record is given. */
  predicate Complete(item: FeedCourse) {
    && item.dbId.Some? && item.description.Some? && item.numbersOfHoles.Some?
    && item.courseLocation.Some? && item.difficulty.Some? && ImageUrl(item).Some? && VideoUrl(item).Some?
    && Latitude(item).Some? && Longitude(item).Some? && MapUrl(item).Some?
  }

  /** A field the record leaves out keeps its stored value on update; a field it
      gives is taken; `tags` is always replaced (by `[]` when absent). */
  lemma UpdateKeepsMissingFields(row: CourseRow, item: FeedCourse, now: Timestamp)
    ensures var r := ApplyUpdate(row, MapCourseUpdate(item, now));
      && r.trackmanId == row.trackmanId && r.createdAt == row.createdAt
      && r.displayName == item.displayName && r.syncedAt == now && r.tags == item.tags.GetOr([])
      && (item.description.None? ==> r.description == row.description)
      && (item.description.Some? ==> r.description == item.description)
      && (item.numbersOfHoles.None? ==> r.numbersOfHoles == row.numbersOfHoles)
      && (item.numbersOfHoles.Some? ==> r.numbersOfHoles == item.numbersOfHoles)
      && (item.courseLocation.None? ==> r.courseLocation == row.courseLocation)
      && (item.courseLocation.Some? ==> r.courseLocation == item.courseLocation)
      && (item.dbId.None? ==> r.dbId == row.dbId)
      && (item.dbId.Some? ==> r.dbId == item.dbId)
      && (item.difficulty.None? ==> r.difficulty == row.difficulty)
      && (item.difficulty.Some? ==> r.difficulty == item.difficulty)
      && (ImageUrl(item).None? ==> r.imageUrl == row.imageUrl)
      && (ImageUrl(item).Some? ==> r.imageUrl == ImageUrl(item))
      && (VideoUrl(item).None? ==> r.videoUrl == row.videoUrl)
      && (VideoUrl(item).Some? ==> r.videoUrl == VideoUrl(item))
      && (Latitude(item).None? ==> r.latitude == row.latitude)
      && (Latitude(item).Some? ==> r.latitude == Latitude(item))
      && (Longitude(item).None? ==> r.longitude == row.longitude)
      && (Longitude(item).Some? ==> r.longitude == Longitude(item))
      && (MapUrl(item).None? ==> r.googleMapUrl == row.googleMapUrl)
      && (MapUrl(item).Some? ==> r.googleMapUrl == MapUrl(item))
  {
  }

  /** For a record that gives every field, the update path writes what the create
      path would, except that the row keeps its own `trackmanId` and `createdAt`. */
  lemma UpdateMatchesCreate(row: CourseRow, item: FeedCourse, now: Timestamp)
    requires Complete(item)
    ensures ApplyUpdate(row, MapCourseUpdate(item, now))
         == MapCourseCreate(item, now).(trackmanId := row.trackmanId, createdAt := row.createdAt)
  {
  }

  /** Upserting the same record twice gives the row once upserting gave. */
  lemma UpsertIdempotent(row: CourseRow, item: FeedCourse, now: Timestamp)
    ensures var once := ApplyUpdate(row, MapCourseUpdate(item, now));
      ApplyUpdate(once, MapCourseUpdate(item, now)) == once
  {
  }

  /** Updating a freshly created row with the same record changes nothing. */
  lemma CreateThenUpdate(item: FeedCourse, now: Timestamp)
    ensures ApplyUpdate(MapCourseCreate(item, now), MapCourseUpdate(item, now)) == MapCourseCreate(item, now)
  {
  }

  // ---- Child rows ----

  /** Fresh ids `base`, `base + 1`, ... in allocation order. */
  function IdRange(base: Id, n: nat): (ids: seq<Id>)
    ensures |ids| == n && forall j :: 0 <= j < n ==> ids[j] == base + j
    ensures Distinct(ids)
  {
    seq(n, j requires 0 <= j < n => base + j)
  }

  /** `tee.createMany`: tee `j` of the record becomes row `base + j` with `teeIndex` `j`. */
  function NewTees(c: Id, base: Id, tees: seq<FeedTee>): (m: map<Id, TeeRow>)
    ensures forall t :: t in m <==> base <= t < base + |tees|
    ensures forall t :: t in m ==> m[t] == TeeRow(c, t - base, tees[t - base])
    decreases |tees|
  {
    if |tees| == 0 then map[]
    else
      var n := |tees| - 1;
      var m := NewTees(c, base, tees[..n]);
      assert forall j :: 0 <= j < n ==> tees[..n][j] == tees[j];
      m[base + n := TeeRow(c, n, tees[n])]
  }

  /** The `hole.create` calls: hole `i` becomes row `base + i` with `holeIndex` `i`. */
  function NewHoles(c: Id, base: Id, holes: seq<FeedHole>): (m: map<Id, HoleRow>)
    ensures forall h :: h in m <==> base <= h < base + |holes|
    ensures forall h :: h in m ==> m[h] == HoleRow(c, h - base, holes[h - base].name)
    decreases |holes|
  {
    if |holes| == 0 then map[]
    else
      var n := |holes| - 1;
      var m := NewHoles(c, base, holes[..n]);
      assert forall i :: 0 <= i < n ==> holes[..n][i] == holes[i];
      m[base + n := HoleRow(c, n, holes[n].name)]
  }

  /** The HoleTee rows of the nested loop, as a set: entry `j` of hole `i`
      paired with tee `j`, for `j` below both list lengths. */
  function PairedRows(holeIds: seq<Id>, holes: seq<FeedHole>, teeIds: seq<Id>): set<HoleTeeRow>
    requires |holeIds| == |holes|
  {
    set i, j | 0 <= i < |holeIds| && 0 <= j < |HoleTeesOf(holes[i])| && j < |teeIds|
      :: HoleTeeRow(holeIds[i], teeIds[j], HoleTeesOf(holes[i])[j])
  }

  /** The rows the inner loop produces for one hole, in order. */
  function RowsForHole(hid: Id, entries: seq<FeedHoleTee>, teeIds: seq<Id>): seq<HoleTeeRow> {
    var n := if |entries| < |teeIds| then |entries| else |teeIds|;
    seq(n, j requires 0 <= j < n => HoleTeeRow(hid, teeIds[j], entries[j]))
  }

  /** The rows of the first `n` holes, in loop order. */
  function PairRows(holeIds: seq<Id>, holes: seq<FeedHole>, teeIds: seq<Id>, n: nat): seq<HoleTeeRow>
    requires n <= |holeIds| == |holes|
  {
    if n == 0 then []
    else PairRows(holeIds, holes, teeIds, n - 1) + RowsForHole(holeIds[n - 1], HoleTeesOf(holes[n - 1]), teeIds)
  }

  lemma {:induction false} PairRowsMembers(holeIds: seq<Id>, holes: seq<FeedHole>, teeIds: seq<Id>, n: nat)
    requires n <= |holeIds| == |holes|
    ensures forall r :: r in PairRows(holeIds, holes, teeIds, n) <==>
      r in PairedRows(holeIds[..n], holes[..n], teeIds)
  {
    if n > 0 {
      PairRowsMembers(holeIds, holes, teeIds, n - 1);
      var last := RowsForHole(holeIds[n - 1], HoleTeesOf(holes[n - 1]), teeIds);
      forall r | r in PairedRows(holeIds[..n], holes[..n], teeIds)
        ensures r in PairRows(holeIds, holes, teeIds, n)
      {
        var i, j :| 0 <= i < n && 0 <= j < |HoleTeesOf(holes[..n][i])| && j < |teeIds|
          && r == HoleTeeRow(holeIds[..n][i], teeIds[j], HoleTeesOf(holes[..n][i])[j]);
        if i == n - 1 {
          assert r == last[j];
        } else {
          assert r in PairedRows(holeIds[..n - 1], holes[..n - 1], teeIds) by {
            assert holeIds[..n - 1][i] == holeIds[..n][i];
            assert holes[..n - 1][i] == holes[..n][i];
          }
        }
      }
      forall r | r in PairRows(holeIds, holes, teeIds, n)
        ensures r in PairedRows(holeIds[..n], holes[..n], teeIds)
      {
        if r in last {
          var j :| 0 <= j < |last| && last[j] == r;
          assert holeIds[..n][n - 1] == holeIds[n - 1] && holes[..n][n - 1] == holes[n - 1];
        } else {
          assert r in PairedRows(holeIds[..n - 1], holes[..n - 1], teeIds);
          var i, j :| 0 <= i < n - 1 && 0 <= j < |HoleTeesOf(holes[..n - 1][i])| && j < |teeIds|
            && r == HoleTeeRow(holeIds[..n - 1][i], teeIds[j], HoleTeesOf(holes[..n - 1][i])[j]);
          assert holeIds[..n][i] == holeIds[..n - 1][i] && holes[..n][i] == holes[..n - 1][i];
        }
      }
    }
  }

  /** The nested loop of the sync: for hole `i` and `j` below both the hole's
      entry count and the tee count, one row joining hole `i` to tee `j`. */
  method CollectHoleTees(holeIds: seq<Id>, holes: seq<FeedHole>, teeIds: seq<Id>) returns (rows: seq<HoleTeeRow>)
    requires |holeIds| == |holes|
    ensures forall r :: r in rows <==> r in PairedRows(holeIds, holes, teeIds)
    ensures |rows| == |PairRows(holeIds, holes, teeIds, |holes|)|
  {
    rows := [];
    var i := 0;
    while i < |holeIds|
      invariant 0 <= i <= |holeIds|
      invariant rows == PairRows(holeIds, holes, teeIds, i)
    {
      var holeTees := HoleTeesOf(holes[i]);
      ghost var expected := RowsForHole(holeIds[i], holeTees, teeIds);
      var j := 0;
      while j < |holeTees| && j < |teeIds|
        invariant 0 <= j <= |expected|
        invariant rows == PairRows(holeIds, holes, teeIds, i) + expected[..j]
      {
        rows := rows + [HoleTeeRow(holeIds[i], teeIds[j], holeTees[j])];
        j := j + 1;
      }
      assert expected[..j] == expected;
      i := i + 1;
    }
    PairRowsMembers(holeIds, holes, teeIds, |holes|);
    assert holeIds[..|holes|] == holeIds && holes[..|holes|] == holes;
  }

  /** A row for (hole `i`, tee `j`) is produced iff `j` is below both the hole's
      entry count and the tee count, and then it carries entry `j`. */
  lemma PairedRowIff(holeIds: seq<Id>, holes: seq<FeedHole>, teeIds: seq<Id>, i: int, j: int)
    requires |holeIds| == |holes| && Distinct(holeIds) && Distinct(teeIds)
    requires 0 <= i < |holeIds| && 0 <= j < |teeIds|
    ensures (exists r :: r in PairedRows(holeIds, holes, teeIds) && r.holeId == holeIds[i] && r.teeId == teeIds[j])
        <==> j < |HoleTeesOf(holes[i])|
    ensures forall r :: r in PairedRows(holeIds, holes, teeIds) ==>
              r.holeId == holeIds[i] && r.teeId == teeIds[j] ==> r.attrs == HoleTeesOf(holes[i])[j]
  {
    if j < |HoleTeesOf(holes[i])| {
      var r := HoleTeeRow(holeIds[i], teeIds[j], HoleTeesOf(holes[i])[j]);
      assert r in PairedRows(holeIds, holes, teeIds);
    }
  }

  // ---- One course ----

  /** Some stored course already carries the upstream id. */
  predicate Known(s: Store, tid: string) {
    exists c :: c in s.courses && s.courses[c].trackmanId == tid
  }

  /** `course.upsert` keyed by `trackmanId`: update the course holding the id,
      or create one under a fresh id. */
  method UpsertCourse(s: Store, item: FeedCourse, now: Timestamp) returns (s': Store, cid: Id)
    requires Valid(s)
    ensures Valid(s')
    ensures s'.tees == s.tees && s'.holes == s.holes && s'.holeTees == s.holeTees
    ensures s'.courses.Keys == s.courses.Keys + {cid}
    ensures s'.courses[cid].trackmanId == item.id
    ensures forall c :: c in s.courses && c != cid ==> s'.courses[c] == s.courses[c]
    ensures cid in s.courses <==> Known(s, item.id)
    ensures cid in s.courses ==> s.courses[cid].trackmanId == item.id
    ensures cid in s.courses ==>
              s'.courses[cid] == ApplyUpdate(s.courses[cid], MapCourseUpdate(item, now)) && s'.nextId == s.nextId
    ensures cid !in s.courses ==> s'.courses[cid] == MapCourseCreate(item, now) && s'.nextId == s.nextId + 1
  {
    if c :| c in s.courses && s.courses[c].trackmanId == item.id {
      cid := c;
      s' := s.(courses := s.courses[cid := ApplyUpdate(s.courses[cid], MapCourseUpdate(item, now))]);
      ReplacedCourseValid(s, cid, s'.courses[cid], s');
    } else {
      cid := s.nextId;
      s' := s.(courses := s.courses[cid := MapCourseCreate(item, now)], nextId := s.nextId + 1);
      AddedCourseValid(s, s'.courses[cid], s');
    }
  }

  /** Rewriting a course row under the same upstream id keeps the store valid. */
  lemma ReplacedCourseValid(s: Store, cid: Id, row: CourseRow, s': Store)
    requires Valid(s) && cid in s.courses && row.trackmanId == s.courses[cid].trackmanId
    requires s' == s.(courses := s.courses[cid := row])
    ensures Valid(s') && s'.courses.Keys == s.courses.Keys
  {
  }

  /** A course row under the next fresh id, for an upstream id no course carries, keeps the store valid. */
  lemma AddedCourseValid(s: Store, row: CourseRow, s': Store)
    requires Valid(s) && !Known(s, row.trackmanId)
    requires s' == s.(courses := s.courses[s.nextId := row], nextId := s.nextId + 1)
    ensures Valid(s') && s.nextId !in s.courses && s'.courses.Keys == s.courses.Keys + {s.nextId}
  {
  }

  /** The store without course `c`'s tees and holes, and without the HoleTee
      rows on those holes. */
  function WithoutChildren(s: Store, c: Id): Store {
    Store(s.courses,
          (map t | t in s.tees && s.tees[t].courseId != c :: s.tees[t]),
          (map h | h in s.holes && s.holes[h].courseId != c :: s.holes[h]),
          (set x | x in s.holeTees && x.holeId in s.holes && s.holes[x.holeId].courseId != c),
          s.nextId)
  }

  lemma WithoutChildrenValid(s: Store, c: Id)
    requires Valid(s)
    ensures Valid(WithoutChildren(s, c))
  {
  }

  lemma WithoutChildrenFrame(s: Store, c: Id)
    requires Valid(s)
    ensures forall d :: d != c ==>
              && TeesOfCourse(WithoutChildren(s, c), d) == TeesOfCourse(s, d)
              && HolesOfCourse(WithoutChildren(s, c), d) == HolesOfCourse(s, d)
              && HoleTeesOfCourse(WithoutChildren(s, c), d) == HoleTeesOfCourse(s, d)
  {
    forall d | d != c
      ensures TeesOfCourse(WithoutChildren(s, c), d) == TeesOfCourse(s, d)
      ensures HolesOfCourse(WithoutChildren(s, c), d) == HolesOfCourse(s, d)
      ensures HoleTeesOfCourse(WithoutChildren(s, c), d) == HoleTeesOfCourse(s, d)
    {
      KeptTees(s.tees, c, d);
      KeptHoles(s.holes, c, d);
      KeptHoleTees(s.holeTees, s.holes, c, d);
    }
  }

  lemma KeptTees(tees: map<Id, TeeRow>, c: Id, d: Id)
    requires d != c
    ensures TeesIn(map t | t in tees && tees[t].courseId != c :: tees[t], d) == TeesIn(tees, d)
  {
    var kept := map t | t in tees && tees[t].courseId != c :: tees[t];
    assert TeesIn(kept, d).Keys == TeesIn(tees, d).Keys;
  }

  lemma KeptHoles(holes: map<Id, HoleRow>, c: Id, d: Id)
    requires d != c
    ensures HolesIn(map h | h in holes && holes[h].courseId != c :: holes[h], d) == HolesIn(holes, d)
  {
    var kept := map h | h in holes && holes[h].courseId != c :: holes[h];
    assert HolesIn(kept, d).Keys == HolesIn(holes, d).Keys;
  }

  lemma KeptHoleTees(rows: set<HoleTeeRow>, holes: map<Id, HoleRow>, c: Id, d: Id)
    requires d != c
    ensures HoleTeesIn(set x | x in rows && x.holeId in holes && holes[x.holeId].courseId != c,
                       map h | h in holes && holes[h].courseId != c :: holes[h], d)
         == HoleTeesIn(rows, holes, d)
  {
  }

  /** `hole.deleteMany` and `tee.deleteMany` for the course; the store's cascade
      takes the HoleTee rows of those holes and tees with them. */
  function DeleteChildren(s: Store, c: Id): (r: Store)
    requires Valid(s)
    ensures Valid(r)
    ensures r.courses == s.courses && r.nextId == s.nextId
    ensures forall t :: t in r.tees ==> r.tees[t].courseId != c
    ensures forall h :: h in r.holes ==> r.holes[h].courseId != c
    ensures forall d :: d != c ==>
              && TeesOfCourse(r, d) == TeesOfCourse(s, d)
              && HolesOfCourse(r, d) == HolesOfCourse(s, d)
              && HoleTeesOfCourse(r, d) == HoleTeesOfCourse(s, d)
  {
    WithoutChildrenValid(s, c);
    WithoutChildrenFrame(s, c);
    WithoutChildren(s, c)
  }

  /** Writing the course's tees, holes and HoleTee rows from the record, with
      fresh ids from the counter: tees first, then holes. */
  function Rebuild(s: Store, c: Id, item: FeedCourse): Store {
    Assemble(s, c, item, FreshPairs(s.nextId + |TeesOf(item)|, HolesOf(item), s.nextId, |TeesOf(item)|))
  }

  /** The store with the record's tees and holes added under fresh ids, and the
      given HoleTee rows. */
  function Assemble(s: Store, c: Id, item: FeedCourse, rows: set<HoleTeeRow>): Store {
    var tees := TeesOf(item);
    var holes := HolesOf(item);
    var tb := s.nextId;
    var hb := tb + |tees|;
    Store(s.courses,
          s.tees + NewTees(c, tb, tees),
          s.holes + NewHoles(c, hb, holes),
          s.holeTees + rows,
          hb + |holes|)
  }

  /** The course has no tees or holes. */
  ghost predicate Childless(s: Store, c: Id) {
    && (forall t :: t in s.tees ==> s.tees[t].courseId != c)
    && (forall h :: h in s.holes ==> s.holes[h].courseId != c)
  }

  /** Row `x` is the one the loop writes for hole id `hb + i` and tee id `tb + j`. */
  predicate PairAt(hb: Id, holes: seq<FeedHole>, tb: Id, nTees: nat, x: HoleTeeRow) {
    && hb <= x.holeId < hb + |holes|
    && tb <= x.teeId < tb + nTees
    && x.teeId - tb < |HoleTeesOf(holes[x.holeId - hb])|
    && x.attrs == HoleTeesOf(holes[x.holeId - hb])[x.teeId - tb]
  }

  /** With ids allocated in order, membership in the paired rows needs no search. */
  lemma PairedRowsFresh(hb: Id, holes: seq<FeedHole>, tb: Id, nTees: nat)
    ensures forall x :: x in PairedRows(IdRange(hb, |holes|), holes, IdRange(tb, nTees)) <==> PairAt(hb, holes, tb, nTees, x)
  {
    var holeIds := IdRange(hb, |holes|);
    var teeIds := IdRange(tb, nTees);
    forall x | PairAt(hb, holes, tb, nTees, x) ensures x in PairedRows(holeIds, holes, teeIds) {
      var i, j := x.holeId - hb, x.teeId - tb;
      assert x == HoleTeeRow(holeIds[i], teeIds[j], HoleTeesOf(holes[i])[j]);
    }
  }

  /** The loop's HoleTee rows for holes and tees allocated from `hb` and `tb`. */
  function FreshPairs(hb: Id, holes: seq<FeedHole>, tb: Id, nTees: nat): (r: set<HoleTeeRow>)
    ensures forall x :: x in r <==> PairAt(hb, holes, tb, nTees, x)
  {
    PairedRowsFresh(hb, holes, tb, nTees);
    PairedRows(IdRange(hb, |holes|), holes, IdRange(tb, nTees))
  }

  lemma RebuildTees(s: Store, c: Id, item: FeedCourse)
    requires Childless(s, c)
    ensures TeesOfCourse(Rebuild(s, c, item), c) == NewTees(c, s.nextId, TeesOf(item))
  {
    var r := Rebuild(s, c, item);
    var nt := NewTees(c, s.nextId, TeesOf(item));
    RebuildTeesPart(s, c, item, r, nt);
  }

  lemma RebuildHoles(s: Store, c: Id, item: FeedCourse)
    requires Childless(s, c)
    ensures HolesOfCourse(Rebuild(s, c, item), c) == NewHoles(c, s.nextId + |TeesOf(item)|, HolesOf(item))
  {
    var r := Rebuild(s, c, item);
    var nh := NewHoles(c, s.nextId + |TeesOf(item)|, HolesOf(item));
    RebuildHolesPart(s, c, item, r, nh);
  }

  lemma RebuildHoleTees(s: Store, c: Id, item: FeedCourse)
    requires Valid(s) && Childless(s, c)
    ensures forall x :: x in HoleTeesOfCourse(Rebuild(s, c, item), c) <==>
      PairAt(s.nextId + |TeesOf(item)|, HolesOf(item), s.nextId, |TeesOf(item)|, x)
  {
    var r := Rebuild(s, c, item);
    var hb := s.nextId + |TeesOf(item)|;
    forall x | x in s.holeTees ensures x !in HoleTeesOfCourse(r, c) {
      assert r.holes[x.holeId] == s.holes[x.holeId];
    }
  }

  lemma RebuildValid(s: Store, c: Id, item: FeedCourse)
    requires Valid(s) && c in s.courses && Childless(s, c)
    ensures Valid(Rebuild(s, c, item))
  {
    var r := Rebuild(s, c, item);
    var hb := s.nextId + |TeesOf(item)|;
    forall x | x in r.holeTees
      ensures x.holeId in r.holes && x.teeId in r.tees && r.holes[x.holeId].courseId == r.tees[x.teeId].courseId
    {
      if x in s.holeTees {
        assert r.holes[x.holeId] == s.holes[x.holeId] && r.tees[x.teeId] == s.tees[x.teeId];
      }
    }
  }

  /** Freshly allocated tee rows show the record's tees, one per position. */
  lemma NewTeesView(c: Id, base: Id, item: FeedCourse)
    ensures TeeViewOf(NewTees(c, base, TeesOf(item))) == ItemTeeView(item)
    ensures var nt := NewTees(c, base, TeesOf(item));
      forall a, b :: a in nt && b in nt && nt[a].teeIndex == nt[b].teeIndex ==> a == b
  {
    var tees := TeesOf(item);
    var nt := NewTees(c, base, tees);
    forall p | p in ItemTeeView(item) ensures p in TeeViewOf(nt) {
      var j: nat :| j < |tees| && p == (j, tees[j]);
      assert base + j in nt;
    }
  }

  lemma NewHolesView(c: Id, base: Id, item: FeedCourse)
    ensures HoleViewOf(NewHoles(c, base, HolesOf(item))) == ItemHoleView(item)
    ensures var nh := NewHoles(c, base, HolesOf(item));
      forall a, b :: a in nh && b in nh && nh[a].holeIndex == nh[b].holeIndex ==> a == b
  {
    var holes := HolesOf(item);
    var nh := NewHoles(c, base, holes);
    forall p | p in ItemHoleView(item) ensures p in HoleViewOf(nh) {
      var i: nat :| i < |holes| && p == (i, holes[i].name);
      assert base + i in nh;
    }
  }

  /** The loop's rows over freshly allocated holes and tees show the record's per-hole-per-tee entries. */
  lemma NewHoleTeesView(c: Id, tb: Id, hb: Id, item: FeedCourse, rows: set<HoleTeeRow>)
    requires forall x :: x in rows <==> PairAt(hb, HolesOf(item), tb, |TeesOf(item)|, x)
    ensures HoleTeeViewOf(NewHoles(c, hb, HolesOf(item)), NewTees(c, tb, TeesOf(item)), rows) == ItemHoleTeeView(item)
  {
    var tees := TeesOf(item);
    var holes := HolesOf(item);
    var nt := NewTees(c, tb, tees);
    var nh := NewHoles(c, hb, holes);
    forall p | p in HoleTeeViewOf(nh, nt, rows) ensures p in ItemHoleTeeView(item) {
      var x :| x in rows && x.holeId in nh && x.teeId in nt
        && p == (nh[x.holeId].holeIndex, nt[x.teeId].teeIndex, x.attrs);
      var i: nat, j: nat := x.holeId - hb, x.teeId - tb;
      assert p == (i, j, HoleTeesOf(holes[i])[j]);
    }
    forall p | p in ItemHoleTeeView(item) ensures p in HoleTeeViewOf(nh, nt, rows) {
      var i: nat, j: nat :| i < |holes| && j < |HoleTeesOf(holes[i])| && j < |tees| && p == (i, j, HoleTeesOf(holes[i])[j]);
      var x := HoleTeeRow(hb + i, tb + j, HoleTeesOf(holes[i])[j]);
      assert PairAt(hb, holes, tb, |tees|, x);
      assert hb + i in nh && tb + j in nt;
    }
  }

  /** After a rebuild on a childless course, course `c` holds exactly what the record describes. */
  lemma RebuildReflects(s: Store, c: Id, item: FeedCourse)
    requires Valid(s) && c in s.courses && Childless(s, c)
    requires s.courses[c].trackmanId == item.id && s.courses[c].displayName == item.displayName
    ensures Reflects(Rebuild(s, c, item), c, item)
  {
    var r := Rebuild(s, c, item);
    var tb := s.nextId;
    var hb := tb + |TeesOf(item)|;
    RebuildTees(s, c, item);
    RebuildHoles(s, c, item);
    RebuildHoleTees(s, c, item);
    NewTeesView(c, tb, item);
    NewHolesView(c, hb, item);
    NewHoleTeesView(c, tb, hb, item, HoleTeesOfCourse(r, c));
  }

  /** A rebuild of course `c` leaves every other course's rows as they were. */
  lemma RebuildFrame(s: Store, c: Id, item: FeedCourse, d: Id)
    requires Valid(s) && d != c
    ensures TeesOfCourse(Rebuild(s, c, item), d) == TeesOfCourse(s, d)
    ensures HolesOfCourse(Rebuild(s, c, item), d) == HolesOfCourse(s, d)
    ensures HoleTeesOfCourse(Rebuild(s, c, item), d) == HoleTeesOfCourse(s, d)
  {
    RebuildFrameTees(s, c, item, d);
    RebuildFrameHoles(s, c, item, d);
    RebuildFrameHoleTees(s, c, item, d);
  }

  lemma RebuildFrameTees(s: Store, c: Id, item: FeedCourse, d: Id)
    requires Valid(s) && d != c
    ensures TeesOfCourse(Rebuild(s, c, item), d) == TeesOfCourse(s, d)
  {
    var nt := NewTees(c, s.nextId, TeesOf(item));
    RebuildTeesPart(s, c, item, Rebuild(s, c, item), nt);
    FreshTees(s, c, s.nextId, TeesOf(item));
    AddedTeesFrame(s, Rebuild(s, c, item), nt, c, d);
  }

  lemma RebuildFrameHoles(s: Store, c: Id, item: FeedCourse, d: Id)
    requires Valid(s) && d != c
    ensures HolesOfCourse(Rebuild(s, c, item), d) == HolesOfCourse(s, d)
  {
    var nh := NewHoles(c, s.nextId + |TeesOf(item)|, HolesOf(item));
    RebuildHolesPart(s, c, item, Rebuild(s, c, item), nh);
    FreshHoles(s, c, s.nextId + |TeesOf(item)|, HolesOf(item));
    AddedHolesFrame(s, Rebuild(s, c, item), nh, c, d);
  }

  lemma RebuildFrameHoleTees(s: Store, c: Id, item: FeedCourse, d: Id)
    requires Valid(s) && d != c
    ensures HoleTeesOfCourse(Rebuild(s, c, item), d) == HoleTeesOfCourse(s, d)
  {
    var tees := TeesOf(item);
    var holes := HolesOf(item);
    var tb := s.nextId;
    var hb := tb + |tees|;
    var nh := NewHoles(c, hb, holes);
    var added := FreshPairs(hb, holes, tb, |tees|);
    var r := Rebuild(s, c, item);
    RebuildHolesPart(s, c, item, r, nh);
    RebuildRowsPart(s, c, item, r, added);
    FreshHoles(s, c, hb, holes);
    FreshPairsOnNewHoles(c, hb, holes, tb, |tees|);
    AddedHoleTeesFrame(s, r, nh, added, c, d);
  }

  /** The tee rows of a rebuilt store, named by the caller. */
  lemma RebuildTeesPart(s: Store, c: Id, item: FeedCourse, r: Store, nt: map<Id, TeeRow>)
    requires r == Rebuild(s, c, item)
    requires nt == NewTees(c, s.nextId, TeesOf(item))
    ensures r.tees == s.tees + nt
  {
    assert r == Assemble(s, c, item, FreshPairs(s.nextId + |TeesOf(item)|, HolesOf(item), s.nextId, |TeesOf(item)|));
  }

  /** The hole rows of a rebuilt store, named by the caller. */
  lemma RebuildHolesPart(s: Store, c: Id, item: FeedCourse, r: Store, nh: map<Id, HoleRow>)
    requires r == Rebuild(s, c, item)
    requires nh == NewHoles(c, s.nextId + |TeesOf(item)|, HolesOf(item))
    ensures r.holes == s.holes + nh
  {
    assert r == Assemble(s, c, item, FreshPairs(s.nextId + |TeesOf(item)|, HolesOf(item), s.nextId, |TeesOf(item)|));
  }

  /** The HoleTee rows of a rebuilt store, named by the caller. */
  lemma RebuildRowsPart(s: Store, c: Id, item: FeedCourse, r: Store, added: set<HoleTeeRow>)
    requires r == Rebuild(s, c, item)
    requires added == FreshPairs(s.nextId + |TeesOf(item)|, HolesOf(item), s.nextId, |TeesOf(item)|)
    ensures r.holeTees == s.holeTees + added
  {
    assert r == Assemble(s, c, item, added);
  }

  /** Tee rows allocated from the counter on belong to `c` and reuse no id. */
  lemma FreshTees(s: Store, c: Id, base: Id, tees: seq<FeedTee>)
    requires Valid(s) && s.nextId <= base
    ensures forall t :: t in NewTees(c, base, tees) ==> t !in s.tees && NewTees(c, base, tees)[t].courseId == c
  {
  }

  lemma FreshHoles(s: Store, c: Id, base: Id, holes: seq<FeedHole>)
    requires Valid(s) && s.nextId <= base
    ensures forall h :: h in NewHoles(c, base, holes) ==> h !in s.holes && NewHoles(c, base, holes)[h].courseId == c
  {
  }

  /** The loop's rows sit on the freshly allocated holes. */
  lemma FreshPairsOnNewHoles(c: Id, hb: Id, holes: seq<FeedHole>, tb: Id, nTees: nat)
    ensures forall x :: x in FreshPairs(hb, holes, tb, nTees) ==> x.holeId in NewHoles(c, hb, holes)
  {
  }

  /** Adding tee rows of course `c` under unused ids leaves course `d`'s tees alone. */
  lemma AddedTeesFrame(s: Store, r: Store, added: map<Id, TeeRow>, c: Id, d: Id)
    requires r.tees == s.tees + added && d != c
    requires forall t :: t in added ==> t !in s.tees && added[t].courseId == c
    ensures TeesOfCourse(r, d) == TeesOfCourse(s, d)
  {
  }

  lemma AddedHolesFrame(s: Store, r: Store, added: map<Id, HoleRow>, c: Id, d: Id)
    requires r.holes == s.holes + added && d != c
    requires forall h :: h in added ==> h !in s.holes && added[h].courseId == c
    ensures HolesOfCourse(r, d) == HolesOfCourse(s, d)
  {
  }

  /** Adding holes of course `c`, and rows on those holes, leaves course `d`'s HoleTee rows alone. */
  lemma AddedHoleTeesFrame(s: Store, r: Store, addedHoles: map<Id, HoleRow>, addedRows: set<HoleTeeRow>, c: Id, d: Id)
    requires r.holes == s.holes + addedHoles && r.holeTees == s.holeTees + addedRows && d != c
    requires forall h :: h in addedHoles ==> h !in s.holes && addedHoles[h].courseId == c
    requires forall x :: x in addedRows ==> x.holeId in addedHoles
    ensures HoleTeesOfCourse(r, d) == HoleTeesOfCourse(s, d)
  {
    forall x | x in HoleTeesOfCourse(s, d) ensures x in HoleTeesOfCourse(r, d) {
      assert x.holeId !in addedHoles;
    }
  }

  // ---- Syncing ----

  /** Course `c` and all its rows are as they were in `s`. */
  ghost predicate Untouched(s: Store, s': Store, c: Id)
    requires c in s.courses
  {
    && c in s'.courses && s'.courses[c] == s.courses[c]
    && TeesOfCourse(s', c) == TeesOfCourse(s, c)
    && HolesOfCourse(s', c) == HolesOfCourse(s, c)
    && HoleTeesOfCourse(s', c) == HoleTeesOfCourse(s, c)
  }

  /** `syncOneCourse`: upsert the course, drop its tees and holes (the cascade
      takes their HoleTee rows), then write the record's tees, holes and HoleTee
      rows under fresh ids. */
  method SyncOneCourse(s: Store, item: FeedCourse, now: Timestamp) returns (s': Store, cid: Id)
    requires Valid(s)
    ensures Valid(s')
    ensures s'.courses.Keys == s.courses.Keys + {cid}
    ensures cid in s.courses <==> Known(s, item.id)
    ensures cid in s.courses ==> s.courses[cid].trackmanId == item.id
    ensures cid in s.courses ==> s'.courses[cid] == ApplyUpdate(s.courses[cid], MapCourseUpdate(item, now))
    ensures cid !in s.courses ==> s'.courses[cid] == MapCourseCreate(item, now)
    ensures forall c :: c in s.courses && c != cid ==> Untouched(s, s', c)
    ensures Reflects(s', cid, item)
  {
    var s1;
    s1, cid := UpsertCourse(s, item, now);
    var s2 := DeleteChildren(s1, cid);
    var tees := TeesOf(item);
    var holes := HolesOf(item);
    var teeIds := IdRange(s2.nextId, |tees|);
    var holeIds := IdRange(s2.nextId + |tees|, |holes|);
    var rows := CollectHoleTees(holeIds, holes, teeIds);
    var added := set r | r in rows;
    s' := Assemble(s2, cid, item, added);
    AssembledIsRebuild(s2, cid, item, holeIds, teeIds, rows, added);
    ReplaceChildren(s, s1, cid, item, s');
  }

  /** Adding the rows the loop collected over freshly allocated ids is the rebuild. */
  lemma AssembledIsRebuild(s: Store, c: Id, item: FeedCourse, holeIds: seq<Id>, teeIds: seq<Id>,
                            rows: seq<HoleTeeRow>, added: set<HoleTeeRow>)
    requires teeIds == IdRange(s.nextId, |TeesOf(item)|)
    requires holeIds == IdRange(s.nextId + |TeesOf(item)|, |HolesOf(item)|)
    requires forall r :: r in rows <==> r in PairedRows(holeIds, HolesOf(item), teeIds)
    requires added == set r | r in rows
    ensures Assemble(s, c, item, added) == Rebuild(s, c, item)
  {
    var tb := s.nextId;
    var hb := tb + |TeesOf(item)|;
    PairedRowsFresh(hb, HolesOf(item), tb, |TeesOf(item)|);
    assert added == FreshPairs(hb, HolesOf(item), tb, |TeesOf(item)|);
  }

  /** Syncing the same record twice: the second sync finds the course the first
      one wrote, leaves its row as it was, and rebuilds tees, holes and
      per-hole-per-tee rows that look exactly as before, generated ids aside. */
  method SyncTwice(s: Store, item: FeedCourse, now: Timestamp) returns (s1: Store, c1: Id, s2: Store, c2: Id)
    requires Valid(s)
    ensures c2 == c1 && c1 in s1.courses && s2.courses.Keys == s1.courses.Keys
    ensures s2.courses[c2] == s1.courses[c1]
    ensures TeeView(s2, c2) == TeeView(s1, c1)
    ensures HoleView(s2, c2) == HoleView(s1, c1)
    ensures HoleTeeView(s2, c2) == HoleTeeView(s1, c1)
  {
    s1, c1 := SyncOneCourse(s, item, now);
    s2, c2 := SyncOneCourse(s1, item, now);
    assert Known(s1, item.id);
    if c1 in s.courses {
      UpsertIdempotent(s.courses[c1], item, now);
    } else {
      CreateThenUpdate(item, now);
    }
  }

  /** Deleting and rebuilding the children of the upserted course `cid`. */
  lemma ReplaceChildren(s: Store, s1: Store, cid: Id, item: FeedCourse, s': Store)
    requires Valid(s1) && cid in s1.courses
    requires s1.courses[cid].trackmanId == item.id && s1.courses[cid].displayName == item.displayName
    requires s1.tees == s.tees && s1.holes == s.holes && s1.holeTees == s.holeTees
    requires forall c :: c in s.courses && c != cid ==> c in s1.courses && s1.courses[c] == s.courses[c]
    requires s' == Rebuild(DeleteChildren(s1, cid), cid, item)
    ensures s'.courses == s1.courses
    ensures Valid(s')
    ensures Reflects(s', cid, item)
    ensures forall c :: c in s.courses && c != cid ==> Untouched(s, s', c)
  {
    var s2 := DeleteChildren(s1, cid);
    RebuildValid(s2, cid, item);
    RebuildReflects(s2, cid, item);
    forall c | c in s.courses && c != cid ensures Untouched(s, s', c) {
      RebuildFrame(s2, cid, item, c);
    }
  }

  /** Record `k` is the last one in the feed with its upstream id. */
  predicate IsLastOf(items: seq<FeedCourse>, k: int) {
    0 <= k < |items| && forall j :: k < j < |items| ==> items[j].id != items[k].id
  }

  predicate Mentions(items: seq<FeedCourse>, tid: string) {
    exists k :: 0 <= k < |items| && items[k].id == tid
  }

  /** The feed synced record by record in feed order: for each upstream id the
      last record carrying it decides the course's contents; courses the feed
      does not mention are untouched; no course is removed. */
  method SyncAll(s: Store, items: seq<FeedCourse>, now: Timestamp) returns (s': Store)
    requires Valid(s)
    ensures Valid(s')
    ensures s.courses.Keys <= s'.courses.Keys
    ensures forall k :: IsLastOf(items, k) ==> exists c :: Reflects(s', c, items[k])
    ensures forall k :: 0 <= k < |items| ==> Known(s', items[k].id)
    ensures forall c :: c in s.courses && !Mentions(items, s.courses[c].trackmanId) ==> Untouched(s, s', c)
    ensures forall c :: c in s'.courses && c !in s.courses ==> Mentions(items, s'.courses[c].trackmanId)
  {
    s' := s;
    var i := 0;
    assert items[..0] == [];
    while i < |items|
      invariant 0 <= i <= |items|
      invariant Valid(s')
      invariant Progress(s, s', items[..i])
    {
      var prev := s';
      var cid;
      s', cid := SyncOneCourse(prev, items[i], now);
      ProgressStep(s, prev, s', items, i, cid);
      i := i + 1;
    }
    assert items[..i] == items;
  }

  /** What syncing the records `done` has established, relative to the starting store `s`. */
  ghost predicate Progress(s: Store, cur: Store, done: seq<FeedCourse>) {
    && s.courses.Keys <= cur.courses.Keys
    && (forall k :: IsLastOf(done, k) ==> exists c :: Reflects(cur, c, done[k]))
    && (forall k :: 0 <= k < |done| ==> Known(cur, done[k].id))
    && (forall c :: c in s.courses && !Mentions(done, s.courses[c].trackmanId) ==> Untouched(s, cur, c))
    && (forall c :: c in cur.courses && c !in s.courses ==> Mentions(done, cur.courses[c].trackmanId))
  }

  lemma ProgressStep(s: Store, prev: Store, next: Store, items: seq<FeedCourse>, i: int, cid: Id)
    requires 0 <= i < |items| && Progress(s, prev, items[..i])
    requires next.courses.Keys == prev.courses.Keys + {cid}
    requires cid in prev.courses ==> prev.courses[cid].trackmanId == items[i].id
    requires forall c :: c in prev.courses && c != cid ==> Untouched(prev, next, c)
    requires Reflects(next, cid, items[i])
    ensures Progress(s, next, items[..i + 1])
  {
    PrefixSnoc(items, i);
    ProgressSnoc(s, prev, next, items[..i], items[i], cid);
  }

  /** One more synced record extends what the loop has established. */
  lemma ProgressSnoc(s: Store, prev: Store, next: Store, done: seq<FeedCourse>, item: FeedCourse, cid: Id)
    requires Progress(s, prev, done)
    requires next.courses.Keys == prev.courses.Keys + {cid}
    requires cid in prev.courses ==> prev.courses[cid].trackmanId == item.id
    requires forall c :: c in prev.courses && c != cid ==> Untouched(prev, next, c)
    requires Reflects(next, cid, item)
    ensures Progress(s, next, done + [item])
  {
    assert Stepped(prev, next, item, cid);
    StepKeepsLast(prev, next, done, item, cid);
    StepKeepsKnown(prev, next, done, item, cid);
    StepKeepsUntouched(s, prev, next, done, item, cid);
    StepKeepsMentioned(s, prev, next, done, item, cid);
  }

  /** What one step of the feed loop knows about the course `cid` it synced. */
  ghost predicate Stepped(prev: Store, next: Store, item: FeedCourse, cid: Id) {
    && next.courses.Keys == prev.courses.Keys + {cid}
    && (cid in prev.courses ==> prev.courses[cid].trackmanId == item.id)
    && cid in next.courses && next.courses[cid].trackmanId == item.id
    && (forall c :: c in prev.courses && c != cid ==> Untouched(prev, next, c))
  }

  lemma SnocMentions(done: seq<FeedCourse>, item: FeedCourse, tid: string)
    ensures Mentions(done + [item], tid) <==> Mentions(done, tid) || item.id == tid
  {
    var post := done + [item];
    if Mentions(done, tid) {
      var k :| 0 <= k < |done| && done[k].id == tid;
      assert post[k] == done[k];
    }
    if item.id == tid {
      assert post[|done|] == item;
    }
    if Mentions(post, tid) {
      var k :| 0 <= k < |post| && post[k].id == tid;
      if k < |done| { assert done[k] == post[k]; }
    }
  }

  lemma StepKeepsLast(prev: Store, next: Store, done: seq<FeedCourse>, item: FeedCourse, cid: Id)
    requires Stepped(prev, next, item, cid)
    requires forall k :: IsLastOf(done, k) ==> exists c :: Reflects(prev, c, done[k])
    requires Reflects(next, cid, item)
    ensures forall k :: IsLastOf(done + [item], k) ==> exists c :: Reflects(next, c, (done + [item])[k])
  {
    var post := done + [item];
    forall k | IsLastOf(post, k) ensures exists c :: Reflects(next, c, post[k]) {
      if k == |done| {
        assert Reflects(next, cid, post[k]);
      } else {
        assert post[k] == done[k] && post[|done|] == item;
        assert IsLastOf(done, k) by {
          forall j | k < j < |done| ensures done[j].id != done[k].id {
            assert post[j] == done[j];
          }
        }
        var c :| Reflects(prev, c, done[k]);
        assert c != cid by {
          assert post[|done|].id != post[k].id;
        }
        assert Untouched(prev, next, c);
        assert Reflects(next, c, done[k]);
      }
    }
  }

  lemma StepKeepsKnown(prev: Store, next: Store, done: seq<FeedCourse>, item: FeedCourse, cid: Id)
    requires Stepped(prev, next, item, cid)
    requires forall k :: 0 <= k < |done| ==> Known(prev, done[k].id)
    ensures forall k :: 0 <= k < |done + [item]| ==> Known(next, (done + [item])[k].id)
  {
    var post := done + [item];
    forall k | 0 <= k < |post| ensures Known(next, post[k].id) {
      if post[k].id == item.id {
        assert next.courses[cid].trackmanId == post[k].id;
      } else {
        assert post[k] == done[k];
        var c :| c in prev.courses && prev.courses[c].trackmanId == done[k].id;
        assert Untouched(prev, next, c);
      }
    }
  }

  lemma StepKeepsUntouched(s: Store, prev: Store, next: Store, done: seq<FeedCourse>, item: FeedCourse, cid: Id)
    requires Stepped(prev, next, item, cid)
    requires s.courses.Keys <= prev.courses.Keys
    requires forall c :: c in s.courses && !Mentions(done, s.courses[c].trackmanId) ==> Untouched(s, prev, c)
    ensures forall c :: c in s.courses && !Mentions(done + [item], s.courses[c].trackmanId) ==> Untouched(s, next, c)
  {
    forall c | c in s.courses && !Mentions(done + [item], s.courses[c].trackmanId) ensures Untouched(s, next, c) {
      SnocMentions(done, item, s.courses[c].trackmanId);
      assert Untouched(s, prev, c);
      assert Untouched(prev, next, c);
    }
  }

  lemma StepKeepsMentioned(s: Store, prev: Store, next: Store, done: seq<FeedCourse>, item: FeedCourse, cid: Id)
    requires Stepped(prev, next, item, cid)
    requires forall c :: c in prev.courses && c !in s.courses ==> Mentions(done, prev.courses[c].trackmanId)
    ensures forall c :: c in next.courses && c !in s.courses ==> Mentions(done + [item], next.courses[c].trackmanId)
  {
    forall c | c in next.courses && c !in s.courses ensures Mentions(done + [item], next.courses[c].trackmanId) {
      SnocMentions(done, item, next.courses[c].trackmanId);
      if c != cid {
        assert Untouched(prev, next, c);
      }
    }
  }

  /** The POST handler: reject a request whose credential does not match the
      configured secret; otherwise sync every fetched record and report how many
      there were, or report the fetch's error. */
  method HandleSync(s: Store, req: SyncRequest, cronSecret: Option<string>, fetch: Fetch, now: Timestamp)
    returns (s': Store, resp: Response)
    requires Valid(s)
    ensures Valid(s')
    ensures resp == Unauthorized <==> !Authorized(cronSecret, req)
    ensures resp.Unauthorized? || resp.Failed? ==> s' == s
    ensures Authorized(cronSecret, req) && fetch.FetchFailed? ==> resp == Failed(fetch.message.GetOr("Sync failed"))
    ensures Authorized(cronSecret, req) && fetch.Fetched? ==>
      && resp == Synced(|fetch.items|)
      && (forall k :: IsLastOf(fetch.items, k) ==> exists c :: Reflects(s', c, fetch.items[k]))
      && (forall c :: c in s.courses && !Mentions(fetch.items, s.courses[c].trackmanId) ==> Untouched(s, s', c))
  {
    if !Authorized(cronSecret, req) {
      return s, Unauthorized;
    }
    match fetch {
      case FetchFailed(message) =>
        s', resp := s, Failed(message.GetOr("Sync failed"));
      case Fetched(items) =>
        s' := SyncAll(s, items, now);
        resp := Synced(|items|);
    }
  }
}

=== FILE: tee_scorecard.dfy ===
/** The course page's tee list and per-tee scorecard dialog: tees grouped by
    gender, the selected tee, and the per-hole rows and totals for it. */
module TeeScorecard {
  import opened Wrappers
  import opened Seqs
  import opened Text
  import opened Catalog
  import opened Holes

  /** A tee as the course page loads it; rating and slope are only displayed and are left out. */
  datatype TeeCard = TeeCard(id: Id, name: Option<string>, gender: Option<string>, par: Option<int>, courseDistance: Option<int>)

  predicate IsMen(t: TeeCard) {
    t.gender == Some("MALE")
  }

  predicate IsWomen(t: TeeCard) {
    t.gender == Some("FEMALE")
  }

  predicate IsOther(t: TeeCard) {
    !IsMen(t) && !IsWomen(t)
  }

  /** The three lists the page shows. */
  datatype Groups = Groups(men: seq<TeeCard>, women: seq<TeeCard>, other: seq<TeeCard>)

  /** `menTees`, `womenTees`, `otherTees`. */
  function GroupTees(tees: seq<TeeCard>): (g: Groups)
    ensures forall t :: t in g.men <==> t in tees && IsMen(t)
    ensures forall t :: t in g.women <==> t in tees && IsWomen(t)
    ensures forall t :: t in g.other <==> t in tees && IsOther(t)
  {
    Groups(Filter(tees, IsMen), Filter(tees, IsWomen), Filter(tees, IsOther))
  }

  /** Every tee of the course is listed in exactly one group, and each group keeps the course's order. */
  lemma GroupsPartition(tees: seq<TeeCard>)
    ensures var g := GroupTees(tees);
      && multiset(g.men) + multiset(g.women) + multiset(g.other) == multiset(tees)
      && SubseqOf(g.men, tees) && SubseqOf(g.women, tees) && SubseqOf(g.other, tees)
  {
    var notMen := (t: TeeCard) => !IsMen(t);
    var notWomen := (t: TeeCard) => !IsWomen(t);
    var rest := Filter(tees, notMen);
    FilterPartition(tees, IsMen, notMen);
    FilterPartition(rest, IsWomen, notWomen);
    FilterFilter(tees, notMen, IsWomen, IsWomen);
    FilterFilter(tees, notMen, notWomen, IsOther);
    FilterIsSubseq(tees, IsMen);
    FilterIsSubseq(tees, IsWomen);
    FilterIsSubseq(tees, IsOther);
  }

  /** The dialog's state is the selected tee; it is open exactly when one is selected. */
  predicate DialogOpen(selected: Option<TeeCard>) {
    selected.Some?
  }

  /** `openScorecard(tee)`: a badge click selects its tee. */
  function OpenScorecard(tee: TeeCard): (s: Option<TeeCard>)
    ensures DialogOpen(s) && s.value == tee
  {
    Some(tee)
  }

  /** `onOpenChange`: closing clears the selection; an open request changes nothing. */
  function OnOpenChange(selected: Option<TeeCard>, open: bool): (s: Option<TeeCard>)
    ensures !open ==> !DialogOpen(s)
    ensures open ==> s == selected
  {
    if !open then None else selected
  }

  /** One row of the per-tee table. */
  datatype RowView = RowView(hole: string, par: Option<int>, strokeIndex: Option<int>, distance: Option<int>)

  /** The hole cell: the hole's number, then its name when it has a non-empty one. */
  function HoleCell(hole: HoleInfo): string {
    IntToString(hole.holeIndex + 1) + (if hole.name.Some? && hole.name.value != "" then " — " + hole.name.value else "")
  }

  /** A hole's row for the selected tee, read from the hole's first row for that tee. */
  function TeeRow(hole: HoleInfo, teeId: Id): (r: RowView)
    ensures (forall i :: 0 <= i < |hole.holeTees| ==> hole.holeTees[i].teeId != teeId) ==>
      r.par.None? && r.strokeIndex.None? && r.distance.None?
    ensures forall i :: IsFirstFor(hole.holeTees, teeId, i) ==>
      r.par == hole.holeTees[i].par && r.strokeIndex == hole.holeTees[i].strokeIndex && r.distance == hole.holeTees[i].distance
  {
    assert forall i :: IsFirstFor(hole.holeTees, teeId, i) ==>
      ParFor(hole, teeId) == hole.holeTees[i].par && StrokeIndexFor(hole, teeId) == hole.holeTees[i].strokeIndex
      && DistanceFor(hole, teeId) == hole.holeTees[i].distance by {
      forall i | IsFirstFor(hole.holeTees, teeId, i)
        ensures ParFor(hole, teeId) == hole.holeTees[i].par && StrokeIndexFor(hole, teeId) == hole.holeTees[i].strokeIndex
          && DistanceFor(hole, teeId) == hole.holeTees[i].distance
      {
        FirstRowDecides(hole, teeId, i);
      }
    }
    RowView(HoleCell(hole), ParFor(hole, teeId), StrokeIndexFor(hole, teeId), DistanceFor(hole, teeId))
  }

  /** The footer sums: a hole without a row for the tee, or a row without the value, adds 0. */
  function TotalPar(holes: seq<HoleInfo>, teeId: Id): int {
    Sum(holes, (h: HoleInfo) => ParFor(h, teeId).GetOr(0))
  }

  function TotalDistance(holes: seq<HoleInfo>, teeId: Id): int {
    Sum(holes, (h: HoleInfo) => DistanceFor(h, teeId).GetOr(0))
  }

  /** A footer cell, `total || "—"`: a zero total shows as a dash. */
  function TotalCell(total: int): (s: string)
    ensures s == "—" <==> total == 0
    ensures total != 0 ==> ParseInt(s) == Finite(total)
  {
    if total == 0 then "—"
    else
      ParseIntRoundTrip(total);
      IntToString(total)
  }

  /** Holes with no row for the tee leave the totals as they are. */
  lemma UnmatchedHolesAddNothing(holes: seq<HoleInfo>, extra: seq<HoleInfo>, teeId: Id)
    requires forall k :: 0 <= k < |extra| ==>
      forall i :: 0 <= i < |extra[k].holeTees| ==> extra[k].holeTees[i].teeId != teeId
    ensures TotalPar(holes + extra, teeId) == TotalPar(holes, teeId)
    ensures TotalDistance(holes + extra, teeId) == TotalDistance(holes, teeId)
  {
    var fp := (h: HoleInfo) => ParFor(h, teeId).GetOr(0);
    var fd := (h: HoleInfo) => DistanceFor(h, teeId).GetOr(0);
    SumConcat(holes, extra, fp);
    SumConcat(holes, extra, fd);
    SumZero(extra, fp);
    SumZero(extra, fd);
  }
}

=== FILE: text.dfy ===
/** String and number helpers with JavaScript's meaning: whitespace as `\s`
    and `String.prototype.trim` see it, ASCII case mapping, `String(n)` for
    integers, and `parseInt(s, 10)`. */
module Text {
  import opened Wrappers

  /** A JavaScript number as `parseInt` can produce it: a finite integer or NaN. */
  datatype Num = Finite(value: int) | NaN

  /** The WhiteSpace and LineTerminator code points of ECMAScript (`\s`, `trim`). */
  predicate IsSpace(c: char) {
    || c == ' ' || c == '\t' || c == '\n' || c == '\r'
    || c == '\U{000B}' || c == '\U{000C}' || c == '\U{00A0}' || c == '\U{1680}'
    || ('\U{2000}' <= c <= '\U{200A}')
    || c == '\U{2028}' || c == '\U{2029}' || c == '\U{202F}' || c == '\U{205F}'
    || c == '\U{3000}' || c == '\U{FEFF}'
  }

  predicate AllSpace(s: string) {
    forall i :: 0 <= i < |s| ==> IsSpace(s[i])
  }

  /** Neither end of `s` is whitespace. */
  predicate Trimmed(s: string) {
    s == [] || (!IsSpace(s[0]) && !IsSpace(s[|s| - 1]))
  }

  /** `String.prototype.trimStart`. */
  function TrimStart(s: string): (r: string)
    ensures |r| <= |s|
    ensures r == [] || !IsSpace(r[0])
    ensures |s| > 0 && IsSpace(s[0]) ==> |r| < |s|
    decreases |s|
  {
    if |s| > 0 && IsSpace(s[0]) then TrimStart(s[1..]) else s
  }

  /** `trimStart` removes a whitespace prefix and keeps the rest. */
  lemma {:induction false} TrimStartDrops(s: string)
    ensures var r := TrimStart(s);
      r == s[|s| - |r|..] && AllSpace(s[..|s| - |r|])
    decreases |s|
  {
    if |s| > 0 && IsSpace(s[0]) {
      TrimStartDrops(s[1..]);
      var r := TrimStart(s);
      assert s[1..][|s| - 1 - |r|..] == s[|s| - |r|..];
      forall i | 0 <= i < |s| - |r| ensures IsSpace(s[i]) {
        if i > 0 { assert s[i] == s[1..][..|s| - 1 - |r|][i - 1]; }
      }
    }
  }

  /** `String.prototype.trimEnd`. */
  function TrimEnd(s: string): (r: string)
    ensures |r| <= |s|
    ensures r == [] || !IsSpace(r[|r| - 1])
    decreases |s|
  {
    if |s| > 0 && IsSpace(s[|s| - 1]) then TrimEnd(s[..|s| - 1]) else s
  }

  /** `trimEnd` removes a whitespace suffix and keeps the rest. */
  lemma {:induction false} TrimEndDrops(s: string)
    ensures var r := TrimEnd(s);
      r == s[..|r|] && AllSpace(s[|r|..])
    decreases |s|
  {
    if |s| > 0 && IsSpace(s[|s| - 1]) {
      var p := s[..|s| - 1];
      TrimEndDrops(p);
      var r := TrimEnd(s);
      assert p[..|r|] == s[..|r|];
      forall i | |r| <= i < |s| ensures IsSpace(s[i]) {
        if i < |s| - 1 { assert s[i] == p[|r|..][i - |r|]; }
      }
    }
  }

  /** `String.prototype.trim`: `s` is some whitespace, then `r`, then some whitespace. */
  function Trim(s: string): (r: string)
    ensures Trimmed(r)
    ensures exists i :: 0 <= i <= |s| - |r| && r == s[i..i + |r|] && AllSpace(s[..i]) && AllSpace(s[i + |r|..])
  {
    var t := TrimStart(s);
    var r := TrimEnd(t);
    var i := |s| - |t|;
    TrimStartDrops(s);
    TrimEndDrops(t);
    assert r == s[i..i + |r|];
    assert s[i + |r|..] == t[|r|..];
    assert r != [] ==> r[0] == t[0];
    r
  }

  /** `trim` is `trimStart` followed by `trimEnd`. */
  lemma TrimIsBothEnds(s: string)
    ensures Trim(s) == TrimEnd(TrimStart(s))
  {
  }

  /** Trimming leaves nothing exactly when the string is all whitespace. */
  lemma TrimEmpty(s: string)
    ensures Trim(s) == "" <==> AllSpace(s)
  {
    var r := Trim(s);
    var i :| 0 <= i <= |s| - |r| && r == s[i..i + |r|] && AllSpace(s[..i]) && AllSpace(s[i + |r|..]);
    if r == "" {
      forall k | 0 <= k < |s| ensures IsSpace(s[k]) {
        if k < i { assert s[k] == s[..i][k]; } else { assert s[k] == s[i..][k - i]; }
      }
    }
  }

  /** A string that is already trimmed is its own trim. */
  lemma TrimOfTrimmed(s: string)
    requires Trimmed(s)
    ensures Trim(s) == s
  {
  }

  /** `s || undefined` for a string: the empty string becomes absent. */
  function NonEmpty(s: string): (r: Option<string>)
    ensures r.None? <==> s == ""
    ensures r.Some? ==> r.value == s
  {
    if s == "" then None else Some(s)
  }

  predicate IsUpper(c: char) {
    'A' <= c <= 'Z'
  }

  /** ASCII `toLowerCase` of one character. */
  function LowerChar(c: char): char {
    if IsUpper(c) then (c as int + 32) as char else c
  }

  /** `String.prototype.toLowerCase`, restricted to the ASCII letters. */
  function ToLower(s: string): (r: string)
    ensures |r| == |s|
    ensures forall i :: 0 <= i < |s| ==> r[i] == LowerChar(s[i])
  {
    seq(|s|, i requires 0 <= i < |s| => LowerChar(s[i]))
  }

  predicate NoUpper(s: string) {
    forall i :: 0 <= i < |s| ==> !IsUpper(s[i])
  }

  predicate IsDigit(c: char) {
    '0' <= c <= '9'
  }

  predicate AllDigits(s: string) {
    forall i :: 0 <= i < |s| ==> IsDigit(s[i])
  }

  function DigitChar(d: int): (c: char)
    requires 0 <= d < 10
    ensures IsDigit(c)
  {
    (48 + d) as char
  }

  function DigitValue(c: char): (d: int)
    requires IsDigit(c)
    ensures 0 <= d < 10
  {
    c as int - 48
  }

  /** Decimal digits of a natural number, most significant first, no leading zeros. */
  function NatToString(n: nat): (r: string)
    ensures |r| > 0 && AllDigits(r)
    decreases n
  {
    if n < 10 then [DigitChar(n)] else NatToString(n / 10) + [DigitChar(n % 10)]
  }

  /** `String(n)` for an integer `n`. */
  function IntToString(n: int): (r: string)
    ensures |r| > 0
    ensures r[0] == '-' <==> n < 0
    ensures n >= 0 ==> AllDigits(r)
  {
    if n < 0 then "-" + NatToString(-n) else NatToString(n)
  }

  /** The value of a string of decimal digits, read left to right. */
  function DigitsValue(ds: string): nat
    requires AllDigits(ds)
    decreases |ds|
  {
    if |ds| == 0 then 0 else DigitsValue(ds[..|ds| - 1]) * 10 + DigitValue(ds[|ds| - 1])
  }

  /** The longest prefix of `s` made of decimal digits. */
  function DigitPrefix(s: string): (r: string)
    ensures |r| <= |s| && r == s[..|r|] && AllDigits(r)
    ensures |r| == |s| || !IsDigit(s[|r|])
    decreases |s|
  {
    if |s| > 0 && IsDigit(s[0]) then [s[0]] + DigitPrefix(s[1..]) else []
  }

  /** `parseInt(s, 10)`: skip leading whitespace, read an optional sign and the
      longest run of digits; NaN when there is no digit there. */
  function ParseInt(s: string): Num {
    var t := TrimStart(s);
    var signed := |t| > 0 && (t[0] == '-' || t[0] == '+');
    var digits := DigitPrefix(if signed then t[1..] else t);
    if |digits| == 0 then NaN
    else if signed && t[0] == '-' then Finite(-(DigitsValue(digits) as int))
    else Finite(DigitsValue(digits))
  }

  lemma {:induction false} NatToStringValue(n: nat)
    ensures DigitsValue(NatToString(n)) == n
    decreases n
  {
    if n >= 10 {
      var s := NatToString(n);
      NatToStringValue(n / 10);
      assert s[..|s| - 1] == NatToString(n / 10);
    }
  }

  /** The digit run of a string of digits followed by a non-digit is those digits. */
  lemma {:induction false} DigitPrefixOf(ds: string, rest: string)
    requires AllDigits(ds)
    requires rest == [] || !IsDigit(rest[0])
    ensures DigitPrefix(ds + rest) == ds
    decreases |ds|
  {
    if ds != [] {
      assert (ds + rest)[1..] == ds[1..] + rest;
      DigitPrefixOf(ds[1..], rest);
    } else {
      assert ds + rest == rest;
    }
  }

  /** `parseInt` reads back what `String` wrote, whatever non-digit text follows:
      the decimal text of an integer parses to that integer. */
  lemma ParseIntPrefix(n: int, rest: string)
    requires rest == [] || !IsDigit(rest[0])
    ensures ParseInt(IntToString(n) + rest) == Finite(n)
  {
    var m: nat := if n < 0 then -n else n;
    var ds := NatToString(m);
    NatToStringValue(m);
    if n < 0 {
      assert IntToString(n) + rest == "-" + ds + rest;
      ParseNegative(IntToString(n) + rest, ds, rest);
    } else {
      ParseDigits(IntToString(n) + rest, ds, rest);
    }
  }

  /** A minus sign, a digit run and a non-digit tail parse to the negated run. */
  lemma ParseNegative(s: string, ds: string, rest: string)
    requires ds != [] && AllDigits(ds) && (rest == [] || !IsDigit(rest[0]))
    requires s == "-" + ds + rest
    ensures ParseInt(s) == Finite(-(DigitsValue(ds) as int))
  {
    assert TrimStart(s) == s;
    assert s[1..] == ds + rest;
    DigitPrefixOf(ds, rest);
  }

  /** A digit run followed by a non-digit tail parses to the run's value. */
  lemma ParseDigits(s: string, ds: string, rest: string)
    requires ds != [] && AllDigits(ds) && (rest == [] || !IsDigit(rest[0]))
    requires s == ds + rest
    ensures ParseInt(s) == Finite(DigitsValue(ds))
  {
    assert s[0] == ds[0];
    assert TrimStart(s) == s;
    DigitPrefixOf(ds, rest);
  }

  lemma ParseIntRoundTrip(n: int)
    ensures ParseInt(IntToString(n)) == Finite(n)
  {
    ParseIntPrefix(n, []);
    assert IntToString(n) + [] == IntToString(n);
  }

  /** An explicit plus sign is read as no sign at all. */
  lemma ParseIntPlus(m: nat)
    ensures ParseInt("+" + NatToString(m)) == Finite(m)
  {
    var ds := NatToString(m);
    var s := "+" + ds;
    assert TrimStart(s) == s;
    assert s[1..] == ds;
    NatToStringValue(m);
    DigitPrefixOf(ds, []);
    assert ds + [] == ds;
  }

  /** `parseInt` of text that holds no digit at all is NaN. */
  lemma ParseIntNoDigits(s: string)
    requires forall i :: 0 <= i < |s| ==> !IsDigit(s[i])
    ensures ParseInt(s) == NaN
  {
    var t := TrimStart(s);
    TrimStartDrops(s);
    if |t| > 1 {
      assert t[1] == s[|s| - |t| + 1];
    } else if |t| == 1 {
      assert t[0] == s[|s| - 1];
    }
  }
}

=== FILE: wrappers.dfy ===
/** Optional values: the model's rendering of TypeScript's `T | null | undefined`. */
module Wrappers {

  datatype Option<+T> = None | Some(value: T) {

    /** The value, or `default` when absent (TypeScript's `x ?? default`). */
    function GetOr(default: T): T {
      match this
      case Some(v) => v
      case None => default
    }
  }
}
